=== FILE: README.md ===
# PyTools kernels in Dafny

PyTools is a terminal toolbox: a menu of system, network, security, IP, download,
utility and configuration tools, plus an older single-file script. Most of it
drives shell commands, `psutil`, `requests` and `rich`. This project models the
pure decisions inside that glue and proves what they guarantee:

- the IPv4 subnet calculator: dotted quad to and from a 32-bit number, mask,
  wildcard, network, broadcast, usable range and counts; the classful address
  class; the calculator's input checks. The prefix semantics are those of
  section 3.1 of RFC 4632;
- the geolocation field mapping and the ordered fallback over web services,
  with the network as an oracle;
- the validators and formatters of `core/base.py`: `validate_ip`,
  `format_duration`, the package-manager probe, `is_command_available`, the
  "sudo " prefix, the result mapping of `run_silent` and `get_output`, and
  `safe_input`;
- the menu system of `ui/menus.py`: the structure built from the loaded
  modules, the option numbers both screens show, choice validation, the main and
  category loops as a step machine, and `execute_item`;
- the password tooling of `modules/security.py`: the additive score, its bands
  and the recommendations; the generator with randomness as an oracle; the
  input clamps; the XOR file cipher;
- the kernels of the legacy script `pytools.py`: menu-choice validation and
  dispatch, tiered password strength, title slugging, the download retry loop
  and the disk-usage bar;
- the dotted-key configuration and the memory-over-disk cache of
  `core/utils.py`;
- the download helpers of `modules/downloads.py`: the YouTube backend and kind
  choice, title sanitisation, file names from URLs, URL collection, the batch
  tally and the chunk-write loop.

The modules follow the source files: `Base`, `IpTools`, `IpCalculator`,
`Geolocation`, `Menus`, `Security`, `Legacy`, `Utils` and `Downloads`. Four
support modules model the Python built-ins they use: `Wrappers` (`Option`),
`Text` (`split`, `join`, `strip`, `replace`, `title`, `os.path.basename`),
`Decimal` (`str()` and `int()` on integers) and `Bits` (`&`, `|`, `^`, `<<`
and `>>` on unbounded non-negative integers).

Oracles stand in for everything outside the program. These are: the outcome of
a subprocess, whether a path exists, what the user typed, the response to a web
request, the files on disk, the SHA-256 digest of a password and the draws of
`secrets`.

Answers to prompts follow one convention. A parameter named `line`, or ending in
`Line` (`choiceLine`, `nameLine`, `outputLine`), is the raw line as typed. The
member passes it through `Base.PromptWithDefault`, which models
`Display.prompt` (ui/display.py:353-361): an empty line gives the default, and
any other line is stripped. Legacy's `ValidateMenuChoice` is the exception: its
`line` comes from the plain `input()` and goes to `int()` unstripped. Every
other parameter that holds an answer (`answer`, `input`, `url`, `password`,
`lengthText`, the menus' `Typed` event) is the value the prompt already
returned.

## Model

| member | source | states |
|---|---|---|
| Base.ValidateIpMeaning | core/base.py:309-317 | `validate_ip` accepts exactly the texts that split at "." into four groups of one to three ASCII digits whose value is at most 255 |
| Base.OctetPatternMeaning | core/base.py:313-314 | the octet alternatives `25[0-5]`, `2[0-4][0-9]` and `[01]?[0-9][0-9]?` together match exactly the one-to-three-digit numerals up to 255, leading zeros included |
| Base.ValidateIpJoin | core/base.py:309-317 | four dot-free pieces joined with "." validate exactly when each piece is a decimal octet |
| Base.ValidateIpNoNewline | core/base.py:309-317 | the corrected validator never accepts text containing a newline |
| Base.TrailingNewlineAccepted | core/base.py:313-317 | the pattern as written, with Python's `$`, also accepts any valid address followed by "\n" |
| Base.FormatDurationSeconds | core/base.py:281-282 | below 60 seconds the text is the count followed by "s", and `int()` of the text without its "s" gives the count back |
| Base.FormatDurationMinutes | core/base.py:283-286 | for 60 m + s seconds with 1 <= m < 60 and s < 60, the text is "{m}m {s}s" |
| Base.FormatDurationHours | core/base.py:287-290 | for 3600 h + 60 m + s seconds with h >= 1, the text is "{h}h {m}m" and the seconds are dropped |
| Base.FormatDurationSame | core/base.py:279-290 | two durations print the same text exactly when they are equal or, both from an hour on, have the same whole minutes: only the seconds of the hours branch are lost |
| Base.FirstExisting | core/base.py:113-115 | the first index whose path exists, with every earlier path missing |
| Base.DetectPackageManager | core/base.py:99-124 | Termux gives "pkg" on any OS; Linux gives the first of apt, apt-get, dnf, yum, pacman, zypper whose path exists, else "unknown"; Darwin gives "brew" iff either brew path exists; Windows gives "choco"; other systems give "unknown" |
| Base.IsCommandAvailable | core/base.py:126-145 | true iff the locator (`where` on Windows, `which` elsewhere) completes with exit code 0; a timeout or any other error gives false |
| Base.PrepareCommand | core/base.py:197-199 | the command gets "sudo " in front iff sudo was asked for, the process is neither in Termux nor root, and the OS is not Windows; otherwise it is unchanged |
| Base.PrepareCommandKeepsCommand | core/base.py:197-199 | the original command is always the tail of what runs, behind at most the five characters "sudo " |
| Base.RunSilent | core/base.py:228-236 | true exactly when the command completed with exit code 0; a timeout, another exception or a non-zero code gives false |
| Base.GetOutput | core/base.py:238-248 | a result exists exactly when the command completed with exit code 0, and it is the stripped standard output |
| Base.GetOutputAgreesWithRunSilent | core/base.py:228-248 | `get_output` has a result exactly when `run_silent` reports success, and that result has no surrounding whitespace |
| Base.SafeInput | core/base.py:325-346 | the stripped input when it is non-empty; otherwise, and on any exception, the default |
| Base.SafeInputMeaning | core/base.py:339-346 | whitespace-only input gives the default, and an answer other than the default is already stripped |
| IpTools.IntToIpRoundTrip | modules/ip_tools.py:320-327 | every number below 2^32 prints as a dotted quad that `validate_ip` accepts and that `_ip_to_int` maps back to the same number |
| IpTools.ValidAddressRoundTrip | modules/ip_tools.py:320-327 | every address `validate_ip` accepts converts to a number below 2^32, and printing that number gives the text back exactly when all four pieces are canonical numerals (no leading zeros) |
| IpTools.ValidAddressValue | modules/ip_tools.py:320-323 | the number of a valid address is 2^24 a + 2^16 b + 2^8 c + d for the values of its four pieces |
| IpTools.PiecesRoundTrip | modules/ip_tools.py:320-327 | for four decimal-octet pieces, printing their number reproduces the text iff every piece is canonical |
| IpTools.ParseAllMeaning | modules/ip_tools.py:322 | the list comprehension of `int(part)` fails iff some piece is not a number, and otherwise yields each piece's value |
| IpTools.QuadText | modules/ip_tools.py:320-327 | four octets printed and joined with "." form a valid address whose number is their weighted sum |
| IpTools.QuadPieces | modules/ip_tools.py:320-323 | four decimal-octet pieces joined with "." split back into themselves, validate, and convert to the weighted sum of their values |
| IpTools.OctetsCompose | modules/ip_tools.py:325-327 | the four `(n >> k) & 0xFF` octets of a 32-bit number are below 256 and recompose to the number |
| IpTools.OctetArithmetic | modules/ip_tools.py:325-327 | `(n >> (24 - 8k)) & 0xFF` is `(n div 2^(24-8k)) mod 256` |
| IpTools.Address | core/base.py:309-317 | the number of an address `validate_ip` accepts is below 2^32 and is what `_ip_to_int` returns |
| IpCalculator.CalculateSubnet | modules/ip_tools.py:275-318 | total = 2^(32-c); mask = 2^32 - total and wildcard = total - 1; the network is the address rounded down to a block of `total`; broadcast = network + wildcard; network <= address <= broadcast < 2^32; network AND wildcard = 0; for c < 31 the usable range is network+1 .. broadcast-1 with total - 2 addresses, for c >= 31 it is network .. broadcast with total addresses; first <= last always |
| IpCalculator.SubnetFacts | modules/ip_tools.py:280-291 | the mask expression equals 2^32 - 2^(32-c) and the wildcard 2^(32-c) - 1; mask XOR wildcard is all ones and mask AND wildcard is 0; address AND mask rounds the address down to its block; network OR wildcard is the last address of the block |
| IpCalculator.SubnetMaskBits | modules/ip_tools.py:281-289 | of the 32 bits, the mask sets exactly the top c and the wildcard exactly the other 32 - c; c = 0 gives mask 0 |
| IpCalculator.MaskWildcardComplement | modules/ip_tools.py:281-289 | mask and wildcard share no bit, and their OR and their XOR are both 0xFFFFFFFF |
| IpCalculator.SameNetwork | modules/ip_tools.py:284-291 | an address lies between network and broadcast exactly when masking it gives the same network |
| IpCalculator.ClassLeadingBits | modules/ip_tools.py:329-346 | "Unknown" iff the first octet is 0 or outside 1..255; otherwise A iff the leading bit is 0 (with "A (Loopback)" iff 127), B iff the leading bits are 10, C iff 110, D iff 1110, E iff 1111 |
| IpCalculator.ValidAddressClass | modules/ip_tools.py:329-346 | on a valid address the class is that of the first piece's value, and it is "Unknown" exactly when that octet is 0 |
| IpCalculator.SubnetInfo | modules/ip_tools.py:301-316 | the report has eleven rows, begins with the typed address and shows the prefix as "/{c}" |
| IpCalculator.SubnetInfoReadsBack | modules/ip_tools.py:275-318 | every address row is a valid dotted quad that converts back to the number computed for it; the counts parse back to total and usable; the class row is the class of the address |
| IpCalculator.ReportReadsBack | modules/ip_tools.py:301-316 | each of the six address rows carries its label and a valid dotted quad for its number, whenever the numbers fit in 32 bits |
| IpCalculator.AddressRow | modules/ip_tools.py:301-316 | one address row reads back as the address it prints |
| IpCalculator.Report | modules/ip_tools.py:301-316 | the report always has eleven rows |
| IpCalculator.Execute | modules/ip_tools.py:229-273 | the report is shown iff the input has exactly one "/", a valid address before it and a number from 0 to 32 after it; it is then the report for those; every rejection is one of the four messages |
| IpCalculator.ExecuteErrors | modules/ip_tools.py:235-256 | no "/" iff the usage error; "Invalid format" iff a "/" is present but the text does not split into two pieces or the prefix is not a number; "Invalid IP address" only for an invalid address; the range message only for a prefix outside 0..32 |
| IpCalculator.ExecuteAcceptsPrinted | modules/ip_tools.py:229-273 | every printed address followed by "/" and a prefix from 0 to 32 is accepted, and the report is about that address |
| IpCalculator.ExecuteOf | modules/ip_tools.py:229-273 | an input that splits at "/" into a valid address and a decimal prefix from 0 to 32 shows the report for exactly that address and prefix, titled with the input |
| IpCalculator.PrintedAvoidsSlash | modules/ip_tools.py:325-327 | a printed address contains no "/" |
| Geolocation.FirstTruthy | modules/ip_tools.py:121-125 | the position of the first alias that is present with a truthy value, every earlier alias failing; `None` iff no alias qualifies |
| Geolocation.FormatFields | modules/ip_tools.py:121-127 | at most one row per mapping; every row is labelled with the display form of some mapping's key and holds `str()` of that key's first truthy alias; when the display keys are distinct, so are the row labels |
| Geolocation.FormatFieldsAppend | modules/ip_tools.py:121-127 | the rows of two lists of mappings, one after the other, are the rows of the first followed by those of the second: rows come out in `field_mappings` order, the order `show_key_value` displays |
| Geolocation.FormatFieldsOne | modules/ip_tools.py:121-125 | one mapping gives no row when none of its aliases is truthy, and otherwise the one row of its display key and `str()` of the first truthy alias |
| Geolocation.FormatFieldsLookup | modules/ip_tools.py:103-127 | each output key holds `str()` of its first present truthy alias, and is absent when there is none |
| Geolocation.GeoDataLookup | modules/ip_tools.py:103-127 | for each of the ten keys of `_format_geo_data`, the label "Country Code", "Isp" and so on holds `str()` of the first truthy alias in the provider reply |
| Geolocation.GeoLabelsOfMappings | modules/ip_tools.py:108-124 | each output label is its key with "_" turned to a space and then title-cased |
| Geolocation.GeoKeysDistinct | modules/ip_tools.py:108-119 | the ten output labels are pairwise distinct |
| Geolocation.MissingKey | modules/ip_tools.py:121-127 | a label no mapping produces has no row |
| Geolocation.FirstSuccess | modules/ip_tools.py:67-101 | the fallback loop gives `None` iff no service answers with status 200 and a readable body |
| Geolocation.FirstSuccessIsFirst | modules/ip_tools.py:67-101 | a found answer comes from one service, and every service before it raised, answered with another status, or could not be read |
| Geolocation.FirstSuccessPrefix | modules/ip_tools.py:67-101 | adding services after the list never changes an answer already found |
| Geolocation.PublicIpIsFirst | modules/ip_tools.py:67-83 | the public address is the stripped text of the first service that answers 200 |
| Geolocation.MyIpExtendsGeoIp | modules/ip_tools.py:169-186 | the four-service lookup of `MyPublicIPModule` finds the same address as the three-service lookup whenever the latter finds one |
| Geolocation.GeolocationOrder | modules/ip_tools.py:85-101 | the second geolocation service is asked only when the first raised, answered with another status or sent a body that `response.json()` or `_format_geo_data` fails on; any other 200 reply ends the search with its rows |
| Geolocation.Geolocate | modules/ip_tools.py:29-65 | rows are shown iff the target (typed, or detected when nothing was typed) is a valid address and a service answers; a typed invalid address gives "Invalid IP address format"; a failed detection gives "Failed to detect your IP" |
| Geolocation.MyPublicIp | modules/ip_tools.py:142-167 | success iff the four-service lookup found a non-empty address; then some service answered 200 with a body that is not blank, and no earlier service answered 200 |
| Geolocation.MyPublicIpCoversGeolocate | modules/ip_tools.py:142-186 | whenever the geolocator detects the user's address, `MyPublicIPModule` succeeds with the same address |
| Menus.FindCategory | ui/menus.py:69-75 | the position of the category with that name, or `None` iff there is none |
| Menus.AddCategory | ui/menus.py:73-75 | a new name is appended; a known name replaces that category in place; names stay unique; the main items are untouched |
| Menus.AddMainItem | ui/menus.py:77-79 | the item is appended to the main items, and nothing else changes |
| Menus.CreateDefaultCategories | ui/menus.py:288-342 | seven empty categories with unique names, in the order system, network, security, ip, downloads, utilities, config |
| Menus.AddModules | ui/menus.py:369-379 | adding modules keeps the category's name, title and colour and adds one item per module |
| Menus.AddModulesValue | ui/menus.py:369-379 | the items appended are numbered consecutively after the existing ones and carry the category's colour and name |
| Menus.AddToNamed | ui/menus.py:366-368 | a module list is added to the category of that name only; every other category is unchanged |
| Menus.Populate | ui/menus.py:366-379 | the outer loop keeps the number, names, titles and colours of the categories |
| Menus.PopulateItems | ui/menus.py:366-379 | each category ends with its earlier items followed by the items for all modules filed under its name, in list order |
| Menus.BuildMenuStructure | ui/menus.py:345-381 | the built menu has the seven default categories in order, no main items, and is running |
| Menus.BuildNumbers | ui/menus.py:366-379 | in every category of the built menu, item k (from 0) has number k + 1, the category's colour and name, and comes from the k-th module filed under it |
| Menus.BuildIgnoresUnknown | ui/menus.py:366-367 | a module list filed under a name that is not a default category changes nothing |
| Menus.ShowMainMenuAsWritten | ui/menus.py:81-139 | the screen has one option per category and main item plus exit, and returns the exit number C + M + 1 |
| Menus.AsWrittenNumbers | ui/menus.py:98-133 | as written, categories show 1..C, main item j shows C + 2 + j, and exit shows C + M + 1 |
| Menus.MainNumberingClash | ui/menus.py:109-133 | as written, when a main item exists the last one shows the exit number, and no option shows C + 1 |
| Menus.ShownLastItemExits | ui/menus.py:201-230 | typing the number the as-written screen shows on the last main item stops the menu instead of running the item |
| Menus.FirstItemRunsUnderHiddenNumber | ui/menus.py:201-230 | the main loop runs the first main item only for choice C + 1, a number the as-written screen does not show |
| Menus.ShowMainMenu | ui/menus.py:81-139 | corrected screen: option k shows number k, and the exit number is C + M + 1 |
| Menus.MainChoiceMatchesScreen | ui/menus.py:201-230 | on the corrected screen, typing an option's number enters that category, runs that main item, or exits |
| Menus.ShowCategoryMenu | ui/menus.py:141-175 | one option per item under the item's own number, then "Back to Main Menu" numbered len(items) + 1, which is returned |
| Menus.GetUserChoice | ui/menus.py:177-199 | a number is picked iff the text is an integer in 1..max, and it is that integer; empty input gives no choice and no error; any other rejected text gives exactly one error; an interrupt is passed on |
| Menus.TypingShownNumber | ui/menus.py:177-196 | typing any number from 1 to max picks it |
| Menus.MainStep | ui/menus.py:201-230 | the loop stops iff the exit number is chosen or an interrupt is confirmed; it only runs main items; it only enters existing categories |
| Menus.ItemNumbered | ui/menus.py:246-249 | the first item carrying the number, or `None` iff no item carries it |
| Menus.CategoryStep | ui/menus.py:232-253 | the loop returns to the main menu iff the back number is chosen or an interrupt arrives; otherwise it stays; it only runs items of the category |
| Menus.CategoryChoiceMatchesScreen | ui/menus.py:232-253 | with items numbered 1..n, typing a shown number runs that item or goes back |
| Menus.MenuStep | ui/menus.py:201-253 | a stopped menu stays stopped and runs nothing |
| Menus.Run | ui/menus.py:201-253 | a run of prompts runs at most one item per prompt |
| Menus.RunStopped | ui/menus.py:203-234 | once stopped, the menu reads nothing and runs nothing |
| Menus.RunRunsMenuItems | ui/menus.py:201-253 | every item the menu runs is a main item or an item of one of its categories |
| Menus.ExecuteItem | ui/menus.py:255-281 | true shows the success "Operation completed successfully!" and false the warning "Operation completed with warnings."; text is shown as info; `None` and other values show nothing; an exception shows the error "Error: " followed by its message and an interrupt the warning "Operation cancelled by user."; the pause always happens |
| Menus.NoticeDeterminesOutcome | ui/menus.py:255-281 | two callback outcomes that show the same message are the same outcome, so the message shown tells which outcome occurred |
| Security.Score | modules/security.py:84-105 | the score is at most 100; it is 100 iff the length is at least 16 and all four classes occur; below length 8 it is at most 50 |
| Security.Band | modules/security.py:107-127 | "Very Strong" iff the score is at least 90, "Strong" iff it is in 70..89, "Medium" iff in 50..69, "Weak" iff in 30..49, and "Very Weak" iff below 30 |
| Security.BandMonotone | modules/security.py:107-127 | a higher score never gets a weaker band, and 30, 50 and 70 open Weak, Medium and Strong |
| Security.Recommendations | modules/security.py:129-140 | one entry per failed criterion (length below 12, no upper, no lower, no digit, no special character); each of the five pieces of advice appears iff its criterion fails; nothing else appears; the entries keep the fixed order length, upper, lower, digits, special; empty iff every criterion holds |
| Security.NoFailures | modules/security.py:129-140 | no criterion fails iff the length is at least 12 and all four classes occur |
| Security.SelectMember | modules/security.py:129-140 | filtering a duplicate-free list by flags keeps an entry iff its flag is set |
| Security.SelectOrder | modules/security.py:129-140 | filtering keeps the list's order |
| Security.AnalyzePassword | modules/security.py:82-153 | the score is the additive score and the strength its band; the colour and the crack time are those of the band; the four class flags and the length are the password's; the recommendations are those for the password; no recommendations implies a score of at least 85 |
| Security.AppendNeverLowers | modules/security.py:84-105 | appending a character never lowers the score nor the band |
| Security.CheckStrength | modules/security.py:31-80 | no analysis iff the password line strips to ""; otherwise the analysis is exactly that of the stripped password |
| Security.ClampLength | modules/security.py:171-181 | the length is in 8..128; text `int()` rejects gives 16; a number in range is kept, below 8 gives 8, above 128 gives 128 |
| Security.ClampCount | modules/security.py:186-193 | the count is in 1..20; text `int()` rejects gives 5; a number in range is kept, below 1 gives 1, above 20 gives 20 |
| Security.ClampsIdempotent | modules/security.py:171-193 | clamping an already clamped value keeps it |
| Security.Choice | modules/security.py:228-238 | `secrets.choice` yields a member of the sequence |
| Security.Seeds | modules/security.py:228-235 | three guaranteed characters, or four with special characters |
| Security.SeedsFacts | modules/security.py:228-235 | the seeds are an upper-case letter, a lower-case letter and a digit, plus a punctuation character when asked, all from the alphabet |
| Security.Fill | modules/security.py:237-239 | the fill loop keeps the prefix, reaches at least the requested length, and draws every new character from the alphabet |
| Security.FilledFacts | modules/security.py:222-239 | the filled password starts with the seeds and the rest comes from the alphabet |
| Security.Shuffle | modules/security.py:241-242 | the shuffle is a permutation: same length and same multiset of characters |
| Security.GeneratePassword | modules/security.py:220-243 | the length is max(requested, 3), or max(requested, 4) with special characters |
| Security.GeneratedPassword | modules/security.py:220-243 | the password has that length, contains an upper-case letter, a lower-case letter, a digit and (when asked) a punctuation character, and draws every character from the alphabet |
| Security.GeneratePasswords | modules/security.py:168-218 | the clamped count of passwords; password n is the generator's password of the clamped length drawn from the n-th random stream, so it has the clamped length |
| Security.Xor | modules/security.py:464-476 | the output has the input's length, and byte i is input byte i XOR key byte i mod the key length |
| Security.XorInvolution | modules/security.py:464-481 | XORing twice with the same key gives the input back |
| Security.Decrypt | modules/security.py:478-481 | decryption is the same transformation, so encrypting its output gives the input |
| Security.EncryptFile | modules/security.py:422-476 | a file is written iff the choice is "1" or "2", the input exists, a password was given and the output line is empty or not blank; the output path is input + ".encrypted" for an empty line and the stripped line otherwise; it holds the XORed bytes, and every other file is unchanged |
| Security.EncryptThenDecrypt | modules/security.py:422-481 | whenever neither output line is blank, encrypting a file and decrypting the result with the same password restores the original bytes |
| Legacy.ValidateMenuChoice | pytools.py:50-60 | a number is returned iff `int()` accepts the text and the value is in 1..15, and it is that value |
| Legacy.MenuNumbersAccepted | pytools.py:50-60 | every menu number typed as shown is accepted |
| Legacy.ActionOf | pytools.py:557-587 | no action iff the number is 15 |
| Legacy.NumberOf | pytools.py:538-551 | each action has a number in 1..14 that dispatches back to it |
| Legacy.DispatchIsBijective | pytools.py:557-585 | each of 1..14 runs exactly one action, and different numbers run different actions |
| Legacy.Menu | pytools.py:532-587 | never more actions than answers; the session ends by updating iff the last action run is the script update; running out of answers means none of them read 14 or 15 |
| Legacy.MenuRunsChosenActions | pytools.py:532-587 | the loop stops before the answers run out iff some answer reads 14 or 15; at the first such answer it has run, in order, the action of every answer in 1..14 up to and including it, and it ends by quitting for 15 and by updating the script for 14; with no such answer every requested action runs |
| Legacy.MenuFirstStop | pytools.py:532-587 | at the first answer reading 14 or 15 the loop stops with the actions requested up to it |
| Legacy.MenuNoStop | pytools.py:532-587 | with no 14 or 15 among the answers every requested action runs and the answers run out |
| Legacy.MenuStopsHere | pytools.py:584-587 | an answer of 14 stops the loop after the script update, and 15 stops it at once |
| Legacy.MenuStep | pytools.py:555-585 | any answer other than 14 or 15 runs the action it asks for, if any, and the loop goes on with the next answer |
| Legacy.PasswordStrength | pytools.py:505-515 | "Super Strong" iff length >= 16 with upper, lower, digit and special character; "Strong" iff the Strong rule (length >= 12, upper, lower, digit) holds but not the Super Strong one; "Medium" iff length >= 8 with a letter and a digit but not the Strong rule; "Weak" iff length >= 6 but not the Medium rule; "Super Weak" iff shorter than 6 |
| Legacy.StrongIsMedium | pytools.py:506-511 | a password meeting the Strong rule meets the Medium rule |
| Legacy.TiersNested | pytools.py:506-513 | the tier conditions are nested, so length >= 6 gives at least Weak, and the Strong and Medium conditions give at least those tiers |
| Legacy.TiersAgreeWithScore | pytools.py:505-515 | a Super Strong password scores 100 and is Very Strong for the module analyser; a Strong one scores at least 75 and is at least Strong there |
| Legacy.SlugifyTitle | pytools.py:398-399 | same length; ASCII letters and digits are kept; every other character becomes "_" |
| Legacy.SlugifyIdempotent | pytools.py:398-413 | a slug holds only letters, digits and "_", and slugging twice equals slugging once |
| Legacy.RetryFrom | pytools.py:414-432 | the loop makes at most `max_retries` requests and sleeps at most once per failed request; when exhaustion is not reported as a download, the download is reported iff the last request made completed |
| Legacy.RetryStopsAtFirstSuccess | pytools.py:414-427 | every request before the last failed with a request error, and (when exhaustion is not reported as a download) the download is reported iff the last request completed |
| Legacy.RetryReachesFirstSuccess | pytools.py:414-432 | when request k is the first that does not fail with a request error and k < `max_retries`, exactly k + 1 requests are made, the sleeps are 2, 4, … up to 2^k in order, the download is reported iff request k completed, and any other exception gives the generic error line |
| Legacy.RetrySleepsDouble | pytools.py:428-432 | the sleeps after the failures are 2, 4, 8, … seconds |
| Legacy.ExhaustionReported | pytools.py:414-432 | when every request fails, all `max_retries` requests are made and the loop ends in its exhaustion branch |
| Legacy.RetryAsWritten | pytools.py:401-436 | as written, the retry-exhaustion message is never printed |
| Legacy.NeverReported | pytools.py:428-436 | as written, no sequence of failures reaches the retry message |
| Legacy.Retry | pytools.py:414-432 | corrected loop: at most `max_retries` requests |
| Legacy.RetryMessageLost | pytools.py:401-436 | with three retries and the network down, the code as written makes three requests, sleeps 2, 4 and 8 seconds and prints the generic error; the corrected loop reports the exhaustion |
| Legacy.DiskBar | pytools.py:246-250 | a bar is drawn iff the percentage with its trailing "%" removed passes `int()` |
| Legacy.StripPercent | pytools.py:247 | `rstrip('%')` gives a prefix of the text that does not end in "%", and everything it removed is "%" |
| Legacy.DiskBarCells | pytools.py:246-250 | for 0 <= p <= 100, the text "p%" gives the bar with used = 20p div 100 "#" cells and 20 - used "-" cells, 22 characters wide |
| Legacy.Repeat | pytools.py:249 | `c * n` has max(n, 0) copies of c |
| Utils.Get | core/utils.py:113-124 | the value along the dotted path, or the default when a segment is missing, maps to `None` or is reached through a non-dictionary |
| Utils.GetMeaning | core/utils.py:113-124 | the loop's early `None` check agrees with a plain walk followed by a `None` test |
| Utils.SetPath | core/utils.py:126-134 | the keys become the old keys plus the path's head, and every other top-level entry is unchanged |
| Utils.Set | core/utils.py:126-134 | `set` succeeds iff no intermediate segment holds a non-dictionary |
| Utils.SettableMeaning | core/utils.py:126-134 | setting along a path succeeds exactly where the path is settable |
| Utils.EmptySettable | core/utils.py:130-133 | missing intermediate dictionaries are created, so any path can be set in an empty configuration |
| Utils.SetPathThenWalk | core/utils.py:126-134 | after a set, walking the path finds the value |
| Utils.SetThenGet | core/utils.py:113-134 | `set(k, v)` followed by `get(k)` gives v for every v other than `None` |
| Utils.SetPathFrame | core/utils.py:126-134 | a set leaves every path that parts from the key's path unchanged |
| Utils.SetFrame | core/utils.py:113-134 | `get` of any dotted key whose path parts from the set key's path is unchanged by the set |
| Utils.WalkEmpty | core/utils.py:117-123 | walking an empty dictionary finds nothing |
| Utils.Reset | core/utils.py:137-140 | after `reset`, "downloads" is a dictionary with `max_retries` 3, and security's `min_password_length` is 12 |
| Utils.DefaultPaths | core/utils.py:79-111 | the defaults hold 3 retries, "VideosDownloads", ping count 4 and theme "cyberpunk" at their paths |
| Utils.ResetDefaults | core/utils.py:79-140 | after `reset`, `get` of "downloads.max_retries", "downloads.video_path", "network.ping_count" and "theme" gives 3, "VideosDownloads", 4 and "cyberpunk" |
| Utils.SplitsInto | core/utils.py:115 | a dotted key splits into its dot-free parts |
| Utils.CacheSet | core/utils.py:234-243 | memory maps the key to the value and keeps every other entry; when persisting the disk gains the key with the value and keeps every other file; otherwise the disk is unchanged |
| Utils.CacheGet | core/utils.py:245-260 | a memory hit is returned as is; otherwise a file hit is returned and copied into memory; otherwise the default, and nothing changes |
| Utils.CacheGetReadsView | core/utils.py:245-260 | `get` returns the memory-over-disk view at the key and does not change that view |
| Utils.CacheSetThenGet | core/utils.py:234-260 | `set(k, v)` followed by `get(k)` gives v, whether persisted or not |
| Utils.CacheClear | core/utils.py:262-278 | a non-empty key is removed from memory and disk and every other entry stays; no key (or "") empties both |
| Utils.CacheClearForgets | core/utils.py:245-278 | after clearing a key, `get` gives the default for it and unchanged results for every other key |
| Base.PromptWithDefault | ui/display.py:353-361 | an empty line gives the default; any other line gives its stripped text, which has no surrounding whitespace and is no longer than the line |
| Base.PromptSettles | ui/display.py:353-361 | typing back a non-empty answer gives that answer again |
| Downloads.BlankOptionRejected | modules/downloads.py:57-61 | a line of blanks for the option strips to "" and is rejected as an invalid choice |
| Downloads.YouTube | modules/downloads.py:31-75 | a download starts iff a library is present, the URL is non-empty and the option (default "1") is "1" or "2"; yt-dlp is used iff it is available; "1" is video and "2" audio; no library gives up first |
| Downloads.DefaultIsVideo | modules/downloads.py:57-63 | leaving the option empty downloads the video |
| Downloads.SanitizeTitle | modules/downloads.py:173 | same length; each of `< > : " / \ \| ? *` becomes "_" and every other character is kept |
| Downloads.SanitizeIdempotent | modules/downloads.py:173 | a cleaned title holds no reserved character, and cleaning it again changes nothing |
| Downloads.UrlFilename | modules/downloads.py:231 | the name holds neither "/" nor "?", and it is the base name of the part of the URL that ends at the first "?" (or at the end when there is none) |
| Downloads.UrlFilenameOf | modules/downloads.py:231 | for any directory part without "?", the name of "dir/name" and of "dir/name?query" is `name` |
| Downloads.HeadIsPrefix | modules/downloads.py:231 | the first piece of a split is a prefix of the text |
| Downloads.SaveAs | modules/downloads.py:231-239 | a typed name that is not blank wins, stripped; otherwise the name derived from the URL |
| Downloads.BatchFilename | modules/downloads.py:330 | never empty: the URL's name, or "file_{i}" when that is empty |
| Downloads.FallbackNamesDistinct | modules/downloads.py:330 | fallback names of different entries differ |
| Downloads.CollectUrls | modules/downloads.py:307-312 | there is a list iff some line strips to ""; then the URLs are the stripped lines before the first such line, and none is empty; input that runs out first gives no list |
| Downloads.Successes | modules/downloads.py:325-359 | the count of successes never exceeds the number of entries |
| Downloads.TallyDownloads | modules/downloads.py:325-359 | successful + failed is the number of URLs, successful counts the entries whose download succeeded, and it is 0 iff none did |
| Downloads.Batch | modules/downloads.py:299-372 | input that ends before an empty line, or an empty list, gives false before downloading; otherwise the tally covers every URL, and the result is true iff the list was read and some download succeeded |
| Downloads.WriteChunks | modules/downloads.py:253-266 | the file is the in-order concatenation of the chunks, and its size is the sum of their sizes |
| Downloads.FlattenSize | modules/downloads.py:182-189 | the concatenation's size is the sum of the chunk sizes |
| Downloads.FlattenAppend | modules/downloads.py:253-266 | writing a stream split anywhere writes the two halves one after the other |
| Downloads.EmptyChunkInvisible | modules/downloads.py:255-266 | skipping an empty chunk changes nothing in the file |
| Text.Split | core/utils.py:115 | `split` on one character gives one more piece than separators, none containing the separator |
| Text.JoinSplit | core/utils.py:115 | joining the pieces of a split gives the text back |
| Text.SplitJoin | modules/ip_tools.py:322 | splitting a join of separator-free pieces gives the pieces back |
| Text.StripIdempotent | core/base.py:245 | stripping twice equals stripping once, and the result is "" iff the text is all whitespace |
| Text.Basename | modules/downloads.py:231 | the base name holds no "/", is a suffix of the path, and is either the whole path or preceded by "/": the text after the last "/" |
| Text.BasenameOf | modules/downloads.py:231 | the base name of "dir/name" is `name` for every `dir` and every `name` without "/" |
| Decimal.Show | modules/ip_tools.py:327 | `str(n)` is a canonical numeral denoting n |
| Decimal.ShowValue | modules/ip_tools.py:327 | printing the value of a canonical numeral gives it back |
| Decimal.ParseShowInt | pytools.py:52 | `int(str(i)) == i` |
| Decimal.ParseDigits | modules/ip_tools.py:322 | `int()` of a digit string is its value |
| Bits.ShrValue | modules/ip_tools.py:327 | `x >> k` is x div 2^k |
| Bits.ShlValue | modules/ip_tools.py:281 | `x << k` is x times 2^k |
| Bits.LowMask | modules/ip_tools.py:327 | `x & (2^n - 1)` is x mod 2^n |
| Bits.RoundDownValue | modules/ip_tools.py:285 | rounding down to a multiple of p removes the remainder |
| Bits.SameBlock | modules/ip_tools.py:285-291 | two numbers share a block of p iff they round down to the same multiple |

## Left out

- Subprocesses, `os.system`, `psutil`, the file system and the terminal: their outcomes are oracle parameters. The rich rendering of screens, panels and progress bars is not modelled beyond the option lists and messages.
- The web transport (`requests`, timeouts, streaming): a response is an oracle value, and `MyPublicIPModule._get_ip_info` is not part of this model.
- `validate_url` (core/base.py:293-306) is not part of this model.
- `format_bytes` and every floating-point percentage. The disk bar's `int(20 * p / 100)` is modelled as truncating division, which agrees with the float computation for the integer percentages `df` prints.
- SHA-256 is an oracle `digest: string -> Digest` returning 32 bytes; `secrets` draws are an oracle `rand`, and the shuffle follows the Fisher–Yates loop of `SystemRandom.shuffle` with `randbelow` as that oracle.
- The `HashGeneratorModule` and `MalwareScanModule` classes of modules/security.py are not part of this model.
- Logging, the `Config` and `Logger` singletons (`Cache` is not one: `get_cache()` builds a new `Cache` on every call), YAML/JSON persistence, `save_config`, the config-directory discovery and the key-to-file-name mapping of the cache are not modelled. A failed cache file write, read or delete is not modelled either: the disk is a map that always succeeds.
- The SIGALRM timeout of `safe_input`: a timeout is one of the ways reading can raise.
- Geolocation.ReadGeo: the body oracle gives a JSON value that is not an object as `None` when `_format_geo_data` raises on it (`null`, a number, a boolean, or a list or string containing a field name; the bare `except` at modules/ip_tools.py:98-99 then moves on) and as `Some(map[])` when it yields `{}` (a list or string containing no field name; the loop then stops at modules/ip_tools.py:97).
- Legacy.TruncDiv: agrees with Python's `int(20 * p / 100)` for df's percentages 0..100; for the far larger values `int()` also accepts, float rounding of the quotient is not modelled.
- Utils.Set: where Python's `set` raises `TypeError` because an intermediate value is not a dictionary, the model returns `None`.
- Decimal.ParseInt: accepts surrounding ASCII whitespace, one sign and ASCII digits; Python's `int()` also takes underscores between digits and non-ASCII digits and whitespace.
- Text.Strip: strips ASCII whitespace only; Python's `str.strip()` also strips other Unicode whitespace.
- Security.HasDigit: tests for ASCII digits, while the source's `\d` also matches other Unicode digits. Legacy.PasswordStrength inherits this.
- Legacy.Menu: does not model an exception raised inside an action; the loop catches it and continues, which the model treats like the action returning.
- Legacy.Menu: `lines` are only the answers to "Enter your choice: "; the further lines each action reads from standard input (the password for 11, say) are not interleaved with them.
- Legacy.Menu: when the answers run out the model stops; the program's `input` would raise `EOFError`, which the loop catches, so it would keep prompting.
- Legacy.RetryFrom: an error other than a request error inside the loop goes to the outer handler and ends in the generic error line; the model records that ending without the message text.
- Geolocation.Truthy: a float, list or other JSON value counts as truthy, and its `str()` is an opaque string.
- Menus.GetUserChoice: the error screen's `pause()` is not modelled.

## Findings

| source | as written | input that shows it | evidently intended | confidence | as-written member | corrected member |
|---|---|---|---|---|---|---|
| ui/menus.py:109-122 | main items are shown numbered from C + 2, but `run_main_menu` runs item k - C - 1 for choice k (ui/menus.py:222); latent, since none of the source files calls `add_main_menu_item` | 7 categories and one main item: the item is shown as 9, which is the exit number, and typing 8, which no option shows, runs it | main items numbered from C + 1, so each shown number selects its option | high, not executed | Menus.ShowMainMenuAsWritten, Menus.MainNumberingClash, Menus.ShownLastItemExits, Menus.FirstItemRunsUnderHiddenNumber | Menus.ShowMainMenu, Menus.MainChoiceMatchesScreen |
| pytools.py:428-433 | after the last failed request the code logs `e`, which Python unbinds at the end of the `except` clause; the `UnboundLocalError` goes to the outer handler, so the "Unable to download … after N retries" message is never printed (the same at pytools.py:462-467) | `max_retries = 3` with the network down | the exhaustion message is printed after the last retry | high, not executed | Legacy.RetryAsWritten, Legacy.NeverReported, Legacy.RetryMessageLost | Legacy.Retry, Legacy.ExhaustionReported, Legacy.RetryMessageLost |
| core/base.py:313-317 | the pattern ends in `$`, which also matches just before a final newline; latent, since both callers (modules/ip_tools.py:44 and 246) pass prompt answers, which are already stripped, so no final "\n" reaches `validate_ip`; this is why `Geolocation.Geolocate` and `IpCalculator.Execute` use the corrected `ValidateIp` | "1.2.3.4\n" is accepted | only the dotted quad itself is accepted (`\Z` or `fullmatch`) | high, not executed | Base.ValidateIpAsWritten, Base.TrailingNewlineAccepted | Base.ValidateIp, Base.ValidateIpNoNewline |

=== FILE: base.dfy ===
/**
 * core/base.py: input validation, duration formatting, the system probe's
 * package-manager and command-availability decisions, and the command
 * executor's privilege prefix and result mapping.
 *
 * Subprocesses, the file system and the terminal are oracles: the outcome of
 * running a command, whether a path exists and what the user typed are
 * parameters.
 */
module Base {
  import opened Wrappers
  import opened Decimal
  import Text

  // ---------------------------------------------------------------------------
  // validate_ip

  /** The octet pattern `25[0-5]|2[0-4][0-9]|[01]?[0-9][0-9]?`, alternative by
      alternative; `[01]?[0-9][0-9]?` admits one or two digits, or three
      digits led by 0 or 1. */
  predicate OctetPattern(g: string) {
    || (|g| == 3 && g[0] == '2' && g[1] == '5' && '0' <= g[2] <= '5')
    || (|g| == 3 && g[0] == '2' && '0' <= g[1] <= '4' && IsDigit(g[2]))
    || (|g| == 1 && IsDigit(g[0]))
    || (|g| == 2 && IsDigit(g[0]) && IsDigit(g[1]))
    || (|g| == 3 && (g[0] == '0' || g[0] == '1') && IsDigit(g[1]) && IsDigit(g[2]))
  }

  /** `validate_ip`: the anchored pattern `(OCTET\.){3}OCTET`. No octet
      alternative admits a ".", so the text matches exactly when splitting it at
      "." gives four pieces that each match the octet pattern. */
  predicate ValidateIp(ip: string) {
    var parts := Text.Split(ip, '.');
    |parts| == 4 && forall i | 0 <= i < 4 :: OctetPattern(parts[i])
  }

  /** `validate_ip` as the pattern is written: Python's `$` also matches just
      before a final newline, so text that is a valid address followed by one
      "\n" is accepted as well. */
  predicate ValidateIpAsWritten(ip: string) {
    || ValidateIp(ip)
    || (|ip| > 0 && ip[|ip| - 1] == '\n' && ValidateIp(ip[..|ip| - 1]))
  }

  /** Read as intended, the pattern admits only digits and dots, so no
      accepted address carries a newline. */
  lemma ValidateIpNoNewline(ip: string)
    ensures ValidateIp(ip) ==> '\n' !in ip
  {
    if ValidateIp(ip) {
      var parts := Text.Split(ip, '.');
      Text.JoinSplit(ip, '.');
      forall i | 0 <= i < |parts|
        ensures '\n' !in parts[i]
      {
        assert OctetPattern(parts[i]);
      }
      Text.JoinAvoids(parts, '.', '\n');
    }
  }

  /** The pattern as written accepts every address followed by a newline
      ("1.2.3.4\n", say), although that text is no address. */
  lemma TrailingNewlineAccepted(ip: string)
    requires ValidateIp(ip)
    ensures ValidateIpAsWritten(ip + "\n")
    ensures !ValidateIp(ip + "\n")
  {
    var t := ip + "\n";
    assert t[..|t| - 1] == ip;
    assert t[|t| - 1] == '\n';
    ValidateIpNoNewline(t);
  }

  /** The reading the pattern is meant to have: one to three ASCII digits
      denoting at most 255; leading zeros ("01", "007") are allowed. */
  predicate DecimalOctet(g: string) {
    1 <= |g| <= 3 && AllDigits(g) && Value(g) <= 255
  }

  lemma Value3(g: string)
    requires |g| == 3 && AllDigits(g)
    ensures Value(g) == 100 * DigitValue(g[0]) + 10 * DigitValue(g[1]) + DigitValue(g[2])
  {
    assert g[..2][..1] == g[..1];
    Value1(g[..1]);
    assert Value(g[..2]) == Value(g[..1]) * 10 + DigitValue(g[1]);
  }

  lemma Value1(g: string)
    requires |g| == 1 && AllDigits(g)
    ensures Value(g) == DigitValue(g[0])
  {
    assert g[..0] == [];
  }

  lemma Value2(g: string)
    requires |g| == 2 && AllDigits(g)
    ensures Value(g) == 10 * DigitValue(g[0]) + DigitValue(g[1])
  {
    Value1(g[..1]);
  }

  /** The octet pattern accepts exactly the decimal octets. */
  lemma OctetPatternMeaning(g: string)
    ensures OctetPattern(g) <==> DecimalOctet(g)
  {
    if |g| == 3 && AllDigits(g) {
      Value3(g);
    } else if |g| == 2 && AllDigits(g) {
      Value2(g);
    } else if |g| == 1 && AllDigits(g) {
      Value1(g);
    }
  }

  /** `validate_ip` accepts exactly four "."-separated decimal octets. */
  lemma ValidateIpMeaning(ip: string)
    ensures ValidateIp(ip) <==>
      var parts := Text.Split(ip, '.');
      |parts| == 4 && forall i | 0 <= i < 4 :: DecimalOctet(parts[i])
  {
    var parts := Text.Split(ip, '.');
    forall i | 0 <= i < |parts| {
      OctetPatternMeaning(parts[i]);
    }
  }

  /** Four octets joined with "." validate exactly when each is a decimal octet. */
  lemma ValidateIpJoin(octets: seq<string>)
    requires |octets| == 4
    requires forall i | 0 <= i < 4 :: '.' !in octets[i]
    ensures ValidateIp(Text.Join(octets, '.')) <==> forall i | 0 <= i < 4 :: DecimalOctet(octets[i])
  {
    Text.SplitJoin(octets, '.');
    ValidateIpMeaning(Text.Join(octets, '.'));
  }

  // ---------------------------------------------------------------------------
  // format_duration

  /** `format_duration`: seconds below a minute as "{s}s", below an hour as
      "{m}m {s}s", otherwise "{h}h {m}m" with the seconds dropped. */
  function FormatDuration(seconds: int): string {
    if seconds < 60 then ShowInt(seconds) + "s"
    else if seconds < 3600 then Show(seconds / 60) + "m " + Show(seconds % 60) + "s"
    else Show(seconds / 3600) + "h " + Show((seconds % 3600) / 60) + "m"
  }

  /** Below a minute the text is the count followed by "s", and the count
      reads back with `int()`. */
  lemma FormatDurationSeconds(seconds: int)
    requires seconds < 60
    ensures var t := FormatDuration(seconds);
      && t == ShowInt(seconds) + "s"
      && ParseInt(t[..|t| - 1]) == Some(seconds)
  {
    var t := FormatDuration(seconds);
    assert t[..|t| - 1] == ShowInt(seconds);
    ParseShowInt(seconds);
  }

  /** Between a minute and an hour: whole minutes, then the remaining seconds. */
  lemma FormatDurationMinutes(seconds: int, m: nat, s: nat)
    requires 1 <= m < 60 && s < 60 && seconds == 60 * m + s
    ensures FormatDuration(seconds) == Show(m) + "m " + Show(s) + "s"
  {
  }

  /** From an hour on: whole hours and the remaining whole minutes; the
      leftover seconds do not appear. */
  lemma FormatDurationHours(seconds: int, h: nat, m: nat, s: nat)
    requires 1 <= h && m < 60 && s < 60 && seconds == 3600 * h + 60 * m + s
    ensures FormatDuration(seconds) == Show(h) + "h " + Show(m) + "m"
  {
    assert seconds / 3600 == h;
    assert seconds % 3600 == 60 * m + s;
    assert (seconds % 3600) / 60 == m;
  }

  /** Two durations print the same text exactly when they are equal or, from
      an hour on, agree in whole minutes: the seconds branch and the minutes
      branch lose nothing, the hours branch loses only the seconds. */
  lemma FormatDurationSame(a: int, b: int)
    ensures FormatDuration(a) == FormatDuration(b) <==>
      a == b || (a >= 3600 && b >= 3600 && a / 60 == b / 60)
  {
    if a >= 3600 && b >= 3600 {
      HoursOfMinutes(a);
      HoursOfMinutes(b);
    }
    if FormatDuration(a) == FormatDuration(b) {
      DurationShape(a);
      DurationShape(b);
      if a < 60 && b < 60 {
        SameSeconds(a, b);
      } else if a < 3600 && b < 3600 {
        SameTwoFields(Show(a / 60), Show(a % 60), Show(b / 60), Show(b % 60), 'm', 's');
        ShowInjective(a / 60, b / 60);
        ShowInjective(a % 60, b % 60);
      } else {
        SameTwoFields(Show(a / 3600), Show((a % 3600) / 60), Show(b / 3600), Show((b % 3600) / 60), 'h', 'm');
        ShowInjective(a / 3600, b / 3600);
        ShowInjective((a % 3600) / 60, (b % 3600) / 60);
      }
    }
  }

  /** Which branch a text comes from can be told from the text: only the
      seconds branch has no space, only the hours branch ends in "m". */
  lemma DurationShape(a: int)
    ensures var t := FormatDuration(a);
      && |t| > 0
      && (' ' in t <==> a >= 60)
      && (t[|t| - 1] == 'm' <==> a >= 3600)
  {
    var t := FormatDuration(a);
    if a < 0 {
      ShowAvoids(-a, ' ');
      assert t == "-" + Show(-a) + "s";
    } else if a < 60 {
      ShowAvoids(a, ' ');
    } else if a < 3600 {
      assert t[|Show(a / 60)| + 1] == ' ';
    } else {
      assert t[|Show(a / 3600)| + 1] == ' ';
    }
  }

  /** `int()` tells the seconds-branch texts apart. */
  lemma SameSeconds(a: int, b: int)
    requires ShowInt(a) + "s" == ShowInt(b) + "s"
    ensures a == b
  {
    assert (ShowInt(a) + "s")[..|ShowInt(a)|] == ShowInt(a);
    assert (ShowInt(b) + "s")[..|ShowInt(b)|] == ShowInt(b);
    ParseShowInt(a);
    ParseShowInt(b);
  }

  /** Two numerals, each followed by a unit letter and a space resp. a final
      unit letter, are determined by the whole text. */
  lemma SameTwoFields(x: string, y: string, x': string, y': string, u: char, v: char)
    requires AllDigits(x) && AllDigits(y) && AllDigits(x') && AllDigits(y')
    requires !IsDigit(u) && !IsDigit(v)
    requires x + [u, ' '] + y + [v] == x' + [u, ' '] + y' + [v]
    ensures x == x' && y == y'
  {
    var r, r' := [u, ' '] + y + [v], [u, ' '] + y' + [v];
    assert x + r == x + [u, ' '] + y + [v];
    assert x' + r' == x' + [u, ' '] + y' + [v];
    DigitsThenMark(x, r, x', r');
    assert r[2..|r| - 1] == y && r'[2..|r'| - 1] == y';
  }

  /** A numeral is equal to another exactly when the numbers are. */
  lemma ShowInjective(m: nat, n: nat)
    requires Show(m) == Show(n)
    ensures m == n
  {
    assert Value(Show(m)) == m && Value(Show(n)) == n;
  }

  /** The hours and leftover minutes of `a` are the quotient and remainder of
      its whole minutes by 60. */
  lemma HoursOfMinutes(a: int)
    requires a >= 0
    ensures a / 3600 == (a / 60) / 60 && (a % 3600) / 60 == (a / 60) % 60
  {
    var q, r := a / 3600, a % 3600;
    var m, s := r / 60, r % 60;
    assert a == 60 * (60 * q + m) + s;
    assert a / 60 == 60 * q + m;
  }

  // ---------------------------------------------------------------------------
  // SystemInfo

  /** What the system probe detects once per process. */
  datatype SystemInfo = SystemInfo(osType: string, isTermux: bool, isRoot: bool)

  const TermuxPrefix: string := "/data/data/com.termux"

  /** `_is_termux`: the PREFIX environment variable starts with the Termux root. */
  predicate IsTermux(env: map<string, string>) {
    var prefix := if "PREFIX" in env then env["PREFIX"] else "";
    |TermuxPrefix| <= |prefix| && prefix[..|TermuxPrefix|] == TermuxPrefix
  }

  /** The Linux package managers in the order they are probed, with their paths. */
  const LinuxManagers: seq<(string, string)> := [
    ("apt", "/usr/bin/apt"),
    ("apt-get", "/usr/bin/apt-get"),
    ("dnf", "/usr/bin/dnf"),
    ("yum", "/usr/bin/yum"),
    ("pacman", "/usr/bin/pacman"),
    ("zypper", "/usr/bin/zypper")
  ]

  /** The first index at or after `from` whose path exists, or `|managers|`. */
  function FirstExisting(managers: seq<(string, string)>, pathExists: string -> bool, from: nat): (i: nat)
    requires from <= |managers|
    ensures from <= i <= |managers|
    ensures forall j | from <= j < i :: !pathExists(managers[j].1)
    ensures i < |managers| ==> pathExists(managers[i].1)
    decreases |managers| - from
  {
    if from == |managers| || pathExists(managers[from].1) then from
    else FirstExisting(managers, pathExists, from + 1)
  }

  /** `_detect_package_manager`, with `os.path.exists` as the oracle `pathExists`. */
  function DetectPackageManager(sys: SystemInfo, pathExists: string -> bool): (pm: string)
    ensures sys.isTermux ==> pm == "pkg"
    ensures !sys.isTermux && sys.osType == "linux" ==>
      && (pm == "unknown" <==> forall j | 0 <= j < |LinuxManagers| :: !pathExists(LinuxManagers[j].1))
      && (pm != "unknown" ==> exists i | 0 <= i < |LinuxManagers| ::
            && pm == LinuxManagers[i].0 && pathExists(LinuxManagers[i].1)
            && forall j | 0 <= j < i :: !pathExists(LinuxManagers[j].1))
    ensures !sys.isTermux && sys.osType == "darwin" ==>
      (pm == "brew" <==> pathExists("/usr/local/bin/brew") || pathExists("/opt/homebrew/bin/brew"))
      && (pm == "brew" || pm == "unknown")
    ensures !sys.isTermux && sys.osType == "windows" ==> pm == "choco"
    ensures !sys.isTermux && sys.osType !in {"linux", "darwin", "windows"} ==> pm == "unknown"
  {
    if sys.isTermux then "pkg"
    else if sys.osType == "linux" then
      var i := FirstExisting(LinuxManagers, pathExists, 0);
      if i < |LinuxManagers| then LinuxManagers[i].0 else "unknown"
    else if sys.osType == "darwin" then
      if pathExists("/usr/local/bin/brew") || pathExists("/opt/homebrew/bin/brew") then "brew" else "unknown"
    else if sys.osType == "windows" then "choco"
    else "unknown"
  }

  // ---------------------------------------------------------------------------
  // Running commands

  /** How a `subprocess.run` call ended: it completed with an exit code and
      captured output, it timed out, or it raised some other error. */
  datatype RunOutcome = Completed(returncode: int, stdout: string) | TimedOut | Failed

  /** `is_command_available`: runs `where` on Windows and `which` elsewhere,
      through the oracle `run`; any exception counts as unavailable. */
  function IsCommandAvailable(sys: SystemInfo, command: string, run: seq<string> -> RunOutcome): (ok: bool)
    ensures ok <==> exists locator | locator in {"where", "which"} ::
      && (locator == "where" <==> sys.osType == "windows")
      && run([locator, command]).Completed? && run([locator, command]).returncode == 0
  {
    var locator := if sys.osType == "windows" then "where" else "which";
    var outcome := run([locator, command]);
    outcome.Completed? && outcome.returncode == 0
  }

  /** The command `CommandExecutor.run` hands to the shell: "sudo " is put in
      front when elevation is asked for, the process is neither in Termux nor
      root, and the system is not Windows. */
  function PrepareCommand(command: string, sudo: bool, sys: SystemInfo): (shellCommand: string)
    ensures shellCommand == command || shellCommand == "sudo " + command
    ensures shellCommand != command <==> sudo && !sys.isTermux && !sys.isRoot && sys.osType != "windows"
  {
    if sudo && !sys.isTermux && !sys.isRoot && sys.osType != "windows" then "sudo " + command
    else command
  }

  /** The original command is always the tail of what is run, behind at most one
      "sudo " prefix. */
  lemma PrepareCommandKeepsCommand(command: string, sudo: bool, sys: SystemInfo)
    ensures var c := PrepareCommand(command, sudo, sys);
      |c| - |command| in {0, 5} && c[|c| - |command|..] == command
  {
  }

  /** `run_silent`: true exactly when the command completes with exit code 0;
      a timeout or any other exception gives false. */
  function RunSilent(outcome: RunOutcome): (ok: bool)
    ensures ok <==> outcome.Completed? && outcome.returncode == 0
  {
    outcome.Completed? && outcome.returncode == 0
  }

  /** `get_output`: the stripped standard output of a successful run, else `None`. */
  function GetOutput(outcome: RunOutcome): (out: Option<string>)
    ensures out.Some? <==> outcome.Completed? && outcome.returncode == 0
    ensures out.Some? ==> out.value == Text.Strip(outcome.stdout)
  {
    if outcome.Completed? && outcome.returncode == 0 then Some(Text.Strip(outcome.stdout)) else None
  }

  /** `get_output` has a result exactly when `run_silent` reports success, and
      that result carries no surrounding whitespace. */
  lemma GetOutputAgreesWithRunSilent(outcome: RunOutcome)
    ensures GetOutput(outcome).Some? <==> RunSilent(outcome)
    ensures GetOutput(outcome).Some? ==> Text.Strip(GetOutput(outcome).value) == GetOutput(outcome).value
  {
    if outcome.Completed? {
      Text.StripIdempotent(outcome.stdout);
    }
  }

  // ---------------------------------------------------------------------------
  // safe_input

  /** What reading a line did: returned text, or raised (timeout, EOF, interrupt). */
  datatype ReadOutcome = Line(text: string) | Raised

  /** `safe_input`: the stripped input when it is not empty, otherwise (and on
      any exception) the default. */
  function SafeInput(read: ReadOutcome, default: string): (answer: string)
    ensures answer == default || (read.Line? && answer == Text.Strip(read.text) && answer != "")
    ensures read.Line? && Text.Strip(read.text) != "" ==> answer == Text.Strip(read.text)
  {
    if read.Line? && Text.Strip(read.text) != "" then Text.Strip(read.text) else default
  }

  /** Whitespace-only input falls back to the default; any other input's answer
      is already stripped. */
  lemma SafeInputMeaning(read: ReadOutcome, default: string)
    ensures read.Line? && Text.AllSpace(read.text) ==> SafeInput(read, default) == default
    ensures SafeInput(read, default) != default ==> Text.Strip(SafeInput(read, default)) == SafeInput(read, default)
  {
    if read.Line? {
      Text.StripIdempotent(read.text);
    }
  }

  // ---------------------------------------------------------------------------
  // Display.prompt

  /** `Display.prompt` (ui/display.py), which hands the raw line to rich's
      `Prompt.ask`: an empty line gives the default, any other line is
      stripped of surrounding whitespace, so a line of blanks gives "". */
  function PromptWithDefault(line: string, default: string): (r: string)
    ensures line == "" ==> r == default
    ensures line != "" ==> r == Text.Strip(line)
    ensures line != "" ==> r == "" || (!Text.IsSpace(r[0]) && !Text.IsSpace(r[|r| - 1]))
    ensures line != "" ==> |r| <= |line|
  {
    if line == "" then default else Text.Strip(line)
  }

  /** Typing back a non-empty answer gives the same answer. */
  lemma PromptSettles(line: string, default: string)
    requires line != "" && PromptWithDefault(line, default) != ""
    ensures PromptWithDefault(PromptWithDefault(line, default), default) == PromptWithDefault(line, default)
  {
    Text.StripIdempotent(line);
  }
}

=== FILE: bits.dfy ===
/**
 * Python's bitwise operators on non-negative integers.
 *
 * Python integers are unbounded, so `x & y`, `x | y`, `x ^ y`, `x << k` and
 * `x >> k` are defined here on `nat` bit by bit (least significant bit first),
 * exactly as Python evaluates them on non-negative operands. The lemmas relate
 * them to ordinary arithmetic: splitting an operand at bit `k`, masks of
 * low/high ones, and the single-bit view used for subnet masks.
 */
module Bits {

  /** 2 raised to `n`. */
  function Pow2(n: nat): (r: nat)
    ensures r >= 1
  {
    if n == 0 then 1 else 2 * Pow2(n - 1)
  }

  /** The three bitwise connectives Python offers on integers. */
  datatype BitOp = And | Or | Xor

  /** The connective applied to two single bits. */
  function ApplyBit(op: BitOp, a: nat, b: nat): nat
    requires a < 2 && b < 2
  {
    match op
    case And => if a == 1 && b == 1 then 1 else 0
    case Or => if a + b > 0 then 1 else 0
    case Xor => (a + b) % 2
  }

  /** `x & y`, `x | y` or `x ^ y`, bit by bit from the least significant end. */
  function Bitwise(op: BitOp, x: nat, y: nat): nat
    decreases x + y
  {
    if x == 0 && y == 0 then 0
    else 2 * Bitwise(op, x / 2, y / 2) + ApplyBit(op, x % 2, y % 2)
  }

  /** `x << k`: `k` doublings of `x`. */
  function Shl(x: nat, k: nat): nat {
    if k == 0 then x else 2 * Shl(x, k - 1)
  }

  /** Shifting left by `k` multiplies by `2^k`. */
  lemma {:induction false} ShlValue(x: nat, k: nat)
    ensures Shl(x, k) == x * Pow2(k)
  {
    if k > 0 {
      ShlValue(x, k - 1);
      DoubleProduct(x, Pow2(k - 1));
    }
  }

  /** `x >> k`: `k` halvings of `x`, each dropping the low bit. */
  function Shr(x: nat, k: nat): nat {
    if k == 0 then x else Shr(x / 2, k - 1)
  }

  /** Shifting right by `k` is division by `2^k`. */
  lemma {:induction false} ShrValue(x: nat, k: nat)
    ensures Shr(x, k) == x / Pow2(k)
  {
    if k > 0 {
      ShrValue(x / 2, k - 1);
      HalfThenDivide(x, Pow2(k - 1));
    }
  }

  /** Halving and then dividing by `b` is dividing by `2 * b`. */
  lemma HalfThenDivide(x: nat, b: nat)
    requires b > 0
    ensures (x / 2) / b == x / (2 * b)
  {
    DivMod(x / 2, b);
    var q, r := (x / 2) / b, (x / 2) % b;
    assert x == q * (2 * b) + (2 * r + x % 2);
    DivUnique(x, 2 * b, q, 2 * r + x % 2);
  }

  /** Bit `i` of `x` (bit 0 is the least significant). */
  predicate TestBit(x: nat, i: nat) {
    if i == 0 then x % 2 == 1 else TestBit(x / 2, i - 1)
  }

  /** The values of the powers the dotted-quad code uses. */
  lemma Pow2Values()
    ensures Pow2(8) == 256
    ensures Pow2(16) == 65536
    ensures Pow2(24) == 16777216
    ensures Pow2(32) == 4294967296
  {
    assert Pow2(4) == 16 by {
      assert Pow2(1) == 2;
      assert Pow2(2) == 4;
      assert Pow2(3) == 8;
    }
    assert Pow2(8) == 256 by {
      assert Pow2(5) == 32;
      assert Pow2(6) == 64;
      assert Pow2(7) == 128;
    }
    Pow2Add(8, 8);
    Pow2Add(16, 8);
    Pow2Add(16, 16);
  }

  lemma {:induction false} Pow2Add(a: nat, b: nat)
    ensures Pow2(a + b) == Pow2(a) * Pow2(b)
  {
    if a > 0 {
      Pow2Add(a - 1, b);
      assert Pow2(a + b) == 2 * Pow2(a - 1 + b);
    }
  }

  lemma {:induction false} Pow2Monotone(a: nat, b: nat)
    requires a <= b
    ensures Pow2(a) <= Pow2(b)
  {
    if a < b {
      Pow2Monotone(a, b - 1);
    }
  }

  /** Every connective yields 0 on (0, 0), so the recursion may be unfolded anywhere. */
  lemma Unfold(op: BitOp, x: nat, y: nat)
    ensures Bitwise(op, x, y) == 2 * Bitwise(op, x / 2, y / 2) + ApplyBit(op, x % 2, y % 2)
  {
  }

  /** Splitting both operands at bit `k` splits the result at bit `k`. */
  lemma {:induction false} SplitAt(op: BitOp, k: nat, x: nat, a: nat, r: nat, y: nat, b: nat, s: nat)
    requires r < Pow2(k) && s < Pow2(k)
    requires x == a * Pow2(k) + r && y == b * Pow2(k) + s
    ensures Bitwise(op, x, y) == Bitwise(op, a, b) * Pow2(k) + Bitwise(op, r, s)
  {
    if k > 0 {
      HalveShifted(a, k, r);
      HalveShifted(b, k, s);
      SplitAt(op, k - 1, x / 2, a, r / 2, y / 2, b, s / 2);
      Unfold(op, x, y);
      Unfold(op, r, s);
      Recombine(Bitwise(op, x, y), Bitwise(op, x / 2, y / 2), Bitwise(op, a, b), Pow2(k - 1),
                Bitwise(op, r, s), Bitwise(op, r / 2, s / 2), ApplyBit(op, r % 2, s % 2));
    }
  }

  /** The two halves of the step of `SplitAt` put back together. */
  lemma Recombine(x: int, y: int, c: int, h: int, r: int, r2: int, bit: int)
    requires x == 2 * y + bit && y == c * h + r2 && r == 2 * r2 + bit
    ensures x == c * (2 * h) + r
  {
    assert c * (2 * h) == 2 * (c * h);
  }

  /** Halving `a * 2^k + r` halves `r` and keeps the low bit of `r`. */
  lemma HalveShifted(a: nat, k: nat, r: nat)
    requires k > 0 && r < Pow2(k)
    ensures (a * Pow2(k) + r) / 2 == a * Pow2(k - 1) + r / 2
    ensures (a * Pow2(k) + r) % 2 == r % 2
    ensures r / 2 < Pow2(k - 1)
  {
    var h := Pow2(k - 1);
    DoubleProduct(a, h);
    var q := a * h + r / 2;
    assert a * Pow2(k) + r == 2 * q + r % 2;
    Halve(a * Pow2(k) + r, q, r % 2);
  }

  lemma DoubleProduct(a: nat, h: nat)
    ensures a * (2 * h) == 2 * (a * h)
  {
  }

  lemma Halve(x: nat, q: nat, t: nat)
    requires x == 2 * q + t && t < 2
    ensures x / 2 == q && x % 2 == t
  {
  }

  /** `x & 0 == 0`, `x | 0 == x`, `x ^ 0 == x`. */
  lemma {:induction false} ZeroRight(op: BitOp, x: nat)
    ensures Bitwise(op, x, 0) == if op == And then 0 else x
    decreases x
  {
    if x > 0 {
      ZeroRight(op, x / 2);
    }
  }

  lemma {:induction false} Commutative(op: BitOp, x: nat, y: nat)
    ensures Bitwise(op, x, y) == Bitwise(op, y, x)
    decreases x + y
  {
    if x != 0 || y != 0 {
      Commutative(op, x / 2, y / 2);
    }
  }

  /** `x ^ x == 0`. */
  lemma {:induction false} XorSelf(x: nat)
    ensures Bitwise(Xor, x, x) == 0
    decreases x
  {
    if x > 0 {
      XorSelf(x / 2);
    }
  }

  /** Anding with `n` low ones leaves a value below `2^n` unchanged. */
  lemma {:induction false} AndLowOnes(x: nat, n: nat)
    requires x < Pow2(n)
    ensures Bitwise(And, x, Pow2(n) - 1) == x
  {
    if n > 0 {
      assert (Pow2(n) - 1) / 2 == Pow2(n - 1) - 1;
      AndLowOnes(x / 2, n - 1);
    }
  }

  /** Anding with `n` low ones is reduction modulo `2^n` (`x & 0xFF == x % 256`). */
  lemma LowMask(x: nat, n: nat)
    ensures Bitwise(And, x, Pow2(n) - 1) == x % Pow2(n)
  {
    var p := Pow2(n);
    DivMod(x, p);
    var q: nat, r: nat := x / p, x % p;
    SplitAt(And, n, x, q, r, p - 1, 0, p - 1);
    ZeroRight(And, q);
    AndLowOnes(r, n);
  }

  lemma DivMod(x: nat, p: nat)
    requires p > 0
    ensures x / p >= 0 && x == (x / p) * p + x % p && x % p < p
  {
  }

  /** Both operands below `2^n` give a result below `2^n`. */
  lemma {:induction false} Bounded(op: BitOp, x: nat, y: nat, n: nat)
    requires x < Pow2(n) && y < Pow2(n)
    ensures Bitwise(op, x, y) < Pow2(n)
  {
    if n > 0 {
      Bounded(op, x / 2, y / 2, n - 1);
    }
  }

  /** Bit `i` of `a << k` is bit `i - k` of `a`, and clear below `k`. */
  lemma {:induction false} TestBitShifted(a: nat, k: nat, i: nat)
    ensures TestBit(a * Pow2(k), i) <==> (i >= k && TestBit(a, i - k))
  {
    if k > 0 {
      assert a * Pow2(k) == 2 * (a * Pow2(k - 1));
      if i > 0 {
        TestBitShifted(a, k - 1, i - 1);
      }
    }
  }

  /** Exactly the bits `0 .. n-1` of `2^n - 1` are set. */
  lemma {:induction false} TestBitLowOnes(n: nat, i: nat)
    ensures TestBit(Pow2(n) - 1, i) <==> i < n
  {
    if n > 0 {
      assert (Pow2(n) - 1) / 2 == Pow2(n - 1) - 1;
      if i > 0 {
        TestBitLowOnes(n - 1, i - 1);
      }
    } else {
      TestBitZero(i);
    }
  }

  lemma {:induction false} TestBitZero(i: nat)
    ensures !TestBit(0, i)
  {
    if i > 0 {
      TestBitZero(i - 1);
    }
  }

  // ---------------------------------------------------------------------------
  // Euclidean division by a positive divisor

  /** A factor of at least one gives at least the other factor. */
  lemma MulAtLeast(m: int, p: int)
    requires m >= 1 && p > 0
    ensures m * p >= p
  {
    assert m * p == (m - 1) * p + p;
  }

  /** A larger factor gives a product larger by at least one multiple. */
  lemma MulStrict(u: int, v: int, p: int)
    requires p > 0
    ensures u > v ==> u * p >= v * p + p
  {
    if u > v {
      MulAtLeast(u - v, p);
      assert u * p == (u - v) * p + v * p;
    }
  }

  /** Multiplying by a non-negative factor keeps order. */
  lemma MulMonotone(u: int, v: int, p: int)
    requires p >= 0
    ensures u >= v ==> u * p >= v * p
  {
    if u >= v {
      assert u * p == (u - v) * p + v * p;
    }
  }

  /** Quotient and remainder are unique: `x == a * p + r` with `0 <= r < p`
      forces `x / p == a` and `x % p == r`. */
  lemma DivUnique(x: int, p: int, a: int, r: int)
    requires p > 0 && 0 <= r < p && x == a * p + r
    ensures x / p == a && x % p == r
  {
    MulStrict(x / p, a, p);
    MulStrict(a, x / p, p);
  }

  /** Below `q * p`, the quotient by `p` is below `q`. */
  lemma QuotientBound(x: nat, p: nat, q: nat)
    requires p > 0 && x < q * p
    ensures x / p < q
  {
    MulMonotone(x / p, q, p);
  }

  /** `x` rounded down to a multiple of `p`, one block of `p` at a time. */
  function RoundDown(x: nat, p: nat): nat
    requires p > 0
    decreases x
  {
    if x < p then 0 else p + RoundDown(x - p, p)
  }

  /** Rounding down removes the remainder: it is the quotient times `p`. */
  lemma {:induction false} RoundDownValue(x: nat, p: nat)
    requires p > 0
    ensures RoundDown(x, p) == x - x % p == (x / p) * p
    decreases x
  {
    if x < p {
      DivUnique(x, p, 0, x);
    } else {
      RoundDownValue(x - p, p);
      DivMod(x - p, p);
      DivUnique(x, p, (x - p) / p + 1, (x - p) % p);
      assert ((x - p) / p + 1) * p == ((x - p) / p) * p + p;
    }
  }

  /** Two numbers round down to the same multiple of `p` exactly when the
      first lies in the block of `p` numbers the second rounds down to. */
  lemma SameBlock(x: nat, y: nat, p: nat)
    requires p > 0
    ensures RoundDown(y, p) <= x < RoundDown(y, p) + p <==> RoundDown(x, p) == RoundDown(y, p)
  {
    RoundDownValue(x, p);
    RoundDownValue(y, p);
    DivMod(x, p);
    DivMod(y, p);
    if RoundDown(y, p) <= x < RoundDown(y, p) + p {
      DivUnique(x, p, y / p, x - RoundDown(y, p));
    }
  }
}

=== FILE: decimal.dfy ===
/**
 * Decimal numerals: Python's `str()` of an integer and `int()` of a text,
 * over ASCII digits.
 */
module Decimal {
  import opened Wrappers
  import Text

  predicate IsDigit(c: char) { '0' <= c <= '9' }

  predicate AllDigits(s: string) {
    forall k | 0 <= k < |s| :: IsDigit(s[k])
  }

  function DigitValue(c: char): nat
    requires IsDigit(c)
  {
    c as int - '0' as int
  }

  function DigitChar(d: nat): (c: char)
    requires d < 10
    ensures IsDigit(c) && DigitValue(c) == d
  {
    ('0' as int + d) as char
  }

  /** The number a string of digits denotes, most significant digit first. */
  function Value(s: string): nat
    requires AllDigits(s)
  {
    if |s| == 0 then 0 else Value(s[..|s| - 1]) * 10 + DigitValue(s[|s| - 1])
  }

  /** The form `str(n)` produces: digits only, no leading zero except "0" itself. */
  predicate Canonical(s: string) {
    0 < |s| && AllDigits(s) && (s[0] == '0' ==> |s| == 1)
  }

  /** `str(n)` for a non-negative `n`. */
  function Show(n: nat): (s: string)
    ensures Canonical(s)
    ensures Value(s) == n
  {
    if n < 10 then [DigitChar(n)]
    else
      var s := Show(n / 10) + [DigitChar(n % 10)];
      assert s[..|s| - 1] == Show(n / 10);
      s
  }

  /** A numeral holds no character other than digits. */
  lemma ShowAvoids(n: nat, c: char)
    requires !IsDigit(c)
    ensures c !in Show(n)
  {
    var s := Show(n);
    assert forall k | 0 <= k < |s| :: s[k] != c;
  }

  /** Digits followed by a non-digit: the digits end exactly at the mark, so
      two such texts are equal only when both parts are. */
  lemma DigitsThenMark(a: string, ra: string, b: string, rb: string)
    requires AllDigits(a) && AllDigits(b) && a + ra == b + rb
    requires 0 < |ra| && 0 < |rb| && !IsDigit(ra[0]) && !IsDigit(rb[0])
    ensures a == b && ra == rb
  {
    if |a| < |b| {
      DigitAtMark(a, ra, b, rb);
      assert false;
    } else if |b| < |a| {
      DigitAtMark(b, rb, a, ra);
      assert false;
    }
    assert a == (a + ra)[..|a|] && b == (b + rb)[..|b|];
    assert ra == (a + ra)[|a|..] && rb == (b + rb)[|b|..];
  }

  /** Where a shorter text ends inside a longer all-digit text of the same
      joined string, the next character is a digit. */
  lemma DigitAtMark(a: string, ra: string, b: string, rb: string)
    requires AllDigits(b) && |a| < |b| && a + ra == b + rb && 0 < |ra|
    ensures IsDigit(ra[0])
  {
    assert (a + ra)[|a|] == b[|a|];
  }

  /** `str(i)` for any integer. */
  function ShowInt(i: int): string {
    if i < 0 then "-" + Show(-i) else Show(i)
  }

  /** Numbers below 1000 print with at most three digits. */
  lemma ShowShort(n: nat)
    requires n < 1000
    ensures 1 <= |Show(n)| <= 3
  {
    if n >= 10 {
      assert |Show(n)| == |Show(n / 10)| + 1;
      assert |Show(n / 10)| <= 2 by {
        if n / 10 >= 10 {
          assert |Show(n / 10)| == |Show(n / 100)| + 1;
        }
      }
    }
  }

  /** A numeral whose first digit is not 0 denotes a positive number. */
  lemma {:induction false} LeadingNonZero(s: string)
    requires 0 < |s| && AllDigits(s) && s[0] != '0'
    ensures Value(s) >= 1
  {
    if |s| > 1 {
      LeadingNonZero(s[..|s| - 1]);
    }
  }

  /** `str` inverts `int` on canonical numerals. */
  lemma {:induction false} ShowValue(s: string)
    requires Canonical(s)
    ensures Show(Value(s)) == s
  {
    if |s| > 1 {
      var init := s[..|s| - 1];
      LeadingNonZero(init);
      ShowValue(init);
      assert s == init + [s[|s| - 1]];
    }
  }

  /** Two canonical numerals are equal exactly when their values are. */
  lemma CanonicalInjective(s: string, t: string)
    requires Canonical(s) && Canonical(t)
    ensures Value(s) == Value(t) <==> s == t
  {
    ShowValue(s);
    ShowValue(t);
  }

  /** Python's `int(text)` on ASCII: surrounding whitespace is ignored, then an
      optional sign and one or more digits. Anything else is a `ValueError`,
      modelled as `None`. */
  function ParseInt(text: string): (r: Option<int>)
    ensures r.Some? ==> Text.Strip(text) != ""
  {
    var s := Text.Strip(text);
    if |s| > 1 && (s[0] == '-' || s[0] == '+') && AllDigits(s[1..]) then
      var magnitude: int := Value(s[1..]);
      Some(if s[0] == '-' then -magnitude else magnitude)
    else if |s| > 0 && AllDigits(s) then Some(Value(s))
    else None
  }

  /** `int(str(i)) == i`. */
  lemma ParseShowInt(i: int)
    ensures ParseInt(ShowInt(i)) == Some(i)
  {
    var s := ShowInt(i);
    Text.StripNoop(s);
    if i < 0 {
      assert s[1..] == Show(-i);
    }
  }

  /** `int` of digits-only text is their value. */
  lemma ParseDigits(s: string)
    requires 0 < |s| && AllDigits(s)
    ensures ParseInt(s) == Some(Value(s))
  {
    Text.StripNoop(s);
  }
}

=== FILE: downloads.dfy ===
/**
 * modules/downloads.py: the decisions around the transfers — which backend
 * and kind the YouTube downloader uses, how file names are derived and
 * cleaned, how the batch downloader collects its URLs and tallies the
 * results, and what ends up in a written file.
 *
 * The transfers themselves are oracles: a chunk sequence per response and a
 * success flag per batch entry.
 */
module Downloads {
  import opened Wrappers
  import Text
  import Decimal
  import Base

  // ---------------------------------------------------------------------------
  // YouTubeDownloadModule.execute

  datatype Backend = YtDlp | PyTube
  datatype Kind = Video | Audio

  /** Where `execute` ends before any transfer, or which download it
      starts. */
  datatype YouTubeOutcome =
    | NoLibrary
    | NoUrl
    | InvalidChoice
    | Download(backend: Backend, kind: Kind)

  /** `YouTubeDownloadModule.execute` up to the download call: no library
      gives up, an empty URL gives up, the option (default "1") must be "1"
      for video or "2" for audio, and yt-dlp is preferred over pytube. */
  function YouTube(hasYtDlp: bool, hasPyTube: bool, url: string, choiceLine: string): (o: YouTubeOutcome)
    ensures o.Download? <==>
      (hasYtDlp || hasPyTube) && url != "" && Base.PromptWithDefault(choiceLine, "1") in ["1", "2"]
    ensures o.Download? ==> (o.backend == YtDlp <==> hasYtDlp)
    ensures o.Download? ==> (o.kind == Video <==> Base.PromptWithDefault(choiceLine, "1") == "1")
    ensures !hasYtDlp && !hasPyTube ==> o == NoLibrary
  {
    if !hasYtDlp && !hasPyTube then NoLibrary
    else if url == "" then NoUrl
    else
      var choice := Base.PromptWithDefault(choiceLine, "1");
      if choice !in ["1", "2"] then InvalidChoice
      else Download(if hasYtDlp then YtDlp else PyTube, if choice == "1" then Video else Audio)
  }

  /** A line of blanks for the option is not the default: it strips to ""
      and is rejected. */
  lemma BlankOptionRejected(hasYtDlp: bool, hasPyTube: bool, url: string)
    requires (hasYtDlp || hasPyTube) && url != ""
    ensures YouTube(hasYtDlp, hasPyTube, url, " ") == InvalidChoice
  {
    assert Text.IsSpace(' ');
    assert Text.StripStart(" ") == 1;
  }

  /** Leaving the option empty downloads the video. */
  lemma DefaultIsVideo(hasYtDlp: bool, hasPyTube: bool, url: string)
    requires (hasYtDlp || hasPyTube) && url != ""
    ensures YouTube(hasYtDlp, hasPyTube, url, "").Download?
    ensures YouTube(hasYtDlp, hasPyTube, url, "").kind == Video
  {
  }

  // ---------------------------------------------------------------------------
  // file names

  /** The characters the pytube path replaces: `< > : " / \ | ? *`. */
  const Reserved: string := "<>:\"/\\|?*"

  /** The title cleaning of `_download_with_pytube`: each reserved character
      becomes "_". */
  function SanitizeTitle(title: string): (name: string)
    ensures |name| == |title|
    ensures forall i | 0 <= i < |title| :: title[i] in Reserved ==> name[i] == '_'
    ensures forall i | 0 <= i < |title| :: title[i] !in Reserved ==> name[i] == title[i]
  {
    seq(|title|, i requires 0 <= i < |title| => if title[i] in Reserved then '_' else title[i])
  }

  /** A cleaned title holds no reserved character and cleaning it again
      changes nothing. */
  lemma SanitizeIdempotent(title: string)
    ensures forall i | 0 <= i < |SanitizeTitle(title)| :: SanitizeTitle(title)[i] !in Reserved
    ensures SanitizeTitle(SanitizeTitle(title)) == SanitizeTitle(title)
  {
    assert '_' !in Reserved;
  }

  /** `os.path.basename(url.split("?")[0])`: the text after the last "/" of
      the part before the first "?". */
  function UrlFilename(url: string): (name: string)
    ensures '/' !in name && '?' !in name
    ensures exists k | 0 <= k <= |url| ::
      && '?' !in url[..k] && (k == |url| || url[k] == '?')
      && name == Text.Basename(url[..k])
  {
    var parts := Text.Split(url, '?');
    var head := parts[0];
    Text.JoinSplit(url, '?');
    HeadIsPrefix(parts, '?');
    assert url[..|head|] == head;
    Text.Basename(head)
  }

  /** The name of a URL is the last path segment, with or without a query. */
  lemma UrlFilenameOf(dir: string, name: string, query: string)
    requires '?' !in dir && '?' !in name && '/' !in name
    ensures UrlFilename(dir + "/" + name) == name
    ensures UrlFilename(dir + "/" + name + "?" + query) == name
  {
    var path := dir + "/" + name;
    assert '?' !in path;
    Text.SplitNoSep(path, '?');
    Text.SplitPiece(path, query, '?');
    assert path + "?" + query == path + ['?'] + query;
    Text.BasenameOf(dir, name);
  }

  /** The first part of a join is a prefix of the joined text. */
  lemma HeadIsPrefix(parts: seq<string>, sep: char)
    requires |parts| >= 1
    ensures |parts[0]| <= |Text.Join(parts, sep)|
    ensures Text.Join(parts, sep)[..|parts[0]|] == parts[0]
    ensures |parts[0]| == |Text.Join(parts, sep)| || Text.Join(parts, sep)[|parts[0]|] == sep
  {
    if |parts| > 1 {
      assert Text.Join(parts, sep) == parts[0] + ([sep] + Text.Join(parts[1..], sep));
    }
  }

  /** The file name `FileDownloaderModule.execute` saves to, from the line
      typed at "Save as": the stripped name, or the URL's when the prompt
      gives "" (an empty line gives the URL's name as its default, a line of
      blanks gives "" and `if custom_filename:` keeps the URL's name). */
  function SaveAs(url: string, nameLine: string): (name: string)
    ensures Text.Strip(nameLine) != "" ==> name == Text.Strip(nameLine)
    ensures Text.Strip(nameLine) == "" ==> name == UrlFilename(url)
  {
    var custom := Base.PromptWithDefault(nameLine, UrlFilename(url));
    if custom != "" then custom else UrlFilename(url)
  }

  /** The file name of entry `i` (counted from 1) of a batch: the URL's, or
      "file_<i>" when that is empty. */
  function BatchFilename(url: string, i: nat): (name: string)
    ensures name != ""
    ensures UrlFilename(url) != "" ==> name == UrlFilename(url)
    ensures UrlFilename(url) == "" ==> name == "file_" + Decimal.Show(i)
  {
    var name := UrlFilename(url);
    if name != "" then name else "file_" + Decimal.Show(i)
  }

  /** The fallback names of different entries differ. */
  lemma FallbackNamesDistinct(i: nat, j: nat)
    requires i != j
    ensures "file_" + Decimal.Show(i) != "file_" + Decimal.Show(j)
  {
    var a, b := "file_" + Decimal.Show(i), "file_" + Decimal.Show(j);
    assert a[5..] == Decimal.Show(i) && b[5..] == Decimal.Show(j);
  }

  // ---------------------------------------------------------------------------
  // BatchDownloaderModule.execute

  /** The URL prompt loop: each line is stripped, and the first empty one
      ends the list. When the lines run out first, `input` raises
      `EOFError` and there is no list (`None`). */
  function CollectUrls(lines: seq<string>): (urls: Option<seq<string>>)
    ensures urls.Some? <==> exists i | 0 <= i < |lines| :: Text.Strip(lines[i]) == ""
    ensures urls.Some? ==>
      && |urls.value| < |lines| && Text.Strip(lines[|urls.value|]) == ""
      && forall k | 0 <= k < |urls.value| :: urls.value[k] == Text.Strip(lines[k]) && urls.value[k] != ""
    decreases |lines|
  {
    if lines == [] then None
    else if Text.Strip(lines[0]) == "" then Some([])
    else
      assert forall i | 1 <= i < |lines| :: lines[i] == lines[1..][i - 1];
      match CollectUrls(lines[1..])
      case None => None
      case Some(rest) => Some([Text.Strip(lines[0])] + rest)
  }

  /** The tally of a batch: one entry per URL. */
  datatype Tally = Tally(successful: nat, failed: nat)

  /** The number of entries in `0 .. n` whose download succeeds. */
  function Successes(n: nat, ok: nat -> bool): (s: nat)
    ensures s <= n
  {
    if n == 0 then 0 else Successes(n - 1, ok) + (if ok(n - 1) then 1 else 0)
  }

  /** The download loop: entry `i` (from 0) succeeds when `ok(i)`; any
      exception of an entry counts it as failed and moves on. */
  method TallyDownloads(urls: seq<string>, ok: nat -> bool) returns (t: Tally)
    ensures t.successful + t.failed == |urls|
    ensures t.successful == Successes(|urls|, ok)
    ensures t.successful == 0 <==> forall i | 0 <= i < |urls| :: !ok(i)
  {
    var successful, failed := 0, 0;
    for i := 0 to |urls|
      invariant successful + failed == i
      invariant successful == Successes(i, ok)
      invariant successful == 0 <==> forall j | 0 <= j < i :: !ok(j)
    {
      if ok(i) {
        successful := successful + 1;
      } else {
        failed := failed + 1;
      }
    }
    t := Tally(successful, failed);
  }

  /** `BatchDownloaderModule.execute`: input that ends before an empty
      line is caught by the outer handler and gives false, as does an empty
      list, both before downloading; otherwise the result is true exactly
      when some download succeeded. */
  method Batch(lines: seq<string>, ok: nat -> bool) returns (result: bool, t: Option<Tally>)
    ensures t.Some? <==> CollectUrls(lines).Some? && CollectUrls(lines).value != []
    ensures t.Some? ==> t.value.successful + t.value.failed == |CollectUrls(lines).value|
    ensures result <==> t.Some? && t.value.successful > 0
    ensures result <==> CollectUrls(lines).Some? && exists i | 0 <= i < |CollectUrls(lines).value| :: ok(i)
  {
    var collected := CollectUrls(lines);
    if collected.None? || collected.value == [] {
      return false, None;
    }
    var tally := TallyDownloads(collected.value, ok);
    return tally.successful > 0, Some(tally);
  }

  // ---------------------------------------------------------------------------
  // writing the response

  /** The bytes of all chunks, in order. */
  function Flatten(chunks: seq<seq<bv8>>): seq<bv8>
  {
    if chunks == [] then [] else Flatten(chunks[..|chunks| - 1]) + chunks[|chunks| - 1]
  }

  /** The write loop: every non-empty chunk is appended to the file. */
  method WriteChunks(chunks: seq<seq<bv8>>) returns (file: seq<bv8>)
    ensures file == Flatten(chunks)
    ensures |file| == TotalSize(chunks)
  {
    file := [];
    for i := 0 to |chunks|
      invariant file == Flatten(chunks[..i])
    {
      if chunks[i] != [] {
        file := file + chunks[i];
      }
      assert chunks[..i + 1][..i] == chunks[..i];
    }
    assert chunks[..|chunks|] == chunks;
    FlattenSize(chunks);
  }

  /** The sum of the chunk sizes. */
  function TotalSize(chunks: seq<seq<bv8>>): nat {
    if chunks == [] then 0 else TotalSize(chunks[..|chunks| - 1]) + |chunks[|chunks| - 1]|
  }

  lemma {:induction false} FlattenSize(chunks: seq<seq<bv8>>)
    ensures |Flatten(chunks)| == TotalSize(chunks)
  {
    if chunks != [] {
      FlattenSize(chunks[..|chunks| - 1]);
    }
  }

  /** Skipping the empty chunks changes nothing: the file is the same as
      writing every chunk, and splitting the stream anywhere writes the two
      halves one after the other. */
  lemma {:induction false} FlattenAppend(a: seq<seq<bv8>>, b: seq<seq<bv8>>)
    ensures Flatten(a + b) == Flatten(a) + Flatten(b)
    decreases |b|
  {
    if b == [] {
      assert a + b == a;
    } else {
      var b' := b[..|b| - 1];
      assert (a + b)[..|a + b| - 1] == a + b';
      FlattenAppend(a, b');
    }
  }

  /** An empty chunk anywhere adds no bytes. */
  lemma EmptyChunkInvisible(a: seq<seq<bv8>>, b: seq<seq<bv8>>)
    ensures Flatten(a + [[]] + b) == Flatten(a + b)
  {
    FlattenAppend(a + [[]], b);
    FlattenAppend(a, b);
    assert (a + [[]])[..|a + [[]]| - 1] == a;
  }
}

=== FILE: geolocation.dfy ===
/**
 * modules/ip_tools.py, classes GeolocateIPModule and MyPublicIPModule: the
 * ordered fallback over web services and the normalisation of a geolocation
 * reply into display rows.
 *
 * The network is an oracle: `fetch` maps a URL to the response that request
 * got (an exception, or a status code and a body). A JSON body is a map from
 * field names to values whose Python truthiness and `str()` the model keeps.
 */
module Geolocation {
  import opened Wrappers
  import Text
  import Decimal
  import Base

  // ---------------------------------------------------------------------------
  // JSON values

  /** A value of a decoded JSON object. `JOther` stands for floats, lists and
      nested objects, of which only truthiness and `str()` matter here. */
  datatype Json = JNull | JBool(b: bool) | JInt(i: int) | JStr(s: string) | JOther(truthy: bool, text: string)

  type Object = map<string, Json>

  /** Python truthiness: `None`, `False`, `0` and `""` are false. */
  predicate Truthy(v: Json) {
    match v
    case JNull => false
    case JBool(b) => b
    case JInt(i) => i != 0
    case JStr(s) => s != ""
    case JOther(t, _) => t
  }

  /** `str(v)`. */
  function Str(v: Json): string {
    match v
    case JNull => "None"
    case JBool(b) => if b then "True" else "False"
    case JInt(i) => Decimal.ShowInt(i)
    case JStr(s) => s
    case JOther(_, text) => text
  }

  /** `field in data and data[field]`. */
  predicate Present(data: Object, field: string) {
    field in data && Truthy(data[field])
  }

  // ---------------------------------------------------------------------------
  // _format_geo_data

  /** The output keys and, for each, the provider field names tried in order. */
  const FieldMappings: seq<(string, seq<string>)> := [
    ("ip", ["ip"]),
    ("city", ["city"]),
    ("region", ["region", "region_name"]),
    ("country", ["country", "country_name"]),
    ("country_code", ["country_code"]),
    ("postal", ["postal", "zip"]),
    ("latitude", ["latitude", "lat"]),
    ("longitude", ["longitude", "lon", "lng"]),
    ("timezone", ["timezone"]),
    ("isp", ["org", "isp"])]

  /** The position of the first alias present with a truthy value. */
  function FirstTruthy(data: Object, aliases: seq<string>): (r: Option<nat>)
    ensures r.Some? ==>
      && r.value < |aliases| && Present(data, aliases[r.value])
      && forall j | 0 <= j < r.value :: !Present(data, aliases[j])
    ensures r.None? ==> forall j | 0 <= j < |aliases| :: !Present(data, aliases[j])
  {
    if |aliases| == 0 then None
    else if Present(data, aliases[0]) then Some(0)
    else match FirstTruthy(data, aliases[1..])
      case None => None
      case Some(j) => Some(j + 1)
  }

  /** `key.replace("_", " ").title()`. */
  function DisplayKey(key: string): string {
    Text.Title(Text.ReplaceChar(key, '_', ' '))
  }

  /** The value an output key takes: `str()` of its first truthy alias. */
  function FieldValue(data: Object, aliases: seq<string>): Option<string> {
    match FirstTruthy(data, aliases)
    case None => None
    case Some(j) => Some(Str(data[aliases[j]]))
  }

  /** The rows `_format_geo_data`'s loop produces for a list of mappings, in
      mapping order (see `FormatFieldsAppend`); a key none of whose aliases
      is truthy gets no row. */
  function FormatFields(mappings: seq<(string, seq<string>)>, data: Object): (rows: seq<(string, string)>)
    ensures |rows| <= |mappings|
    ensures forall r | r in rows :: RowOfSomeMapping(r, mappings, data)
    ensures DistinctKeys(mappings) ==> DistinctLabels(rows)
  {
    if |mappings| == 0 then []
    else
      var tail := FormatFields(mappings[1..], data);
      RowsOfCons(mappings, data, tail);
      MappingRow(mappings[0], data) + tail
  }

  /** The first mapping's row followed by rows of the other mappings are rows
      of the whole list, and their labels stay distinct when the keys are. */
  lemma RowsOfCons(ms: seq<(string, seq<string>)>, data: Object, tail: seq<(string, string)>)
    requires |ms| > 0
    requires forall r | r in tail :: RowOfSomeMapping(r, ms[1..], data)
    requires DistinctKeys(ms[1..]) ==> DistinctLabels(tail)
    ensures forall r | r in MappingRow(ms[0], data) + tail :: RowOfSomeMapping(r, ms, data)
    ensures DistinctKeys(ms) ==> DistinctLabels(MappingRow(ms[0], data) + tail)
  {
    var head := MappingRow(ms[0], data);
    assert |head| <= 1;
    forall r | r in tail ensures RowOfSomeMapping(r, ms, data) {
      var m :| 0 <= m < |ms[1..]| && r.0 == DisplayKey(ms[1..][m].0) && FieldValue(data, ms[1..][m].1) == Some(r.1);
      assert ms[1..][m] == ms[m + 1];
    }
    forall r | r in head ensures RowOfSomeMapping(r, ms, data) {
      assert r.0 == DisplayKey(ms[0].0) && FieldValue(data, ms[0].1) == Some(r.1);
    }
    if DistinctKeys(ms) {
      forall i, j | 0 <= i < j < |ms[1..]| ensures DisplayKey(ms[1..][i].0) != DisplayKey(ms[1..][j].0) {
        assert ms[1..][i] == ms[i + 1] && ms[1..][j] == ms[j + 1];
      }
      forall r | r in tail ensures r.0 != DisplayKey(ms[0].0) {
        var m :| 0 <= m < |ms[1..]| && r.0 == DisplayKey(ms[1..][m].0) && FieldValue(data, ms[1..][m].1) == Some(r.1);
        assert ms[1..][m] == ms[m + 1];
      }
      forall i, j | 0 <= i < j < |head + tail| ensures (head + tail)[i].0 != (head + tail)[j].0 {
        if i < |head| {
          assert (head + tail)[j] == tail[j - |head|];
          assert tail[j - |head|] in tail;
        } else {
          assert (head + tail)[i] == tail[i - |head|] && (head + tail)[j] == tail[j - |head|];
        }
      }
    }
  }

  /** `r` is the display key and value of one of the mappings. */
  predicate RowOfSomeMapping(r: (string, string), mappings: seq<(string, seq<string>)>, data: Object) {
    exists m | 0 <= m < |mappings| ::
      r.0 == DisplayKey(mappings[m].0) && FieldValue(data, mappings[m].1) == Some(r.1)
  }

  /** No two rows share a label. */
  predicate DistinctLabels(rows: seq<(string, string)>) {
    forall i, j | 0 <= i < j < |rows| :: rows[i].0 != rows[j].0
  }

  /** The row one mapping contributes, if any. */
  function MappingRow(m: (string, seq<string>), data: Object): seq<(string, string)> {
    match FieldValue(data, m.1)
    case None => []
    case Some(v) => [(DisplayKey(m.0), v)]
  }

  /** The rows of a list of mappings are those of its first part followed by
      those of the rest: rows come out in mapping order. */
  lemma {:induction false} FormatFieldsAppend(a: seq<(string, seq<string>)>, b: seq<(string, seq<string>)>, data: Object)
    ensures FormatFields(a + b, data) == FormatFields(a, data) + FormatFields(b, data)
    decreases |a|
  {
    if |a| == 0 {
      assert a + b == b;
    } else {
      FormatFieldsAppend(a[1..], b, data);
      FormatFieldsAppendStep(a, b, data);
    }
  }

  /** The inductive step of `FormatFieldsAppend`: the first mapping's row
      leads both sides. */
  lemma FormatFieldsAppendStep(a: seq<(string, seq<string>)>, b: seq<(string, seq<string>)>, data: Object)
    requires |a| > 0
    requires FormatFields(a[1..] + b, data) == FormatFields(a[1..], data) + FormatFields(b, data)
    ensures FormatFields(a + b, data) == FormatFields(a, data) + FormatFields(b, data)
  {
    assert (a + b)[0] == a[0] && (a + b)[1..] == a[1..] + b;
    ConsAppend(MappingRow(a[0], data), FormatFields(a[1..], data), FormatFields(b, data),
      FormatFields(a + b, data), FormatFields(a, data));
  }

  /** `whole == row + (rest + tail)` and `front == row + rest` give
      `whole == front + tail`. */
  lemma ConsAppend<T>(row: seq<T>, rest: seq<T>, tail: seq<T>, whole: seq<T>, front: seq<T>)
    requires whole == row + (rest + tail) && front == row + rest
    ensures whole == front + tail
  {
  }

  /** One mapping gives at most one row: its display key with its value. */
  lemma FormatFieldsOne(m: (string, seq<string>), data: Object)
    ensures FormatFields([m], data) == (match FieldValue(data, m.1)
      case None => []
      case Some(v) => [(DisplayKey(m.0), v)])
  {
    assert [m][1..] == [];
  }

  /** `_format_geo_data`. */
  function FormatGeoData(data: Object): seq<(string, string)> {
    FormatFields(FieldMappings, data)
  }

  /** The value of the first row labelled `key`. */
  function Lookup(rows: seq<(string, string)>, key: string): Option<string> {
    if |rows| == 0 then None
    else if rows[0].0 == key then Some(rows[0].1)
    else Lookup(rows[1..], key)
  }

  /** Every label names a distinct output key. */
  predicate DistinctKeys(mappings: seq<(string, seq<string>)>) {
    forall i, j | 0 <= i < j < |mappings| :: DisplayKey(mappings[i].0) != DisplayKey(mappings[j].0)
  }

  /** Each output key holds `str()` of its first truthy alias, and is absent
      exactly when no alias is present with a truthy value. */
  lemma {:induction false} FormatFieldsLookup(mappings: seq<(string, seq<string>)>, data: Object, m: nat)
    requires DistinctKeys(mappings) && m < |mappings|
    ensures Lookup(FormatFields(mappings, data), DisplayKey(mappings[m].0)) == FieldValue(data, mappings[m].1)
  {
    var key := DisplayKey(mappings[m].0);
    var rows := FormatFields(mappings, data);
    var tail := FormatFields(mappings[1..], data);
    if m == 0 {
      match FieldValue(data, mappings[0].1)
      case None =>
        assert rows == tail;
        MissingKey(mappings[1..], data, key);
      case Some(v) =>
        assert rows == [(key, v)] + tail;
    } else {
      FormatFieldsLookup(mappings[1..], data, m - 1);
      assert DisplayKey(mappings[0].0) != key;
      match FieldValue(data, mappings[0].1)
      case None =>
        assert rows == tail;
      case Some(v) =>
        assert rows == [(DisplayKey(mappings[0].0), v)] + tail;
        assert rows[1..] == tail;
    }
  }

  /** Every row's label is the output key of some mapping. */
  lemma {:induction false} FormatFieldsLabels(mappings: seq<(string, seq<string>)>, data: Object, key: string)
    requires forall i | 0 <= i < |mappings| :: DisplayKey(mappings[i].0) != key
    ensures forall r | r in FormatFields(mappings, data) :: r.0 != key
  {
    if |mappings| > 0 {
      FormatFieldsLabels(mappings[1..], data, key);
    }
  }

  /** A key that no mapping produces has no row. */
  lemma MissingKey(mappings: seq<(string, seq<string>)>, data: Object, key: string)
    requires forall i | 0 <= i < |mappings| :: DisplayKey(mappings[i].0) != key
    ensures Lookup(FormatFields(mappings, data), key) == None
  {
    FormatFieldsLabels(mappings, data, key);
    NotLabelled(FormatFields(mappings, data), key);
  }

  /** Rows none of which is labelled `key` have no value for it. */
  lemma {:induction false} NotLabelled(rows: seq<(string, string)>, key: string)
    requires forall r | r in rows :: r.0 != key
    ensures Lookup(rows, key) == None
  {
    if |rows| > 0 {
      assert rows[0] in rows;
      NotLabelled(rows[1..], key);
    }
  }

  /** The labels `_format_geo_data` shows, in order. */
  const GeoLabels: seq<string> := [
    "Ip", "City", "Region", "Country", "Country Code",
    "Postal", "Latitude", "Longitude", "Timezone", "Isp"]

  /** The output key of each mapping is its key with "_" turned to a space
      and title-cased; the ten are distinct. */
  lemma GeoLabelsOfMappings()
    ensures |GeoLabels| == |FieldMappings|
    ensures forall m | 0 <= m < |FieldMappings| :: DisplayKey(FieldMappings[m].0) == GeoLabels[m]
  {
    forall m | 0 <= m < |FieldMappings|
      ensures DisplayKey(FieldMappings[m].0) == GeoLabels[m]
    {
      LabelOf(m);
    }
  }

  /** No two of the ten labels coincide. */
  lemma GeoKeysDistinct()
    ensures DistinctKeys(FieldMappings)
  {
    GeoLabelsOfMappings();
    assert forall i, j | 0 <= i < j < |GeoLabels| :: GeoLabels[i] != GeoLabels[j];
  }

  /** One mapping's display key. */
  lemma LabelOf(m: nat)
    requires m < |FieldMappings|
    ensures DisplayKey(FieldMappings[m].0) == GeoLabels[m]
  {
    var key, shown := FieldMappings[m].0, GeoLabels[m];
    var d := DisplayKey(key);
    assert |d| == |shown|;
    forall k | 0 <= k < |d|
      ensures d[k] == shown[k]
    {
    }
  }

  /** `_format_geo_data` on a provider reply: each of the ten labels holds
      `str()` of the first truthy alias of its field, and is absent when
      there is none. */
  lemma GeoDataLookup(data: Object, m: nat)
    requires m < |FieldMappings|
    ensures Lookup(FormatGeoData(data), GeoLabels[m]) == FieldValue(data, FieldMappings[m].1)
  {
    GeoLabelsOfMappings();
    GeoKeysDistinct();
    FormatFieldsLookup(FieldMappings, data, m);
  }

  // ---------------------------------------------------------------------------
  // the ordered provider fallback

  /** What one request gave: an exception, or a status code and a body. */
  datatype Response<T> = Raised | Replied(status: int, body: T)

  /** What the loop takes from one response: the body's reading when the
      status is 200 and reading it does not raise. */
  function Accepted<T, R>(resp: Response<T>, read: T -> Option<R>): Option<R> {
    if resp.Replied? && resp.status == 200 then read(resp.body) else None
  }

  /** The loop over the services: the first accepted response, in list
      order; `None` when every service fails. */
  function FirstSuccess<T, R>(urls: seq<string>, fetch: string -> Response<T>, read: T -> Option<R>): (r: Option<R>)
    ensures r.None? <==> forall i | 0 <= i < |urls| :: Accepted(fetch(urls[i]), read).None?
  {
    if |urls| == 0 then None
    else match Accepted(fetch(urls[0]), read)
      case Some(v) => Some(v)
      case None => FirstSuccess(urls[1..], fetch, read)
  }

  /** The answer comes from the first service that succeeds: every service
      before it failed. */
  lemma {:induction false} FirstSuccessIsFirst<T, R>(urls: seq<string>, fetch: string -> Response<T>, read: T -> Option<R>)
    requires FirstSuccess(urls, fetch, read).Some?
    ensures exists i | 0 <= i < |urls| ::
      && Accepted(fetch(urls[i]), read) == FirstSuccess(urls, fetch, read)
      && forall j | 0 <= j < i :: Accepted(fetch(urls[j]), read).None?
  {
    if Accepted(fetch(urls[0]), read).None? {
      FirstSuccessIsFirst(urls[1..], fetch, read);
      var i :| 0 <= i < |urls[1..]|
        && Accepted(fetch(urls[1..][i]), read) == FirstSuccess(urls[1..], fetch, read)
        && forall j | 0 <= j < i :: Accepted(fetch(urls[1..][j]), read).None?;
      assert Accepted(fetch(urls[i + 1]), read) == FirstSuccess(urls, fetch, read);
      forall j | 0 <= j < i + 1
        ensures Accepted(fetch(urls[j]), read).None?
      {
        if j > 0 {
          assert urls[j] == urls[1..][j - 1];
        }
      }
    } else {
      assert Accepted(fetch(urls[0]), read) == FirstSuccess(urls, fetch, read);
    }
  }

  /** Appending services never changes an answer already found. */
  lemma {:induction false} FirstSuccessPrefix<T, R>(urls: seq<string>, more: seq<string>, fetch: string -> Response<T>, read: T -> Option<R>)
    requires FirstSuccess(urls, fetch, read).Some?
    ensures FirstSuccess(urls + more, fetch, read) == FirstSuccess(urls, fetch, read)
  {
    assert (urls + more)[0] == urls[0];
    if Accepted(fetch(urls[0]), read).None? {
      assert (urls + more)[1..] == urls[1..] + more;
      FirstSuccessPrefix(urls[1..], more, fetch, read);
    }
  }

  /** The services `GeolocateIPModule._get_public_ip` asks, in order. */
  const GeoIpServices: seq<string> := ["https://api.ipify.org", "https://icanhazip.com", "https://ident.me"]

  /** The services `MyPublicIPModule._get_public_ip` asks: the same three,
      then one more. */
  const MyIpServices: seq<string> := GeoIpServices + ["https://ifconfig.me/ip"]

  /** Reading a 200 reply of `_get_public_ip`: its stripped text. */
  function ReadText(text: string): Option<string> {
    Some(Text.Strip(text))
  }

  /** `_get_public_ip`. */
  function PublicIp(services: seq<string>, fetch: string -> Response<string>): Option<string> {
    FirstSuccess(services, fetch, ReadText)
  }

  /** The address found is the stripped text of the first service that
      answered 200, so it has no surrounding whitespace; a 200 reply of only
      whitespace gives "" and still ends the search. */
  lemma PublicIpIsFirst(services: seq<string>, fetch: string -> Response<string>)
    requires PublicIp(services, fetch).Some?
    ensures exists i | 0 <= i < |services| ::
      && fetch(services[i]).Replied? && fetch(services[i]).status == 200
      && PublicIp(services, fetch).value == Text.Strip(fetch(services[i]).body)
      && forall j | 0 <= j < i :: !(fetch(services[j]).Replied? && fetch(services[j]).status == 200)
    ensures Text.Strip(PublicIp(services, fetch).value) == PublicIp(services, fetch).value
  {
    FirstSuccessIsFirst(services, fetch, ReadText);
    var i :| 0 <= i < |services|
      && Accepted(fetch(services[i]), ReadText) == PublicIp(services, fetch)
      && forall j | 0 <= j < i :: Accepted(fetch(services[j]), ReadText).None?;
    Text.StripIdempotent(fetch(services[i]).body);
  }

  /** Whenever the three-service lookup finds an address, the four-service
      lookup finds the same one. */
  lemma MyIpExtendsGeoIp(fetch: string -> Response<string>)
    requires PublicIp(GeoIpServices, fetch).Some?
    ensures PublicIp(MyIpServices, fetch) == PublicIp(GeoIpServices, fetch)
  {
    FirstSuccessPrefix(GeoIpServices, ["https://ifconfig.me/ip"], fetch, ReadText);
  }

  /** The two geolocation services for an address, in order. */
  function GeoServices(ip: string): seq<string> {
    ["https://ipapi.co/" + ip + "/json/", "https://ipinfo.io/" + ip + "/json"]
  }

  /** Reading a 200 reply. `None` stands for a body that `response.json()` or
      `_format_geo_data` fails on; `Some(data)` for one that formats, an
      object or a JSON value with no field name in it (read as the empty
      object, which formats to no rows). */
  function ReadGeo(body: Option<Object>): Option<seq<(string, string)>> {
    match body
    case None => None
    case Some(data) => Some(FormatGeoData(data))
  }

  /** `_get_geolocation`. */
  function Geolocation(ip: string, fetch: string -> Response<Option<Object>>): Option<seq<(string, string)>> {
    FirstSuccess(GeoServices(ip), fetch, ReadGeo)
  }

  /** The lookup asks the second service only when the first raised, did
      not answer 200, or sent a body that `response.json()` or
      `_format_geo_data` fails on; any other 200 reply is used even if it
      formats to no rows. */
  lemma GeolocationOrder(ip: string, fetch: string -> Response<Option<Object>>)
    ensures var first := fetch(GeoServices(ip)[0]);
      first.Replied? && first.status == 200 && first.body.Some? ==>
        Geolocation(ip, fetch) == Some(FormatGeoData(first.body.value))
    ensures Accepted(fetch(GeoServices(ip)[0]), ReadGeo).None? ==>
      Geolocation(ip, fetch) == Accepted(fetch(GeoServices(ip)[1]), ReadGeo)
  {
    var urls := GeoServices(ip);
    assert |urls| == 2 && urls[1..][0] == urls[1] && |urls[1..][1..]| == 0;
    assert FirstSuccess(urls[1..][1..], fetch, ReadGeo) == None;
    if Accepted(fetch(urls[0]), ReadGeo).None? {
      assert FirstSuccess(urls, fetch, ReadGeo) == FirstSuccess(urls[1..], fetch, ReadGeo);
    }
  }

  // ---------------------------------------------------------------------------
  // GeolocateIPModule.execute and MyPublicIPModule.execute

  /** The outcome of a geolocation run: an error, or the rows shown. */
  datatype GeoOutcome = GeoFailed(error: string) | GeoShown(title: string, rows: seq<(string, string)>)

  /** The address to locate: the answer, or when the answer is empty the
      detected public address, where "" counts as failure. */
  function Target(answer: string, fetchText: string -> Response<string>): Option<string> {
    if answer != "" then Some(answer)
    else match PublicIp(GeoIpServices, fetchText)
      case None => None
      case Some(ip) => if ip == "" then None else Some(ip)
  }

  /** `GeolocateIPModule.execute`: locate the target when it is a valid
      address; an empty formatted result counts as failure. */
  function Geolocate(answer: string, fetchText: string -> Response<string>,
                     fetchJson: string -> Response<Option<Object>>): (o: GeoOutcome)
    ensures o.GeoShown? <==>
      && Target(answer, fetchText).Some?
      && Base.ValidateIp(Target(answer, fetchText).value)
      && Geolocation(Target(answer, fetchText).value, fetchJson).Some?
      && Geolocation(Target(answer, fetchText).value, fetchJson).value != []
    ensures o.GeoShown? ==> o.rows == Geolocation(Target(answer, fetchText).value, fetchJson).value
    ensures answer != "" && !Base.ValidateIp(answer) ==> o == GeoFailed("Invalid IP address format")
    ensures Target(answer, fetchText).None? ==> o == GeoFailed("Failed to detect your IP")
  {
    match Target(answer, fetchText)
    case None => GeoFailed("Failed to detect your IP")
    case Some(ip) =>
      if !Base.ValidateIp(ip) then GeoFailed("Invalid IP address format")
      else match Geolocation(ip, fetchJson)
        case None => GeoFailed("Failed to retrieve geolocation data")
        case Some(rows) =>
          if rows == [] then GeoFailed("Failed to retrieve geolocation data")
          else GeoShown("\U{1F30D} Geolocation: " + ip, rows)
  }

  /** `MyPublicIPModule.execute` reports success exactly when a non-empty
      public address was detected; whether the details lookup worked only
      changes what is shown. */
  function MyPublicIp(fetchText: string -> Response<string>): (ok: bool)
    ensures ok <==> PublicIp(MyIpServices, fetchText).Some? && PublicIp(MyIpServices, fetchText).value != ""
    ensures ok ==> exists i | 0 <= i < |MyIpServices| ::
      && fetchText(MyIpServices[i]).Replied? && fetchText(MyIpServices[i]).status == 200
      && Text.Strip(fetchText(MyIpServices[i]).body) != ""
      && forall j | 0 <= j < i :: !(fetchText(MyIpServices[j]).Replied? && fetchText(MyIpServices[j]).status == 200)
  {
    var r := PublicIp(MyIpServices, fetchText);
    if r.Some? then PublicIpIsFirst(MyIpServices, fetchText); r.value != ""
    else false
  }

  /** Whenever the geolocator can detect the user's address, so can
      `MyPublicIPModule`, and it finds the same address. */
  lemma MyPublicIpCoversGeolocate(fetchText: string -> Response<string>)
    requires Target("", fetchText).Some?
    ensures MyPublicIp(fetchText)
    ensures PublicIp(MyIpServices, fetchText) == Target("", fetchText)
  {
    MyIpExtendsGeoIp(fetchText);
  }
}

=== FILE: ip_calculator.dfy ===
/**
 * modules/ip_tools.py, class IPCalculator: the subnet report for an
 * "address/prefix" input and the classful address class.
 *
 * The calculator computes with Python integers and `<<`, `&`, `^`, `|`; here
 * those are the operators of module `Bits`, and the lemmas show they compute
 * the prefix arithmetic of section 3.1 of RFC 4632: the mask holds the top
 * `cidr` bits of the 32, the network is the address with its host bits
 * cleared, and the broadcast is the network with its host bits set.
 */
module IpCalculator {
  import opened Wrappers
  import opened Bits
  import opened Decimal
  import Text
  import Base
  import opened IpTools

  // ---------------------------------------------------------------------------
  // masks

  /** `(0xFFFFFFFF << (32 - cidr)) & 0xFFFFFFFF`. */
  function MaskOf(cidr: nat): nat
    requires cidr <= 32
  {
    Bitwise(And, Shl(AllOnes, 32 - cidr), AllOnes)
  }

  /** `0xFFFFFFFF ^ mask`. */
  function WildcardOf(cidr: nat): nat
    requires cidr <= 32
  {
    Bitwise(Xor, AllOnes, MaskOf(cidr))
  }

  /** The mask in arithmetic terms, for block size `p == 2^(32 - cidr)` and
      `q == 2^cidr` blocks: the top `q - 1` blocks of the 32-bit range. */
  lemma MaskArithmetic(cidr: nat, p: nat, q: nat)
    requires cidr <= 32 && p == Pow2(32 - cidr) && q * p == 4294967296
    ensures MaskOf(cidr) == 4294967296 - p == (q - 1) * p
  {
    MulAtLeast(q, p);
    ShlValue(AllOnes, 32 - cidr);
    TruncateShifted(Shl(AllOnes, 32 - cidr), p);
    Distribute(MaskOf(cidr), 4294967296, q, p);
  }

  /** Below a mask of the top `q - 1` blocks of `p == 2^k` addresses, the
      wildcard is the low `p - 1`: mask and wildcard share no bit and together
      cover all 32. */
  lemma WildcardArithmetic(k: nat, p: nat, q: nat, m: nat)
    requires p == Pow2(k) && q * p == 4294967296 && q >= 1
    requires m == (q - 1) * p
    ensures Bitwise(Xor, AllOnes, m) == p - 1
    ensures Bitwise(Xor, m, p - 1) == AllOnes
    ensures Bitwise(Or, m, p - 1) == AllOnes
    ensures Bitwise(And, m, p - 1) == 0
  {
    FlipHigh(k, p, q, AllOnes, m);
    HostBits(Xor, q - 1, k, p, m, p - 1);
    HostBits(Or, q - 1, k, p, m, p - 1);
    HostBits(And, q - 1, k, p, m, p - 1);
  }

  /** Masking rounds the address down to a block boundary, and or-ing the
      wildcard moves that boundary to the last address of its block. */
  lemma NetworkArithmetic(k: nat, n: nat, p: nat, q: nat, m: nat, address: nat)
    requires p == Pow2(k) && q == Pow2(n) && q * p == 4294967296
    requires m == (q - 1) * p && address < 4294967296
    ensures Bitwise(And, address, m) == RoundDown(address, p)
    ensures RoundDown(address, p) <= address < RoundDown(address, p) + p <= 4294967296
    ensures Bitwise(Or, RoundDown(address, p), p - 1) == RoundDown(address, p) + p - 1
    ensures Bitwise(And, RoundDown(address, p), p - 1) == 0
  {
    RoundDownValue(address, p);
    ClearHost(k, n, p, q, address, m);
    HostBits(Or, address / p, k, p, RoundDown(address, p), p - 1);
    HostBits(And, address / p, k, p, RoundDown(address, p), p - 1);
  }

  /** `(0xFFFFFFFF * p) & 0xFFFFFFFF` for a block size `p` up to 2^32. */
  lemma TruncateShifted(s: nat, p: nat)
    requires 1 <= p <= 4294967296 && s == AllOnes * p
    ensures Bitwise(And, s, AllOnes) == 4294967296 - p
  {
    Pow2Values();
    LowMask(s, 32);
    assert s == (p - 1) * 4294967296 + (4294967296 - p);
    DivUnique(s, 4294967296, p - 1, 4294967296 - p);
  }

  lemma Distribute(m: int, t: int, q: int, p: int)
    requires m == t - p && t == q * p
    ensures m == (q - 1) * p
  {
  }

  /** Flipping the top bits of all ones leaves the low `k` ones. */
  lemma FlipHigh(k: nat, p: nat, q: nat, ones: nat, m: nat)
    requires p == Pow2(k) && q >= 1 && ones == q * p - 1 && m == (q - 1) * p
    ensures Bitwise(Xor, ones, m) == p - 1
  {
    Distribute(ones + 1 - p, ones + 1, q, p);
    SplitAt(Xor, k, ones, q - 1, p - 1, m, q - 1, 0);
    XorSelf(q - 1);
    ZeroRight(Xor, p - 1);
    ZeroTimes(Bitwise(Xor, q - 1, q - 1), p);
  }

  /** Setting (with `|` or `^`) or clearing (with `&`) the low `k` bits of a
      multiple of `2^k`. */
  lemma HostBits(op: BitOp, a: nat, k: nat, p: nat, x: nat, m: nat)
    requires p == Pow2(k) && x == a * p && m == p - 1
    ensures Bitwise(op, x, m) == if op == And then 0 else x + m
  {
    SplitAt(op, k, x, a, 0, m, 0, m);
    ZeroRight(op, a);
    Commutative(op, 0, m);
    ZeroRight(op, m);
  }

  /** Anding `x < q * p` with the high mask `(q - 1) * p` rounds `x` down to a
      multiple of `p`; the next multiple is still at most `q * p`. */
  lemma ClearHost(k: nat, n: nat, p: nat, q: nat, x: nat, m: nat)
    requires p == Pow2(k) && q == Pow2(n) && x < q * p && m == (q - 1) * p
    ensures Bitwise(And, x, m) == x - x % p
    ensures x - x % p == (x / p) * p
    ensures x - x % p + p <= q * p
  {
    DivMod(x, p);
    QuotientBound(x, p, q);
    SplitAt(And, k, x, x / p, x % p, m, q - 1, 0);
    AndLowOnes(x / p, n);
    ZeroRight(And, x % p);
    MulMonotone(q, x / p + 1, p);
    NextMultiple(x / p, p);
  }

  /** The multiple of `p` after `a * p`. */
  lemma NextMultiple(a: int, p: int)
    ensures (a + 1) * p == a * p + p
  {
  }

  /** Zero times anything is zero. */
  lemma ZeroTimes(z: int, p: int)
    requires z == 0
    ensures z * p == 0
  {
  }

  /** Bit `i` of `(2^n - 1) << k` is set exactly from bit `k` to bit `k + n - 1`. */
  lemma HighBits(k: nat, n: nat, p: nat, q: nat, m: nat, i: nat)
    requires p == Pow2(k) && q == Pow2(n) && m == (q - 1) * p
    ensures TestBit(m, i) <==> k <= i < k + n
  {
    TestBitShifted(q - 1, k, i);
    if i >= k {
      TestBitLowOnes(n, i - k);
    }
  }

  /** `2^32` is `2^cidr` blocks of `2^(32 - cidr)` addresses. */
  lemma Pow2Split(cidr: nat)
    requires cidr <= 32
    ensures Pow2(cidr) * Pow2(32 - cidr) == 4294967296
  {
    Pow2Add(cidr, 32 - cidr);
    assert cidr + (32 - cidr) == 32;
    Pow2Values();
  }

  // ---------------------------------------------------------------------------
  // _calculate_subnet, numerically

  /** The numbers `_calculate_subnet` derives from an address and a prefix
      length; `firstUsable` and `lastUsable` are the first and last usable
      addresses, and `usable` the count it reports. */
  datatype Subnet = Subnet(
    mask: nat, wildcard: nat, network: nat, broadcast: nat,
    firstUsable: nat, lastUsable: nat, total: nat, usable: nat)

  /** The mask and wildcard of a prefix length, for block size
      `p == 2^(32 - cidr)`. */
  lemma MaskFacts(cidr: nat)
    requires cidr <= 32
    ensures var p := Pow2(32 - cidr);
      && MaskOf(cidr) == 4294967296 - p == (Pow2(cidr) - 1) * p
      && WildcardOf(cidr) == p - 1
      && Bitwise(Xor, MaskOf(cidr), WildcardOf(cidr)) == AllOnes
      && Bitwise(Or, MaskOf(cidr), WildcardOf(cidr)) == AllOnes
      && Bitwise(And, MaskOf(cidr), WildcardOf(cidr)) == 0
  {
    var p, q := Pow2(32 - cidr), Pow2(cidr);
    assert q * p == 4294967296 by {
      Pow2Values();
      Pow2Split(cidr);
    }
    assert MaskOf(cidr) == 4294967296 - p == (q - 1) * p by {
      MaskArithmetic(cidr, p, q);
    }
    WildcardArithmetic(32 - cidr, p, q, MaskOf(cidr));
  }

  /** The network and broadcast of an address, for block size
      `p == 2^(32 - cidr)`. */
  lemma NetworkFacts(address: nat, cidr: nat)
    requires address < Pow2(32) && cidr <= 32
    ensures var p := Pow2(32 - cidr);
      && Bitwise(And, address, MaskOf(cidr)) == RoundDown(address, p)
      && RoundDown(address, p) <= address < RoundDown(address, p) + p <= 4294967296
      && Bitwise(Or, RoundDown(address, p), p - 1) == RoundDown(address, p) + p - 1
      && Bitwise(And, RoundDown(address, p), p - 1) == 0
  {
    Pow2Values();
    Pow2Split(cidr);
    MaskFacts(cidr);
    var p := Pow2(32 - cidr);
    NetworkArithmetic(32 - cidr, cidr, p, Pow2(cidr), MaskOf(cidr), address);
    assert Bitwise(And, address, MaskOf(cidr)) == RoundDown(address, p);
    assert Bitwise(Or, RoundDown(address, p), p - 1) == RoundDown(address, p) + p - 1;
    assert Bitwise(And, RoundDown(address, p), p - 1) == 0;
  }

  /** The facts every subnet computation rests on, for one address and prefix. */
  lemma SubnetFacts(address: nat, cidr: nat)
    requires address < Pow2(32) && cidr <= 32
    ensures var p := Pow2(32 - cidr);
      && MaskOf(cidr) == 4294967296 - p
      && WildcardOf(cidr) == p - 1
      && Bitwise(Xor, MaskOf(cidr), WildcardOf(cidr)) == AllOnes
      && Bitwise(And, MaskOf(cidr), WildcardOf(cidr)) == 0
      && Bitwise(And, address, MaskOf(cidr)) == RoundDown(address, p)
      && RoundDown(address, p) <= address < RoundDown(address, p) + p <= 4294967296
      && Bitwise(Or, RoundDown(address, p), WildcardOf(cidr)) == RoundDown(address, p) + p - 1
      && Bitwise(And, RoundDown(address, p), WildcardOf(cidr)) == 0
      && (cidr < 31 ==> p >= 4)
  {
    MaskFacts(cidr);
    NetworkFacts(address, cidr);
    if cidr < 31 {
      Pow2Monotone(2, 32 - cidr);
      assert Pow2(2) == 4 by {
        assert Pow2(1) == 2;
      }
    }
  }

  /** `_calculate_subnet` on the address as a number: the mask from the prefix
      length, network, wildcard and broadcast by bitwise operations, and the
      usable range and counts, where prefixes /31 and /32 count every address
      as usable. */
  function CalculateSubnet(address: nat, cidr: nat): (s: Subnet)
    requires address < Pow2(32) && cidr <= 32
    ensures s.total == Pow2(32 - cidr)
    ensures s.mask == Pow2(32) - s.total && s.wildcard == s.total - 1
    ensures s.network == RoundDown(address, s.total)
    ensures s.broadcast == s.network + s.wildcard
    ensures s.network <= address <= s.broadcast < Pow2(32)
    ensures Bitwise(And, s.network, s.wildcard) == 0
    ensures cidr < 31 ==>
      && s.firstUsable == s.network + 1 && s.lastUsable == s.broadcast - 1
      && s.usable == s.total - 2 == s.lastUsable - s.firstUsable + 1
    ensures cidr >= 31 ==>
      && s.firstUsable == s.network && s.lastUsable == s.broadcast
      && s.usable == s.total
    ensures s.network <= s.firstUsable <= s.lastUsable <= s.broadcast
  {
    Pow2Values();
    SubnetFacts(address, cidr);
    var mask := MaskOf(cidr);
    var network := Bitwise(And, address, mask);
    var wildcard := WildcardOf(cidr);
    var broadcast := Bitwise(Or, network, wildcard);
    var first := if cidr < 31 then network + 1 else network;
    var last := if cidr < 31 then broadcast - 1 else broadcast;
    var total := Pow2(32 - cidr);
    var usable := if cidr < 31 then (if total - 2 > 0 then total - 2 else 0) else total;
    Subnet(mask, wildcard, network, broadcast, first, last, total, usable)
  }

  /** Of the 32 bits, the mask sets exactly the top `cidr` and the wildcard
      exactly the other `32 - cidr`. */
  lemma SubnetMaskBits(address: nat, cidr: nat, i: nat)
    requires address < Pow2(32) && cidr <= 32 && i < 32
    ensures TestBit(CalculateSubnet(address, cidr).mask, i) <==> i >= 32 - cidr
    ensures TestBit(CalculateSubnet(address, cidr).wildcard, i) <==> i < 32 - cidr
  {
    var s := CalculateSubnet(address, cidr);
    PrefixBits(cidr, i);
    assert s.mask == MaskOf(cidr) && s.wildcard == WildcardOf(cidr);
  }

  /** Bit `i` of the mask and of the wildcard of a prefix length. */
  lemma PrefixBits(cidr: nat, i: nat)
    requires cidr <= 32
    ensures TestBit(MaskOf(cidr), i) <==> 32 - cidr <= i < 32
    ensures TestBit(WildcardOf(cidr), i) <==> i < 32 - cidr
  {
    MaskFacts(cidr);
    HighBits(32 - cidr, cidr, Pow2(32 - cidr), Pow2(cidr), MaskOf(cidr), i);
    TestBitLowOnes(32 - cidr, i);
  }

  /** Mask and wildcard are complements within 32 bits: they share no bit,
      and together they are `0xFFFFFFFF`. */
  lemma MaskWildcardComplement(address: nat, cidr: nat)
    requires address < Pow2(32) && cidr <= 32
    ensures var s := CalculateSubnet(address, cidr);
      && Bitwise(And, s.mask, s.wildcard) == 0
      && Bitwise(Or, s.mask, s.wildcard) == AllOnes
      && Bitwise(Xor, s.mask, s.wildcard) == AllOnes
  {
    var s := CalculateSubnet(address, cidr);
    MaskFacts(cidr);
    assert s.mask == MaskOf(cidr) && s.wildcard == WildcardOf(cidr);
  }

  /** The network is reached by masking: an address `x` lies between network
      and broadcast exactly when `x & mask` is the same network. */
  lemma SameNetwork(address: nat, cidr: nat, x: nat)
    requires address < Pow2(32) && x < Pow2(32) && cidr <= 32
    ensures var s := CalculateSubnet(address, cidr);
      s.network <= x <= s.broadcast <==> Bitwise(And, x, s.mask) == s.network
  {
    var s := CalculateSubnet(address, cidr);
    SubnetFacts(x, cidr);
    SameBlock(x, address, s.total);
  }

  // ---------------------------------------------------------------------------
  // _get_ip_class

  /** The class label for a first octet value. */
  function ClassOf(firstOctet: int): string {
    if 1 <= firstOctet <= 126 then "A (Public)"
    else if firstOctet == 127 then "A (Loopback)"
    else if 128 <= firstOctet <= 191 then "B"
    else if 192 <= firstOctet <= 223 then "C"
    else if 224 <= firstOctet <= 239 then "D (Multicast)"
    else if 240 <= firstOctet <= 255 then "E (Reserved)"
    else "Unknown"
  }

  /** `_get_ip_class`: the class of `int(ip.split(".")[0])`; `None` when that
      piece is not a number. */
  function IpClass(ip: string): Option<string> {
    match ParseInt(Text.Split(ip, '.')[0])
    case None => None
    case Some(o) => Some(ClassOf(o))
  }

  /** The labels follow the classful leading-bit rule of section 3.2 of
      RFC 791 and section 4 of RFC 1112 on a non-zero octet: class A starts with
      bit 0, B with 10, C with 110, D with 1110 and E with 1111; 127 is the
      loopback part of A, and 0 or anything above 255 is unknown. */
  lemma ClassLeadingBits(o: int)
    ensures ClassOf(o) == "Unknown" <==> o <= 0 || o > 255
    ensures 1 <= o <= 255 ==>
      && (ClassOf(o)[0] == 'A' <==> o / 128 == 0)
      && (ClassOf(o) == "A (Loopback)" <==> o == 127)
      && (ClassOf(o) == "B" <==> o / 64 == 2)
      && (ClassOf(o) == "C" <==> o / 32 == 6)
      && (ClassOf(o) == "D (Multicast)" <==> o / 16 == 14)
      && (ClassOf(o) == "E (Reserved)" <==> o / 16 == 15)
  {
  }

  /** On a valid address the class is that of its first octet's value, and it
      is unknown exactly when that octet is zero. */
  lemma ValidAddressClass(ip: string)
    requires Base.ValidateIp(ip)
    ensures var first := Text.Split(ip, '.')[0];
      && Base.DecimalOctet(first)
      && IpClass(ip) == Some(ClassOf(Value(first)))
      && (IpClass(ip) == Some("Unknown") <==> Value(first) == 0)
  {
    Base.ValidateIpMeaning(ip);
    var first := Text.Split(ip, '.')[0];
    ParseDigits(first);
    ClassLeadingBits(Value(first));
  }

  // ---------------------------------------------------------------------------
  // the report and IPCalculator.execute

  /** The report `_calculate_subnet` returns, as (label, value) rows in the
      order the dictionary is built and shown. The calculator only reaches it
      with an address `validate_ip` accepted and a prefix length of 0 to 32. */
  function SubnetInfo(ip: string, cidr: nat): (rows: seq<(string, string)>)
    requires Base.ValidateIp(ip) && cidr <= 32
    ensures |rows| == 11
    ensures rows[0] == ("IP Address", ip)
    ensures rows[7] == ("CIDR Notation", "/" + Show(cidr))
  {
    Report(ip, cidr, CalculateSubnet(Address(ip), cidr), IpClass(ip).GetOr("Unknown"))
  }

  /** The labels of the six address rows, in the order the report lists them. */
  const AddressLabels: seq<string> := [
    "Network Address", "Subnet Mask", "Wildcard Mask",
    "Broadcast Address", "First Usable IP", "Last Usable IP"]

  /** The six addresses of a subnet the report prints, in row order. */
  function Addresses(s: Subnet): seq<nat> {
    [s.network, s.mask, s.wildcard, s.broadcast, s.firstUsable, s.lastUsable]
  }

  /** The rows of the report for a computed subnet and class label: the typed
      address, the six addresses in dotted form, then the prefix, the two
      counts and the class. */
  function Report(ip: string, cidr: nat, s: Subnet, classLabel: string): (rows: seq<(string, string)>)
    ensures |rows| == 11
  {
    [("IP Address", ip)]
    + seq(6, i requires 0 <= i < 6 => (AddressLabels[i], IntToIp(Addresses(s)[i])))
    + [ ("CIDR Notation", "/" + Show(cidr)),
        ("Total Addresses", Show(s.total)),
        ("Usable Addresses", Show(s.usable)),
        ("IP Class", classLabel) ]
  }

  /** Every address the report prints is a valid dotted quad that converts
      back to the number computed for it, the counts read back as numbers,
      and the class lookup of a valid address never fails (its value is given
      by `ValidAddressClass`). */
  lemma SubnetInfoReadsBack(ip: string, cidr: nat)
    requires Base.ValidateIp(ip) && cidr <= 32
    ensures var rows := SubnetInfo(ip, cidr);
      var s := CalculateSubnet(Address(ip), cidr);
      && (forall i | 1 <= i <= 6 ::
            && rows[i].0 == AddressLabels[i - 1]
            && Base.ValidateIp(rows[i].1)
            && IpToInt(rows[i].1) == Some(Addresses(s)[i - 1] as int))
      && ParseInt(rows[8].1) == Some(s.total as int)
      && ParseInt(rows[9].1) == Some(s.usable as int)
      && IpClass(ip).Some? && rows[10].1 == IpClass(ip).value
  {
    var s := CalculateSubnet(Address(ip), cidr);
    AddressesFit(Address(ip), cidr);
    ReportReadsBack(ip, cidr, s, IpClass(ip).GetOr("Unknown"));
    ValidAddressClass(ip);
  }

  /** The six addresses of a subnet all fit in 32 bits. */
  lemma AddressesFit(address: nat, cidr: nat)
    requires address < Pow2(32) && cidr <= 32
    ensures AllFit(Addresses(CalculateSubnet(address, cidr)))
  {
    var s := CalculateSubnet(address, cidr);
    Pow2Values();
    SixFit(s.network, s.mask, s.wildcard, s.broadcast, s.firstUsable, s.lastUsable);
  }

  /** Six numbers below 2^32 make a list that fits. */
  lemma SixFit(a: nat, b: nat, c: nat, d: nat, e: nat, f: nat)
    requires a < 4294967296 && b < 4294967296 && c < 4294967296
    requires d < 4294967296 && e < 4294967296 && f < 4294967296
    ensures AllFit([a, b, c, d, e, f])
  {
  }

  /** Every number in `xs` fits in 32 bits. */
  predicate AllFit(xs: seq<nat>) {
    forall i | 0 <= i < |xs| :: xs[i] < 4294967296
  }

  /** The read-back property of `Report` for any subnet whose six addresses
      fit in 32 bits. */
  lemma ReportReadsBack(ip: string, cidr: nat, s: Subnet, classLabel: string)
    requires AllFit(Addresses(s))
    ensures var rows := Report(ip, cidr, s, classLabel);
      && (forall i | 1 <= i <= 6 ::
            && rows[i].0 == AddressLabels[i - 1]
            && Base.ValidateIp(rows[i].1)
            && IpToInt(rows[i].1) == Some(Addresses(s)[i - 1] as int))
      && ParseInt(rows[8].1) == Some(s.total as int)
      && ParseInt(rows[9].1) == Some(s.usable as int)
      && rows[10].1 == classLabel
  {
    var rows := Report(ip, cidr, s, classLabel);
    forall i | 1 <= i <= 6
      ensures && rows[i].0 == AddressLabels[i - 1]
              && Base.ValidateIp(rows[i].1)
              && IpToInt(rows[i].1) == Some(Addresses(s)[i - 1] as int)
    {
      AddressRow(rows, ip, cidr, s, classLabel, i);
    }
    ParseShowInt(s.total);
    ParseShowInt(s.usable);
  }

  /** One address row of the report reads back as its address. */
  lemma AddressRow(rows: seq<(string, string)>, ip: string, cidr: nat, s: Subnet, classLabel: string, i: nat)
    requires rows == Report(ip, cidr, s, classLabel)
    requires AllFit(Addresses(s)) && 1 <= i <= 6
    ensures rows[i].0 == AddressLabels[i - 1]
    ensures Base.ValidateIp(rows[i].1) && IpToInt(rows[i].1) == Some(Addresses(s)[i - 1] as int)
  {
    Pow2Values();
    assert rows[i] == (AddressLabels[i - 1], IntToIp(Addresses(s)[i - 1]));
    IntToIpRoundTrip(Addresses(s)[i - 1]);
  }

  /** The outcome of one calculator run: an error message, or the title and
      rows shown. */
  datatype CalcOutcome = Rejected(error: string) | Shown(title: string, rows: seq<(string, string)>)

  const UsageError: string := "Invalid format. Use: IP/CIDR (e.g., 192.168.1.0/24)"

  /** What `IPCalculator.execute` does with the text typed at the prompt. The
      checks run in the source's order: a "/" must be present; the text must
      split into exactly two pieces at "/" and the second must be a number
      (both failures are "Invalid format"); the address must pass
      `validate_ip`; the prefix length must lie in 0 .. 32. */
  function Execute(input: string): (o: CalcOutcome)
    ensures o.Shown? <==> AcceptedInput(input)
    ensures o.Shown? ==> o.rows == SubnetInfo(Text.Split(input, '/')[0], ParseInt(Text.Split(input, '/')[1]).value)
    ensures o.Rejected? ==> o.error in {UsageError, "Invalid format", "Invalid IP address", "CIDR must be between 0 and 32"}
  {
    Text.CountZero(input, '/');
    if input == [] || '/' !in input then Rejected(UsageError)
    else
      var parts := Text.Split(input, '/');
      if |parts| != 2 then Rejected("Invalid format")
      else match ParseInt(parts[1])
        case None => Rejected("Invalid format")
        case Some(cidr) =>
          if !Base.ValidateIp(parts[0]) then Rejected("Invalid IP address")
          else if !(0 <= cidr <= 32) then Rejected("CIDR must be between 0 and 32")
          else Shown("\U{1F522} Subnet Information: " + input, SubnetInfo(parts[0], cidr))
  }

  /** The inputs the calculator reports on: exactly one "/", a valid address
      before it and a number from 0 to 32 after it. */
  predicate AcceptedInput(input: string) {
    var parts := Text.Split(input, '/');
    && Text.Count(input, '/') == 1
    && Base.ValidateIp(parts[0])
    && ParseInt(parts[1]).Some?
    && 0 <= ParseInt(parts[1]).value <= 32
  }

  /** Which error a rejected input gets, case by case. */
  lemma ExecuteErrors(input: string)
    ensures '/' !in input <==> Execute(input) == Rejected(UsageError)
    ensures Execute(input) == Rejected("Invalid format") <==>
      '/' in input && (Text.Count(input, '/') != 1 || ParseInt(Text.Split(input, '/')[1]).None?)
    ensures Execute(input) == Rejected("Invalid IP address") ==> !Base.ValidateIp(Text.Split(input, '/')[0])
    ensures Execute(input) == Rejected("CIDR must be between 0 and 32") ==>
      var c := ParseInt(Text.Split(input, '/')[1]);
      c.Some? && (c.value < 0 || c.value > 32)
  {
    Text.CountZero(input, '/');
  }

  /** Every address the calculator prints, followed by "/" and any prefix
      length from 0 to 32, is accepted, and the report is about that address. */
  lemma ExecuteAcceptsPrinted(n: nat, cidr: nat)
    requires n < Pow2(32) && cidr <= 32
    ensures Base.ValidateIp(IntToIp(n)) && Address(IntToIp(n)) == n
    ensures var input := IntToIp(n) + "/" + Show(cidr);
      Execute(input) == Shown("\U{1F522} Subnet Information: " + input, SubnetInfo(IntToIp(n), cidr))
  {
    IntToIpRoundTrip(n);
    PrintedInputSplits(n, cidr);
    ExecuteOf(IntToIp(n) + "/" + Show(cidr), IntToIp(n), Show(cidr), cidr);
  }

  /** A printed address, "/" and a printed prefix length split back at "/". */
  lemma PrintedInputSplits(n: nat, cidr: nat)
    ensures Text.Split(IntToIp(n) + "/" + Show(cidr), '/') == [IntToIp(n), Show(cidr)]
  {
    PrintedAvoidsSlash(n);
    ShowAvoids(cidr, '/');
    Text.SplitJoin([IntToIp(n), Show(cidr)], '/');
    assert Text.Join([IntToIp(n), Show(cidr)], '/') == IntToIp(n) + "/" + Show(cidr);
  }

  /** An input that splits at "/" into a valid address and a numeral for a
      prefix length of 0 to 32 gets the report for them. */
  lemma ExecuteOf(input: string, ip: string, cidrText: string, cidr: nat)
    requires Text.Split(input, '/') == [ip, cidrText]
    requires Base.ValidateIp(ip) && cidr <= 32
    requires 0 < |cidrText| && AllDigits(cidrText) && Value(cidrText) == cidr
    ensures Execute(input) == Shown("\U{1F522} Subnet Information: " + input, SubnetInfo(ip, cidr))
  {
    Text.CountZero(input, '/');
    ParseDigits(cidrText);
  }

  /** A printed address holds only digits and dots. */
  lemma PrintedAvoidsSlash(n: nat)
    ensures '/' !in IntToIp(n)
  {
    var parts := [Show(Octet(n, 0)), Show(Octet(n, 1)), Show(Octet(n, 2)), Show(Octet(n, 3))];
    ShowAvoids(Octet(n, 0), '/');
    ShowAvoids(Octet(n, 1), '/');
    ShowAvoids(Octet(n, 2), '/');
    ShowAvoids(Octet(n, 3), '/');
    Text.JoinAvoids(parts, '.', '/');
  }
}

=== FILE: ip_tools.dfy ===
/**
 * modules/ip_tools.py: the IPv4 subnet calculator, the classful address
 * classification, the geolocation field mapping and the ordered fallback over
 * lookup services.
 *
 * The calculator works on Python integers with `&`, `|`, `^` and shifts; here
 * those are the operators of module `Bits` on `nat`, and the lemmas show they
 * compute the prefix arithmetic of section 3.1 of RFC 4632: the mask holds the
 * top `cidr` bits, the network is the address with its host bits cleared and
 * the broadcast is the network with its host bits set.
 */
module IpTools {
  import opened Wrappers
  import opened Bits
  import opened Decimal
  import Text
  import Base

  /** 0xFFFFFFFF, the 32-bit all-ones value the calculator masks with. */
  const AllOnes: nat := 4294967295

  // ---------------------------------------------------------------------------
  // _ip_to_int / _int_to_ip

  /** `int(part)` for every piece, or `None` when one of them is not a number. */
  function ParseAll(parts: seq<string>): Option<seq<int>> {
    if |parts| == 0 then Some([])
    else match ParseInt(parts[0])
      case None => None
      case Some(v) =>
        match ParseAll(parts[1..])
        case None => None
        case Some(vs) => Some([v] + vs)
  }

  /** `_ip_to_int`: the first four "."-separated numbers, shifted left by 24,
      16, 8 and 0 bits and added. A piece that is not a number (`ValueError`) or fewer than four
      pieces (`IndexError`) gives `None`; pieces after the fourth are ignored. */
  function IpToInt(ip: string): Option<int> {
    var parts := Text.Split(ip, '.');
    match ParseAll(parts)
    case None => None
    case Some(p) =>
      if |p| < 4 then None
      else Some(p[0] * 16777216 + p[1] * 65536 + p[2] * 256 + p[3])
  }

  /** Octet `k` (0 is the most significant) of `n`: `(n >> (24 - 8k)) & 0xFF`. */
  function Octet(n: nat, k: nat): nat
    requires k < 4
  {
    Bitwise(And, Shr(n, 24 - 8 * k), 255)
  }

  /** `_int_to_ip`: the four octets in decimal, joined with ".". */
  function IntToIp(n: nat): string {
    Text.Join([Show(Octet(n, 0)), Show(Octet(n, 1)), Show(Octet(n, 2)), Show(Octet(n, 3))], '.')
  }

  /** Every octet is `(n / 2^(24 - 8k)) % 256`. */
  lemma OctetArithmetic(n: nat, k: nat)
    requires k < 4
    ensures Octet(n, k) == (n / Pow2(24 - 8 * k)) % 256
  {
    Pow2Values();
    ShrValue(n, 24 - 8 * k);
    LowMask(Shr(n, 24 - 8 * k), 8);
  }

  /** Four octets in place decompose back into themselves. */
  lemma OctetsOfSum(a: nat, b: nat, c: nat, d: nat)
    requires a < 256 && b < 256 && c < 256 && d < 256
    ensures Octet(a * 16777216 + b * 65536 + c * 256 + d, 0) == a
    ensures Octet(a * 16777216 + b * 65536 + c * 256 + d, 1) == b
    ensures Octet(a * 16777216 + b * 65536 + c * 256 + d, 2) == c
    ensures Octet(a * 16777216 + b * 65536 + c * 256 + d, 3) == d
  {
    Pow2Values();
    assert Pow2(0) == 1;
    Octet0(a * 16777216 + b * 65536 + c * 256 + d, a, b * 65536 + c * 256 + d);
    Octet1(a * 16777216 + b * 65536 + c * 256 + d, a * 256 + b, c * 256 + d, a, b);
    Octet2(a * 16777216 + b * 65536 + c * 256 + d, a * 65536 + b * 256 + c, d, a * 256 + b, c);
    Octet3(a * 16777216 + b * 65536 + c * 256 + d, a * 65536 + b * 256 + c, d);
  }

  lemma Octet0(n: nat, a: nat, r: nat)
    requires a < 256 && r < 16777216 && n == a * 16777216 + r
    ensures Octet(n, 0) == a
  {
    Pow2Values();
    OctetArithmetic(n, 0);
    Div16777216(n, a, r);
    Div256(a, 0, a);
  }

  lemma Octet1(n: nat, q: nat, r: nat, a: nat, b: nat)
    requires b < 256 && r < 65536 && n == q * 65536 + r && q == a * 256 + b
    ensures Octet(n, 1) == b
  {
    Pow2Values();
    OctetArithmetic(n, 1);
    Div65536(n, q, r);
    Div256(q, a, b);
  }

  lemma Octet2(n: nat, q: nat, r: nat, a: nat, b: nat)
    requires b < 256 && r < 256 && n == q * 256 + r && q == a * 256 + b
    ensures Octet(n, 2) == b
  {
    Pow2Values();
    OctetArithmetic(n, 2);
    Div256(n, q, r);
    Div256(q, a, b);
  }

  lemma Octet3(n: nat, q: nat, r: nat)
    requires r < 256 && n == q * 256 + r
    ensures Octet(n, 3) == r
  {
    assert Pow2(0) == 1;
    OctetArithmetic(n, 3);
    Div256(n, q, r);
  }

  /** A 32-bit value is the sum of its octets in place. */
  lemma OctetsCompose(n: nat)
    requires n < Pow2(32)
    ensures Octet(n, 0) * 16777216 + Octet(n, 1) * 65536 + Octet(n, 2) * 256 + Octet(n, 3) == n
    ensures Octet(n, 0) < 256 && Octet(n, 1) < 256 && Octet(n, 2) < 256 && Octet(n, 3) < 256
  {
    Pow2Values();
    var q1, d := n / 256, n % 256;
    var q2, c := q1 / 256, q1 % 256;
    var a, b := q2 / 256, q2 % 256;
    assert n == a * 16777216 + b * 65536 + c * 256 + d;
    OctetsOfSum(a, b, c, d);
  }

  lemma Div256(n: int, q: int, r: int)
    requires 0 <= r < 256 && n == q * 256 + r
    ensures n / 256 == q && n % 256 == r
  {
  }

  lemma Div65536(n: int, q: int, r: int)
    requires 0 <= r < 65536 && n == q * 65536 + r
    ensures n / 65536 == q
  {
  }

  lemma Div16777216(n: int, q: int, r: int)
    requires 0 <= r < 16777216 && n == q * 16777216 + r
    ensures n / 16777216 == q
  {
  }

  /** `ParseAll` fails exactly when some piece is not a number, and otherwise
      yields every piece's number in order. */
  lemma ParseAllMeaning(parts: seq<string>)
    ensures ParseAll(parts).None? <==> exists i | 0 <= i < |parts| :: ParseInt(parts[i]).None?
    ensures ParseAll(parts).Some? ==>
      && |ParseAll(parts).value| == |parts|
      && forall i | 0 <= i < |parts| :: ParseInt(parts[i]) == Some(ParseAll(parts).value[i])
  {
    ParseAllFails(parts);
    ParseAllParses(parts);
  }

  /** `ParseAll` fails exactly when some piece does not parse. */
  lemma {:induction false} ParseAllFails(parts: seq<string>)
    ensures ParseAll(parts).None? <==> exists i | 0 <= i < |parts| :: ParseInt(parts[i]).None?
  {
    if |parts| > 0 {
      ParseAllFails(parts[1..]);
      if ParseInt(parts[0]).Some? && ParseAll(parts[1..]).None? {
        var j :| 0 <= j < |parts| - 1 && ParseInt(parts[1..][j]).None?;
        assert parts[j + 1] == parts[1..][j];
      }
      if exists i | 0 <= i < |parts| :: ParseInt(parts[i]).None? {
        var i :| 0 <= i < |parts| && ParseInt(parts[i]).None?;
        if i > 0 {
          assert parts[1..][i - 1] == parts[i];
        }
      }
    }
  }

  /** When `ParseAll` succeeds, its values are those of the pieces, in order. */
  lemma {:induction false} ParseAllParses(parts: seq<string>)
    ensures ParseAll(parts).Some? ==>
      && |ParseAll(parts).value| == |parts|
      && forall i | 0 <= i < |parts| :: ParseInt(parts[i]) == Some(ParseAll(parts).value[i])
  {
    if |parts| > 0 && ParseAll(parts).Some? {
      ParseAllParses(parts[1..]);
      forall i | 0 <= i < |parts|
        ensures ParseInt(parts[i]) == Some(ParseAll(parts).value[i])
      {
        if i > 0 {
          assert parts[i] == parts[1..][i - 1];
        }
      }
    }
  }


  /** `ParseAll` succeeds exactly with the values its pieces parse to. */
  lemma {:induction false} ParseAllValues(parts: seq<string>, vs: seq<int>)
    requires |vs| == |parts|
    requires forall i | 0 <= i < |parts| :: ParseInt(parts[i]) == Some(vs[i])
    ensures ParseAll(parts) == Some(vs)
  {
    if |parts| > 0 {
      ParseAllValues(parts[1..], vs[1..]);
      assert vs == [vs[0]] + vs[1..];
    }
  }

  /** A decimal octet printed back: one to three digits, no "." in it. */
  lemma ShowOctet(o: nat)
    requires o < 256
    ensures Base.DecimalOctet(Show(o)) && '.' !in Show(o)
    ensures ParseInt(Show(o)) == Some(o)
  {
    ShowShort(o);
    ParseDigits(Show(o));
  }

  /** Four octets printed and joined with "." form a valid dotted quad that
      converts to the octets in place. */
  lemma QuadText(a: nat, b: nat, c: nat, d: nat, n: int, text: string)
    requires a < 256 && b < 256 && c < 256 && d < 256
    requires n == a * 16777216 + b * 65536 + c * 256 + d
    requires text == Text.Join([Show(a), Show(b), Show(c), Show(d)], '.')
    ensures Base.ValidateIp(text)
    ensures IpToInt(text) == Some(n)
  {
    ShowOctet(a);
    ShowOctet(b);
    ShowOctet(c);
    ShowOctet(d);
    QuadPieces(Show(a), Show(b), Show(c), Show(d), a, b, c, d, n, text);
  }

  /** Four decimal octet pieces joined with "." validate, split back into
      themselves and convert to their values in place. */
  lemma QuadPieces(s0: string, s1: string, s2: string, s3: string, a: int, b: int, c: int, d: int, n: int, text: string)
    requires Base.DecimalOctet(s0) && Base.DecimalOctet(s1) && Base.DecimalOctet(s2) && Base.DecimalOctet(s3)
    requires '.' !in s0 && '.' !in s1 && '.' !in s2 && '.' !in s3
    requires ParseInt(s0) == Some(a) && ParseInt(s1) == Some(b) && ParseInt(s2) == Some(c) && ParseInt(s3) == Some(d)
    requires n == a * 16777216 + b * 65536 + c * 256 + d
    requires text == Text.Join([s0, s1, s2, s3], '.')
    ensures Text.Split(text, '.') == [s0, s1, s2, s3]
    ensures Base.ValidateIp(text)
    ensures IpToInt(text) == Some(n)
  {
    var octets := [s0, s1, s2, s3];
    assert octets[0] == s0 && octets[1] == s1 && octets[2] == s2 && octets[3] == s3;
    assert Base.ValidateIp(text) by {
      Base.ValidateIpJoin(octets);
    }
    assert Text.Split(text, '.') == octets by {
      Text.SplitJoin(octets, '.');
    }
    ParseFour(s0, s1, s2, s3, a, b, c, d);
    IpToIntOf(text, octets, [a, b, c, d], n);
  }

  /** Four pieces that parse to `a`, `b`, `c`, `d` parse together to `[a, b, c, d]`. */
  lemma ParseFour(s0: string, s1: string, s2: string, s3: string, a: int, b: int, c: int, d: int)
    requires ParseInt(s0) == Some(a) && ParseInt(s1) == Some(b) && ParseInt(s2) == Some(c) && ParseInt(s3) == Some(d)
    ensures ParseAll([s0, s1, s2, s3]) == Some([a, b, c, d])
  {
    var parts, vs := [s0, s1, s2, s3], [a, b, c, d];
    forall i | 0 <= i < 4
      ensures ParseInt(parts[i]) == Some(vs[i])
    {
    }
    ParseAllValues(parts, vs);
  }

  lemma IpToIntOf(text: string, parts: seq<string>, vs: seq<int>, n: int)
    requires Text.Split(text, '.') == parts && ParseAll(parts) == Some(vs) && |vs| >= 4
    requires n == vs[0] * 16777216 + vs[1] * 65536 + vs[2] * 256 + vs[3]
    ensures IpToInt(text) == Some(n)
  {
  }

  /** Every 32-bit number prints as a valid dotted quad that converts back to it. */
  lemma IntToIpRoundTrip(n: nat)
    requires n < Pow2(32)
    ensures Base.ValidateIp(IntToIp(n))
    ensures IpToInt(IntToIp(n)) == Some(n)
  {
    OctetsCompose(n);
    IntToIpOfOctets(n, Octet(n, 0), Octet(n, 1), Octet(n, 2), Octet(n, 3));
    QuadText(Octet(n, 0), Octet(n, 1), Octet(n, 2), Octet(n, 3), n, IntToIp(n));
  }

  /** A dotted quad accepted by `validate_ip` converts to a 32-bit number, and
      printing that number gives the text back exactly when no octet was
      written with a leading zero ("010.0.0.1" comes back as "10.0.0.1"). */
  lemma ValidAddressRoundTrip(ip: string)
    requires Base.ValidateIp(ip)
    ensures IpToInt(ip).Some? && 0 <= IpToInt(ip).value < Pow2(32)
    ensures IntToIp(IpToInt(ip).value) == ip <==>
      forall i | 0 <= i < 4 :: Canonical(Text.Split(ip, '.')[i])
  {
    var parts := Text.Split(ip, '.');
    ValidAddressValue(ip);
    var p0, p1, p2, p3 := parts[0], parts[1], parts[2], parts[3];
    assert parts == [p0, p1, p2, p3];
    Text.JoinSplit(ip, '.');
    QuadBound(Value(p0), Value(p1), Value(p2), Value(p3));
    PiecesRoundTrip(p0, p1, p2, p3, IpToInt(ip).value, ip);
    FourPieces(parts);
  }

  /** The number of a valid dotted quad is built from the values of its pieces. */
  lemma ValidAddressValue(ip: string)
    requires Base.ValidateIp(ip)
    ensures var parts := Text.Split(ip, '.');
      && Base.DecimalOctet(parts[0]) && Base.DecimalOctet(parts[1])
      && Base.DecimalOctet(parts[2]) && Base.DecimalOctet(parts[3])
      && IpToInt(ip).Some?
      && IpToInt(ip).value == Value(parts[0]) * 16777216 + Value(parts[1]) * 65536 + Value(parts[2]) * 256 + Value(parts[3])
  {
    var parts := Text.Split(ip, '.');
    Base.ValidateIpMeaning(ip);
    var p0, p1, p2, p3 := parts[0], parts[1], parts[2], parts[3];
    assert parts == [p0, p1, p2, p3];
    assert Base.DecimalOctet(p0) && Base.DecimalOctet(p1) && Base.DecimalOctet(p2) && Base.DecimalOctet(p3);
    Text.JoinSplit(ip, '.');
    ParseDigits(p0);
    ParseDigits(p1);
    ParseDigits(p2);
    ParseDigits(p3);
    QuadPieces(p0, p1, p2, p3, Value(p0), Value(p1), Value(p2), Value(p3),
      Value(p0) * 16777216 + Value(p1) * 65536 + Value(p2) * 256 + Value(p3), ip);
  }

  /** Printing the number `n` of four decimal octets gives their dotted quad
      `text` back exactly when every octet is canonical. */
  lemma PiecesRoundTrip(p0: string, p1: string, p2: string, p3: string, n: nat, text: string)
    requires Base.DecimalOctet(p0) && Base.DecimalOctet(p1) && Base.DecimalOctet(p2) && Base.DecimalOctet(p3)
    requires n == Value(p0) * 16777216 + Value(p1) * 65536 + Value(p2) * 256 + Value(p3)
    requires text == Text.Join([p0, p1, p2, p3], '.')
    ensures IntToIp(n) == text <==> Canonical(p0) && Canonical(p1) && Canonical(p2) && Canonical(p3)
  {
    PrintQuad(n, Value(p0), Value(p1), Value(p2), Value(p3));
    ShowOctet(Value(p0));
    ShowOctet(Value(p1));
    ShowOctet(Value(p2));
    ShowOctet(Value(p3));
    NoDot(p0);
    NoDot(p1);
    NoDot(p2);
    NoDot(p3);
    QuadJoinInjective(Show(Value(p0)), Show(Value(p1)), Show(Value(p2)), Show(Value(p3)), p0, p1, p2, p3);
    CanonicalPieces(p0, p1, p2, p3);
  }

  lemma NoDot(s: string)
    requires AllDigits(s)
    ensures '.' !in s
  {
  }

  lemma FourPieces(parts: seq<string>)
    requires |parts| == 4
    ensures (forall i | 0 <= i < 4 :: Canonical(parts[i]))
      <==> Canonical(parts[0]) && Canonical(parts[1]) && Canonical(parts[2]) && Canonical(parts[3])
  {
  }

  /** Two dotted quads are the same text exactly when their pieces are the same. */
  lemma QuadJoinInjective(s0: string, s1: string, s2: string, s3: string, t0: string, t1: string, t2: string, t3: string)
    requires '.' !in s0 && '.' !in s1 && '.' !in s2 && '.' !in s3
    requires '.' !in t0 && '.' !in t1 && '.' !in t2 && '.' !in t3
    ensures Text.Join([s0, s1, s2, s3], '.') == Text.Join([t0, t1, t2, t3], '.') <==> [s0, s1, s2, s3] == [t0, t1, t2, t3]
  {
    Text.JoinInjective([s0, s1, s2, s3], [t0, t1, t2, t3], '.');
  }

  /** The number of four octets prints as those octets. */
  lemma PrintQuad(n: nat, a: nat, b: nat, c: nat, d: nat)
    requires a < 256 && b < 256 && c < 256 && d < 256
    requires n == a * 16777216 + b * 65536 + c * 256 + d
    ensures IntToIp(n) == Text.Join([Show(a), Show(b), Show(c), Show(d)], '.')
  {
    OctetsOfSum(a, b, c, d);
    IntToIpOfOctets(n, a, b, c, d);
  }

  lemma IntToIpOfOctets(n: nat, a: nat, b: nat, c: nat, d: nat)
    requires Octet(n, 0) == a && Octet(n, 1) == b && Octet(n, 2) == c && Octet(n, 3) == d
    ensures IntToIp(n) == Text.Join([Show(a), Show(b), Show(c), Show(d)], '.')
  {
  }

  /** Four octets in place stay below 2^32. */
  lemma QuadBound(a: nat, b: nat, c: nat, d: nat)
    requires a < 256 && b < 256 && c < 256 && d < 256
    ensures a * 16777216 + b * 65536 + c * 256 + d < Pow2(32)
  {
    Pow2Values();
  }

  /** Printing the values of four decimal octets gives the octets back exactly
      when every one of them is canonical. */
  lemma CanonicalPieces(p0: string, p1: string, p2: string, p3: string)
    requires Base.DecimalOctet(p0) && Base.DecimalOctet(p1) && Base.DecimalOctet(p2) && Base.DecimalOctet(p3)
    ensures [Show(Value(p0)), Show(Value(p1)), Show(Value(p2)), Show(Value(p3))] == [p0, p1, p2, p3]
      <==> Canonical(p0) && Canonical(p1) && Canonical(p2) && Canonical(p3)
  {
    if Canonical(p0) && Canonical(p1) && Canonical(p2) && Canonical(p3) {
      ShowValue(p0);
      ShowValue(p1);
      ShowValue(p2);
      ShowValue(p3);
    }
  }

  /** The 32-bit number of a valid dotted quad. */
  function Address(ip: string): (n: nat)
    requires Base.ValidateIp(ip)
    ensures n < Pow2(32) && IpToInt(ip) == Some(n as int)
  {
    ValidAddressRoundTrip(ip);
    IpToInt(ip).value
  }
}

=== FILE: legacy.dfy ===
/**
 * pytools.py, the single-file predecessor of the package: its menu-choice
 * validation and dispatch, the tiered password strength, title slugging,
 * the download retry loop and the disk-usage bar.
 */
module Legacy {
  import opened Wrappers
  import Decimal
  import Text
  import Bits
  import Security

  // ---------------------------------------------------------------------------
  // validate_menu_choice

  /** `validate_menu_choice`: the number when `int()` accepts the text and
      it is in 1 .. 15. */
  function ValidateMenuChoice(line: string): (r: Option<int>)
    ensures r.Some? <==> (Decimal.ParseInt(line).Some? && 1 <= Decimal.ParseInt(line).value <= 15)
    ensures r.Some? ==> r == Decimal.ParseInt(line)
  {
    match Decimal.ParseInt(line)
    case None => None
    case Some(n) => if 1 <= n <= 15 then Some(n) else None
  }

  /** Every number of the menu is accepted when typed as shown. */
  lemma MenuNumbersAccepted(n: int)
    requires 1 <= n <= 15
    ensures ValidateMenuChoice(Decimal.ShowInt(n)) == Some(n)
  {
    Decimal.ParseShowInt(n);
  }

  // ---------------------------------------------------------------------------
  // the menu loop

  /** The fourteen actions of the menu, in the order of their numbers. */
  datatype Action =
    | UpdateSystem | PingSite | GeolocateIp | DiskUsage | MemoryUsage | SystemUptime
    | ListProcesses | NetworkInfo | SystemInformation | ScanForMalware
    | CheckPasswordStrength | PerformTraceroute | DownloadYoutube | UpdateScript

  /** The action behind a number; `None` for 15, which leaves the loop. */
  function ActionOf(n: int): (a: Option<Action>)
    requires 1 <= n <= 15
    ensures a.None? <==> n == 15
  {
    if n == 1 then Some(UpdateSystem)
    else if n == 2 then Some(PingSite)
    else if n == 3 then Some(GeolocateIp)
    else if n == 4 then Some(DiskUsage)
    else if n == 5 then Some(MemoryUsage)
    else if n == 6 then Some(SystemUptime)
    else if n == 7 then Some(ListProcesses)
    else if n == 8 then Some(NetworkInfo)
    else if n == 9 then Some(SystemInformation)
    else if n == 10 then Some(ScanForMalware)
    else if n == 11 then Some(CheckPasswordStrength)
    else if n == 12 then Some(PerformTraceroute)
    else if n == 13 then Some(DownloadYoutube)
    else if n == 14 then Some(UpdateScript)
    else None
  }

  /** The number shown in front of an action. */
  function NumberOf(a: Action): (n: int)
    ensures 1 <= n <= 14 && ActionOf(n) == Some(a)
  {
    match a
    case UpdateSystem => 1
    case PingSite => 2
    case GeolocateIp => 3
    case DiskUsage => 4
    case MemoryUsage => 5
    case SystemUptime => 6
    case ListProcesses => 7
    case NetworkInfo => 8
    case SystemInformation => 9
    case ScanForMalware => 10
    case CheckPasswordStrength => 11
    case PerformTraceroute => 12
    case DownloadYoutube => 13
    case UpdateScript => 14
  }

  /** Each of 1 .. 14 runs exactly one action, and different numbers run
      different actions. */
  lemma DispatchIsBijective(n: int)
    requires 1 <= n <= 14
    ensures ActionOf(n).Some? && NumberOf(ActionOf(n).value) == n
  {
  }

  /** How a session ends: the answers ran out, 15 broke the loop, or 14
      updated the script, whose `exit()` raises `SystemExit`, an exception
      the loop's `except Exception` handlers do not catch. */
  datatype End = RanOut | Quit | Updated

  /** The result of `menu()`: the actions run, and how it ended. */
  datatype Session = Session(ran: seq<Action>, end: End)

  /** Whether an answer ends the program: 14 (after its action) or 15. */
  predicate Stops(line: string) {
    ValidateMenuChoice(line) == Some(14) || ValidateMenuChoice(line) == Some(15)
  }

  /** `menu()` on the successive answers to "Enter your choice: ". Each
      action reads its own further lines from standard input; those are
      not part of `lines`. An answer that does not validate is skipped, 15
      stops, 14 runs the update and ends the program, any other number runs
      its action (whose errors are caught) and loops. */
  function Menu(lines: seq<string>): (s: Session)
    ensures |s.ran| <= |lines|
    ensures s.end == Updated <==> s.ran != [] && s.ran[|s.ran| - 1] == UpdateScript
    ensures s.end == RanOut ==> forall i | 0 <= i < |lines| :: !Stops(lines[i])
    decreases |lines|
  {
    if lines == [] then Session([], RanOut)
    else match ValidateMenuChoice(lines[0])
      case None => Menu(lines[1..])
      case Some(n) =>
        if n == 15 then Session([], Quit)
        else if n == 14 then Session([UpdateScript], Updated)
        else
          var rest := Menu(lines[1..]);
          assert forall i | 1 <= i < |lines| :: lines[i] == lines[1..][i - 1];
          Session([ActionOf(n).value] + rest.ran, rest.end)
  }

  /** The action each answer asks for, ignoring where the loop stops: one
      per answer that validates to 1 .. 14, in order. */
  function Requested(lines: seq<string>): (acts: seq<Action>)
    ensures |acts| <= |lines|
  {
    if lines == [] then [] else Asked(lines[0]) + Requested(lines[1..])
  }

  /** The action one answer asks for, if any. */
  function Asked(line: string): (acts: seq<Action>)
    ensures |acts| <= 1
  {
    var v := ValidateMenuChoice(line);
    if v.Some? && v.value != 15 then [ActionOf(v.value).value] else []
  }

  /** An answer other than 14 or 15 runs what it asks for and loops. */
  lemma MenuStep(lines: seq<string>)
    requires lines != [] && !Stops(lines[0])
    ensures Menu(lines) == Session(Asked(lines[0]) + Menu(lines[1..]).ran, Menu(lines[1..]).end)
  {
  }

  /** The loop stops before the answers run out exactly when some answer
      reads 14 or 15; at the first such answer it has run the actions
      requested up to and including that answer, and it ends by quitting
      for 15 and by updating for 14. With no such answer it runs every
      requested action. */
  lemma MenuRunsChosenActions(lines: seq<string>)
    ensures Menu(lines).end != RanOut <==> exists i | 0 <= i < |lines| :: Stops(lines[i])
    ensures forall i | 0 <= i < |lines| && Stops(lines[i]) && (forall j | 0 <= j < i :: !Stops(lines[j])) ::
      && Menu(lines).ran == Requested(lines[..i + 1])
      && Menu(lines).end == (if ValidateMenuChoice(lines[i]) == Some(15) then Quit else Updated)
    ensures (forall i | 0 <= i < |lines| :: !Stops(lines[i])) ==> Menu(lines).ran == Requested(lines)
  {
    forall i | 0 <= i < |lines| && Stops(lines[i]) && (forall j | 0 <= j < i :: !Stops(lines[j]))
      ensures Menu(lines).ran == Requested(lines[..i + 1])
      ensures Menu(lines).end == (if ValidateMenuChoice(lines[i]) == Some(15) then Quit else Updated)
    {
      MenuFirstStop(lines, i);
    }
    if forall i | 0 <= i < |lines| :: !Stops(lines[i]) {
      MenuNoStop(lines);
    }
  }

  /** With no 14 or 15 among the answers, every requested action runs. */
  lemma {:induction false} MenuNoStop(lines: seq<string>)
    requires forall i | 0 <= i < |lines| :: !Stops(lines[i])
    ensures Menu(lines) == Session(Requested(lines), RanOut)
    decreases |lines|
  {
    if lines != [] {
      var tail := lines[1..];
      forall i | 0 <= i < |tail| ensures !Stops(tail[i]) {
        assert tail[i] == lines[i + 1];
      }
      MenuNoStop(tail);
      MenuStep(lines);
    }
  }

  /** Dropping the first answer keeps "no 14 or 15 before position i",
      shifted by one. */
  lemma NoStopBefore(lines: seq<string>, i: nat)
    requires 0 < i < |lines|
    requires forall j | 0 <= j < i :: !Stops(lines[j])
    ensures !Stops(lines[0]) && lines[1..][i - 1] == lines[i]
    ensures forall j | 0 <= j < i - 1 :: !Stops(lines[1..][j])
  {
    forall j | 0 <= j < i - 1 ensures !Stops(lines[1..][j]) {
      assert lines[1..][j] == lines[j + 1];
    }
  }

  /** The requests up to answer `i` are the first answer's followed by those
      of the rest up to that answer. */
  lemma RequestedPrefix(lines: seq<string>, i: nat)
    requires 0 < i < |lines|
    ensures Requested(lines[..i + 1]) == Asked(lines[0]) + Requested(lines[1..][..i])
  {
    assert lines[..i + 1][1..] == lines[1..][..i];
  }

  /** An answer of 14 or 15 stops the loop at once: 14 after running the
      update, 15 without running anything. */
  lemma MenuStopsHere(lines: seq<string>)
    requires lines != [] && Stops(lines[0])
    ensures Menu(lines).ran == Requested(lines[..1])
    ensures Menu(lines).end == (if ValidateMenuChoice(lines[0]) == Some(15) then Quit else Updated)
  {
    assert lines[..1] == [lines[0]];
    assert [lines[0]][1..] == [];
  }

  /** At the first answer reading 14 or 15 the loop stops, having run the
      actions requested up to and including it. */
  lemma {:induction false} MenuFirstStop(lines: seq<string>, i: nat)
    requires i < |lines| && Stops(lines[i])
    requires forall j | 0 <= j < i :: !Stops(lines[j])
    ensures Menu(lines).ran == Requested(lines[..i + 1])
    ensures Menu(lines).end == (if ValidateMenuChoice(lines[i]) == Some(15) then Quit else Updated)
    decreases i
  {
    if i == 0 {
      MenuStopsHere(lines);
    } else {
      NoStopBefore(lines, i);
      MenuStep(lines);
      RequestedPrefix(lines, i);
      MenuFirstStop(lines[1..], i - 1);
    }
  }

  // ---------------------------------------------------------------------------
  // get_password_strength

  datatype Tier = SuperWeak | Weak | Medium | Strong | SuperStrong

  predicate HasLetter(p: string) { exists k | 0 <= k < |p| :: Text.IsLetter(p[k]) }

  /** The tier conditions, strongest first. */
  predicate SuperStrongRule(p: string) {
    |p| >= 16 && Security.HasUpper(p) && Security.HasLower(p) && Security.HasDigit(p) && Security.HasSpecial(p)
  }
  predicate StrongRule(p: string) {
    |p| >= 12 && Security.HasUpper(p) && Security.HasLower(p) && Security.HasDigit(p)
  }
  predicate MediumRule(p: string) { |p| >= 8 && HasLetter(p) && Security.HasDigit(p) }
  predicate WeakRule(p: string) { |p| >= 6 }

  /** `get_password_strength`: the first tier whose rule holds. */
  function PasswordStrength(p: string): (t: Tier)
    ensures t == SuperStrong <==> SuperStrongRule(p)
    ensures t == Strong <==> StrongRule(p) && !SuperStrongRule(p)
    ensures t == Medium <==> MediumRule(p) && !StrongRule(p)
    ensures t == Weak <==> WeakRule(p) && !MediumRule(p)
    ensures t == SuperWeak <==> |p| < 6
  {
    StrongIsMedium(p);
    if SuperStrongRule(p) then SuperStrong
    else if StrongRule(p) then Strong
    else if MediumRule(p) then Medium
    else if WeakRule(p) then Weak
    else SuperWeak
  }

  /** The message and colour shown for a tier. */
  function TierMessage(t: Tier): (string, string) {
    match t
    case SuperStrong => ("Password strength: Super Strong", "GREEN")
    case Strong => ("Password strength: Strong", "CYAN")
    case Medium => ("Password strength: Medium", "YELLOW")
    case Weak => ("Password strength: Weak", "RED")
    case SuperWeak => ("Password strength: Super Weak", "MAGENTA")
  }

  function TierRank(t: Tier): nat {
    match t
    case SuperWeak => 0
    case Weak => 1
    case Medium => 2
    case Strong => 3
    case SuperStrong => 4
  }

  /** The rules are nested, so the tier is the highest one whose rule holds:
      a password of six or more characters is at least Weak. */
  lemma TiersNested(p: string)
    ensures SuperStrongRule(p) ==> StrongRule(p)
    ensures StrongRule(p) ==> MediumRule(p)
    ensures MediumRule(p) ==> WeakRule(p)
    ensures |p| >= 6 ==> TierRank(PasswordStrength(p)) >= 1
    ensures StrongRule(p) ==> TierRank(PasswordStrength(p)) >= 3
    ensures MediumRule(p) ==> TierRank(PasswordStrength(p)) >= 2
  {
    StrongIsMedium(p);
  }

  /** An upper-case letter is a letter, so the Strong rule implies the
      Medium one. */
  lemma StrongIsMedium(p: string)
    ensures StrongRule(p) ==> MediumRule(p)
  {
    if StrongRule(p) {
      var k :| 0 <= k < |p| && Text.IsUpper(p[k]);
      assert Text.IsLetter(p[k]);
    }
  }

  /** The two analysers agree at the top: a Super Strong password scores
      100 and is Very Strong for the module analyser, and a Strong one is at
      least Strong there. */
  lemma TiersAgreeWithScore(p: string)
    ensures PasswordStrength(p) == SuperStrong ==>
      Security.Score(p) == 100 && Security.Band(Security.Score(p)) == Security.VeryStrong
    ensures PasswordStrength(p) == Strong ==>
      Security.Score(p) >= 75 && Security.Rank(Security.Band(Security.Score(p))) >= 3
  {
  }

  // ---------------------------------------------------------------------------
  // slugify_title

  predicate IsAlphanumeric(c: char) { Text.IsLetter(c) || Text.IsAsciiDigit(c) }

  /** `slugify_title`: every character outside `[a-zA-Z0-9]` becomes "_". */
  function SlugifyTitle(title: string): (slug: string)
    ensures |slug| == |title|
    ensures forall i | 0 <= i < |title| :: IsAlphanumeric(title[i]) ==> slug[i] == title[i]
    ensures forall i | 0 <= i < |title| :: !IsAlphanumeric(title[i]) ==> slug[i] == '_'
  {
    seq(|title|, i requires 0 <= i < |title| => if IsAlphanumeric(title[i]) then title[i] else '_')
  }

  /** A slug is made of alphanumerics and "_" only, and slugging it again
      changes nothing, so the double slugging of the download paths equals a
      single one. */
  lemma SlugifyIdempotent(title: string)
    ensures forall i | 0 <= i < |SlugifyTitle(title)| ::
      IsAlphanumeric(SlugifyTitle(title)[i]) || SlugifyTitle(title)[i] == '_'
    ensures SlugifyTitle(SlugifyTitle(title)) == SlugifyTitle(title)
  {
  }

  // ---------------------------------------------------------------------------
  // the retry loop of download_video / download_audio

  /** What one request of the loop does: complete the download, fail with a
      `RequestException`, or fail with any other exception. */
  datatype Attempt = Completed | RequestFailed | OtherError

  /** How the function ends: the success box, the "Unable to download …
      after N retries" message, or the outer handler's generic error line. */
  datatype Ending = Downloaded | ReportedExhausted | GenericError

  /** The requests made, the sleeps taken and the ending. */
  datatype Retries = Retries(requests: nat, sleeps: seq<nat>, ending: Ending)

  /** The loop from `count` failures on: request number `count` runs while
      `count < maxRetries`; a request failure sleeps `2 ** (count + 1)`.
      `exhausted` is what happens once the loop condition fails. */
  function RetryFrom(count: nat, maxRetries: int, attempt: nat -> Attempt, exhausted: Ending): (r: Retries)
    ensures r.requests >= count
    ensures r.requests <= (if maxRetries > count then maxRetries else count)
    ensures |r.sleeps| <= r.requests - count
    ensures exhausted != Downloaded ==>
      (r.ending == Downloaded <==> r.requests > count && attempt(r.requests - 1) == Completed)
    decreases if maxRetries > count then maxRetries - count else 0
  {
    if count >= maxRetries then Retries(count, [], exhausted)
    else match attempt(count)
      case Completed => Retries(count + 1, [], Downloaded)
      case OtherError => Retries(count + 1, [], GenericError)
      case RequestFailed =>
        var rest := RetryFrom(count + 1, maxRetries, attempt, exhausted);
        Retries(rest.requests, [Bits.Pow2(count + 1)] + rest.sleeps, rest.ending)
  }

  /** The loop as written: after the last failure it logs the exception
      variable `e`, which Python has already unbound at the end of the
      `except` clause, so the resulting `UnboundLocalError` reaches the
      outer handler and the retry message is never printed. */
  function RetryAsWritten(maxRetries: int, attempt: nat -> Attempt): (r: Retries)
    ensures r.ending != ReportedExhausted
  {
    NeverReported(0, maxRetries, attempt);
    RetryFrom(0, maxRetries, attempt, GenericError)
  }

  lemma {:induction false} NeverReported(count: nat, maxRetries: int, attempt: nat -> Attempt)
    ensures RetryFrom(count, maxRetries, attempt, GenericError).ending != ReportedExhausted
    decreases if maxRetries > count then maxRetries - count else 0
  {
    if count < maxRetries && attempt(count) == RequestFailed {
      NeverReported(count + 1, maxRetries, attempt);
    }
  }

  /** The loop as intended: exhausting the retries reports it. */
  function Retry(maxRetries: int, attempt: nat -> Attempt): (r: Retries)
    ensures r.requests <= (if maxRetries > 0 then maxRetries else 0)
  {
    RetryFrom(0, maxRetries, attempt, ReportedExhausted)
  }

  /** The loop stops at the first request that does not fail with a
      request error: everything before it failed, and the download is
      reported only when that request completed. */
  lemma {:induction false} RetryStopsAtFirstSuccess(count: nat, maxRetries: int, attempt: nat -> Attempt, exhausted: Ending)
    ensures forall k | count <= k < RetryFrom(count, maxRetries, attempt, exhausted).requests - 1 :: attempt(k) == RequestFailed
    ensures exhausted != Downloaded ==>
      var n := RetryFrom(count, maxRetries, attempt, exhausted).requests;
      (RetryFrom(count, maxRetries, attempt, exhausted).ending == Downloaded <==> n > count && attempt(n - 1) == Completed)
    decreases if maxRetries > count then maxRetries - count else 0
  {
    if count < maxRetries && attempt(count) == RequestFailed {
      RetryStopsAtFirstSuccess(count + 1, maxRetries, attempt, exhausted);
    }
  }

  /** When request `k` is the first from `count` on that does not fail with
      a request error, and the retries reach it, exactly `k + 1` requests
      are made, the sleeps are 2 ** (count + 1) .. 2 ** k in order, and the
      download is reported exactly when that request completed; any other
      exception ends in the generic error line. */
  lemma {:induction false} RetryReachesFirstSuccess(count: nat, maxRetries: int, attempt: nat -> Attempt,
                                                    exhausted: Ending, k: nat)
    requires count <= k < maxRetries && attempt(k) != RequestFailed
    requires forall j | count <= j < k :: attempt(j) == RequestFailed
    ensures RetryFrom(count, maxRetries, attempt, exhausted).requests == k + 1
    ensures |RetryFrom(count, maxRetries, attempt, exhausted).sleeps| == k - count
    ensures forall j | 0 <= j < k - count ::
      RetryFrom(count, maxRetries, attempt, exhausted).sleeps[j] == Bits.Pow2(count + j + 1)
    ensures RetryFrom(count, maxRetries, attempt, exhausted).ending == Downloaded <==> attempt(k) == Completed
    ensures RetryFrom(count, maxRetries, attempt, exhausted).ending == GenericError <==> attempt(k) == OtherError
    decreases k - count
  {
    RetrySleepsDouble(count, maxRetries, attempt, exhausted);
    if count < k {
      assert attempt(count) == RequestFailed;
      RetryReachesFirstSuccess(count + 1, maxRetries, attempt, exhausted, k);
    }
  }

  /** The failed requests are followed by sleeps of 2, 4, 8, … seconds. */
  lemma {:induction false} RetrySleepsDouble(count: nat, maxRetries: int, attempt: nat -> Attempt, exhausted: Ending)
    ensures forall j | 0 <= j < |RetryFrom(count, maxRetries, attempt, exhausted).sleeps| ::
      RetryFrom(count, maxRetries, attempt, exhausted).sleeps[j] == Bits.Pow2(count + j + 1)
    decreases if maxRetries > count then maxRetries - count else 0
  {
    if count < maxRetries && attempt(count) == RequestFailed {
      RetrySleepsDouble(count + 1, maxRetries, attempt, exhausted);
      var rest := RetryFrom(count + 1, maxRetries, attempt, exhausted);
      var r := RetryFrom(count, maxRetries, attempt, exhausted);
      assert r.sleeps == [Bits.Pow2(count + 1)] + rest.sleeps;
      forall j | 0 <= j < |r.sleeps|
        ensures r.sleeps[j] == Bits.Pow2(count + j + 1)
      {
        if j > 0 {
          assert r.sleeps[j] == rest.sleeps[j - 1];
          assert (count + 1) + (j - 1) + 1 == count + j + 1;
        }
      }
    }
  }

  /** When every request fails with a request error, all `maxRetries`
      requests are made and nothing reports success: the corrected loop
      reports the exhaustion. */
  lemma {:induction false} ExhaustionReported(count: nat, maxRetries: int, attempt: nat -> Attempt, exhausted: Ending)
    requires forall k :: attempt(k) == RequestFailed
    ensures var r := RetryFrom(count, maxRetries, attempt, exhausted);
      r.ending == exhausted && r.requests == (if maxRetries > count then maxRetries else count)
    decreases if maxRetries > count then maxRetries - count else 0
  {
    if count < maxRetries {
      ExhaustionReported(count + 1, maxRetries, attempt, exhausted);
    }
  }

  /** The constant oracle of a network that is down. */
  function AlwaysFails(k: nat): Attempt { RequestFailed }

  /** With the default three retries and a network that is down, the loop as
      written makes three requests, sleeps 2, 4 and 8 seconds, and then ends
      in the generic error line instead of the retry message; the corrected
      loop reports the exhaustion. */
  lemma RetryMessageLost()
    ensures RetryAsWritten(3, AlwaysFails) == Retries(3, [2, 4, 8], GenericError)
    ensures Retry(3, AlwaysFails) == Retries(3, [2, 4, 8], ReportedExhausted)
  {
    Bits.Pow2Values();
    assert Bits.Pow2(1) == 2 && Bits.Pow2(2) == 4 && Bits.Pow2(3) == 8;
  }

  // ---------------------------------------------------------------------------
  // disk_usage's bar

  /** `int(a / b)` for `b > 0`: the float quotient truncated toward zero.
      For the percentages df prints (0..100, so |a| <= 2000) the float
      quotient never rounds across an integer; README.md's "## Left out"
      notes what larger values would need. */
  function TruncDiv(a: int, b: int): int
    requires b > 0
  {
    if a >= 0 then a / b else -((-a) / b)
  }

  function Repeat(c: char, n: int): (s: string)
    ensures |s| == (if n > 0 then n else 0)
    ensures forall i | 0 <= i < |s| :: s[i] == c
  {
    if n <= 0 then [] else seq(n, _ => c)
  }

  /** The bar for `used` blocks: "[", the used cells as "#", the free ones
      as "-", "]". */
  function Bar(used: int): string {
    "[" + Repeat('#', used) + Repeat('-', 20 - used) + "]"
  }

  /** The bar drawn for one `df` line: `percent` with its trailing "%"s
      removed must pass `int()`, otherwise the whole listing stops. */
  function DiskBar(percent: string): (bar: Option<string>)
    ensures bar.Some? <==> Decimal.ParseInt(StripPercent(percent)).Some?
  {
    match Decimal.ParseInt(StripPercent(percent))
    case None => None
    case Some(p) => Some(Bar(TruncDiv(20 * p, 100)))
  }

  /** `str.rstrip('%')`. */
  function StripPercent(s: string): (r: string)
    ensures |r| <= |s| && r == s[..|r|]
    ensures forall i | |r| <= i < |s| :: s[i] == '%'
    ensures r == [] || r[|r| - 1] != '%'
    decreases |s|
  {
    if |s| > 0 && s[|s| - 1] == '%' then StripPercent(s[..|s| - 1]) else s
  }

  /** A percentage as `df` prints it, "37%" say, reads back as its number. */
  lemma PercentParses(p: int)
    requires 0 <= p
    ensures Decimal.ParseInt(StripPercent(Decimal.ShowInt(p) + "%")) == Some(p)
  {
    var text := Decimal.ShowInt(p) + "%";
    Decimal.ShowAvoids(p, '%');
    assert text[..|text| - 1] == Decimal.ShowInt(p);
    assert StripPercent(text) == Decimal.ShowInt(p);
    Decimal.ParseShowInt(p);
  }

  /** A bar of `used` blocks, 0 .. 20, is 22 characters wide and shows
      `used` "#" cells and `20 - used` "-" cells. */
  lemma BarCells(used: int)
    requires 0 <= used <= 20
    ensures |Bar(used)| == 22
    ensures Text.Count(Bar(used), '#') == used
    ensures Text.Count(Bar(used), '-') == 20 - used
  {
    var hashes, dashes := Repeat('#', used), Repeat('-', 20 - used);
    assert Bar(used) == "[" + (hashes + (dashes + "]"));
    Text.CountAppend("[", hashes + (dashes + "]"), '#');
    Text.CountAppend(hashes, dashes + "]", '#');
    Text.CountAppend(dashes, "]", '#');
    Text.CountUniform(hashes, '#', '#');
    Text.CountUniform(dashes, '#', '-');
    Text.CountAppend("[", hashes + (dashes + "]"), '-');
    Text.CountAppend(hashes, dashes + "]", '-');
    Text.CountAppend(dashes, "]", '-');
    Text.CountUniform(hashes, '-', '#');
    Text.CountUniform(dashes, '-', '-');
  }

  /** For a percentage 0 .. 100, as `df` prints it ("37%"), the bar has
      `20 p div 100` used blocks, `used + free == 20`, and it fills exactly
      twenty cells. */
  lemma DiskBarCells(p: int)
    requires 0 <= p <= 100
    ensures var used := TruncDiv(20 * p, 100);
      && 0 <= used <= 20 && used == (20 * p) / 100
      && DiskBar(Decimal.ShowInt(p) + "%") == Some(Bar(used))
      && |Bar(used)| == 22 && Text.Count(Bar(used), '#') == used && Text.Count(Bar(used), '-') == 20 - used
  {
    PercentParses(p);
    BarCells(TruncDiv(20 * p, 100));
  }
}

=== FILE: menus.dfy ===
/**
 * ui/menus.py: menu items and categories, the menu structure built from the
 * loaded modules, the option numbers the two screens show, choice
 * validation, and the main and category loops as a step machine.
 *
 * The terminal is an oracle: each prompt's outcome (the typed text, or an
 * interrupt together with the answer to the exit confirmation) is an input
 * event, and a module's callback is identified by the module it belongs to.
 */
module Menus {
  import opened Wrappers
  import Decimal

  // ---------------------------------------------------------------------------
  // MenuItem, MenuCategory, MenuManager

  /** A loaded tool module: what the menu reads from it. `icon` is `None`
      when the module has no `icon` attribute. */
  datatype Module = Module(name: string, description: string, icon: Option<string>)

  /** `MenuItem`; the callback is the module's `execute`. */
  datatype MenuItem = MenuItem(
    number: int, title: string, description: string, callback: Module,
    icon: string, color: string, category: string)

  /** `MenuCategory`. */
  datatype MenuCategory = MenuCategory(
    name: string, title: string, description: string, icon: string, color: string,
    items: seq<MenuItem>)

  /** `MenuManager`: the categories in insertion order (a dictionary keyed by
      name) and the items added straight to the main menu. */
  datatype MenuManager = MenuManager(categories: seq<MenuCategory>, mainItems: seq<MenuItem>, running: bool)

  /** The position of the category called `name`. */
  function FindCategory(cats: seq<MenuCategory>, name: string): (r: Option<nat>)
    ensures r.Some? ==> r.value < |cats| && cats[r.value].name == name
    ensures r.None? ==> forall i | 0 <= i < |cats| :: cats[i].name != name
  {
    if |cats| == 0 then None
    else if cats[0].name == name then Some(0)
    else match FindCategory(cats[1..], name)
      case None => None
      case Some(i) => Some(i + 1)
  }

  /** Category names are keys: no two categories share one. */
  predicate UniqueNames(cats: seq<MenuCategory>) {
    forall i, j | 0 <= i < j < |cats| :: cats[i].name != cats[j].name
  }

  /** `add_category`: a dictionary assignment, so a category whose name is
      already present replaces the old one in its place. */
  function AddCategory(m: MenuManager, c: MenuCategory): (r: MenuManager)
    ensures r.mainItems == m.mainItems && r.running == m.running
    ensures c in r.categories
    ensures UniqueNames(m.categories) ==> UniqueNames(r.categories)
    ensures FindCategory(m.categories, c.name).None? ==> r.categories == m.categories + [c]
    ensures FindCategory(m.categories, c.name).Some? ==>
      && |r.categories| == |m.categories|
      && forall i | 0 <= i < |m.categories| ::
           r.categories[i] == if i == FindCategory(m.categories, c.name).value then c else m.categories[i]
  {
    match FindCategory(m.categories, c.name)
    case None => m.(categories := m.categories + [c])
    case Some(i) =>
      var cats := m.categories[i := c];
      assert cats[i] == c;
      m.(categories := cats)
  }

  /** `add_main_menu_item`. */
  function AddMainItem(m: MenuManager, item: MenuItem): (r: MenuManager)
    ensures r.categories == m.categories && r.mainItems == m.mainItems + [item]
  {
    m.(mainItems := m.mainItems + [item])
  }

  // ---------------------------------------------------------------------------
  // create_default_categories and build_menu_structure

  /** The seven default categories, in order, with no items yet. */
  function CreateDefaultCategories(): (cats: seq<MenuCategory>)
    ensures |cats| == 7 && UniqueNames(cats)
    ensures forall i | 0 <= i < 7 :: cats[i].name == DefaultNames[i] && cats[i].items == []
  {
    [ MenuCategory("system", "System Tools", "System monitoring, management and maintenance",
        "\U{1F5A5}\U{FE0F} ", "cyan", []),
      MenuCategory("network", "Network Tools", "Network diagnostics and information",
        "\U{1F310}", "blue", []),
      MenuCategory("security", "Security Tools", "Security analysis and protection",
        "\U{1F512}", "red", []),
      MenuCategory("ip", "IP Tools", "IP address utilities and geolocation",
        "\U{1F4CD}", "yellow", []),
      MenuCategory("downloads", "Download Tools", "Download videos, audio, and files",
        "\U{1F4E5}", "green", []),
      MenuCategory("utilities", "Utilities", "Various utility tools",
        "\U{1F6E0}\U{FE0F} ", "magenta", []),
      MenuCategory("config", "Configuration", "Settings, updates and information",
        "⚙\U{FE0F} ", "white", []) ]
  }

  /** The default category names, in menu order. */
  const DefaultNames: seq<string> := ["system", "network", "security", "ip", "downloads", "utilities", "config"]

  /** The item built for `module` as entry `number` of `cat`. */
  function ItemFor(cat: MenuCategory, tool: Module, number: int): MenuItem {
    MenuItem(number, tool.name, tool.description, tool, tool.icon.GetOr("▸"), cat.color, cat.name)
  }

  /** The inner loop: each module becomes the next item of the category,
      numbered one past the items already there. */
  function AddModules(cat: MenuCategory, modules: seq<Module>): (r: MenuCategory)
    ensures r.name == cat.name && r.title == cat.title && r.color == cat.color
    ensures |r.items| == |cat.items| + |modules|
    decreases |modules|
  {
    if |modules| == 0 then cat
    else
      var item := ItemFor(cat, modules[0], |cat.items| + 1);
      AddModules(cat.(items := cat.items + [item]), modules[1..])
  }

  /** The items `AddModules` appends, all at once. */
  function Numbered(cat: MenuCategory, modules: seq<Module>): seq<MenuItem> {
    seq(|modules|, k requires 0 <= k < |modules| => ItemFor(cat, modules[k], |cat.items| + k + 1))
  }

  /** Adding modules one by one appends their items numbered consecutively
      after the existing ones, in module order. */
  lemma {:induction false} AddModulesValue(cat: MenuCategory, modules: seq<Module>)
    ensures AddModules(cat, modules).items == cat.items + Numbered(cat, modules)
    decreases |modules|
  {
    if |modules| > 0 {
      var item := ItemFor(cat, modules[0], |cat.items| + 1);
      var next := cat.(items := cat.items + [item]);
      AddModulesValue(next, modules[1..]);
      assert Numbered(cat, modules) == [item] + Numbered(next, modules[1..]);
    }
  }

  /** One pass of the outer loop: the module list goes to the category of
      that name, if any; the others are unchanged. */
  function AddToNamed(cats: seq<MenuCategory>, name: string, modules: seq<Module>): (r: seq<MenuCategory>)
    ensures |r| == |cats|
    ensures forall i | 0 <= i < |cats| ::
      r[i] == if cats[i].name == name then AddModules(cats[i], modules) else cats[i]
  {
    seq(|cats|, i requires 0 <= i < |cats| => if cats[i].name == name then AddModules(cats[i], modules) else cats[i])
  }

  /** The outer loop of `build_menu_structure` over the module lists. */
  function Populate(cats: seq<MenuCategory>, lists: seq<(string, seq<Module>)>): (r: seq<MenuCategory>)
    ensures |r| == |cats|
    ensures forall i | 0 <= i < |cats| ::
      r[i].name == cats[i].name && r[i].title == cats[i].title && r[i].color == cats[i].color
    decreases |lists|
  {
    if |lists| == 0 then cats
    else Populate(AddToNamed(cats, lists[0].0, lists[0].1), lists[1..])
  }

  /** `build_menu_structure`: the default categories, each holding the items
      of the module lists filed under its name; no main-menu items. */
  function BuildMenuStructure(lists: seq<(string, seq<Module>)>): (m: MenuManager)
    ensures |m.categories| == 7 && m.mainItems == [] && m.running
    ensures forall i | 0 <= i < 7 :: m.categories[i].name == DefaultNames[i]
  {
    MenuManager(Populate(CreateDefaultCategories(), lists), [], true)
  }

  /** The modules filed under `name`, over all lists in order. */
  function ModulesFor(name: string, lists: seq<(string, seq<Module>)>): seq<Module> {
    if |lists| == 0 then []
    else (if lists[0].0 == name then lists[0].1 else []) + ModulesFor(name, lists[1..])
  }

  /** After the outer loop, each category holds its earlier items followed
      by the items for all modules filed under its name. */
  lemma {:induction false} PopulateItems(cats: seq<MenuCategory>, lists: seq<(string, seq<Module>)>, i: nat)
    requires i < |cats|
    ensures Populate(cats, lists)[i].items == cats[i].items + Numbered(cats[i], ModulesFor(cats[i].name, lists))
    decreases |lists|
  {
    if |lists| == 0 {
      assert Numbered(cats[i], []) == [];
    } else {
      var name, modules := lists[0].0, lists[0].1;
      var next := AddToNamed(cats, name, modules);
      PopulateItems(next, lists[1..], i);
      var rest := ModulesFor(cats[i].name, lists[1..]);
      if cats[i].name == name {
        AddModulesValue(cats[i], modules);
        NumberedAppend(cats[i], modules, rest);
      } else {
        assert ModulesFor(cats[i].name, lists) == rest;
      }
    }
  }

  /** Numbering two runs of modules one after the other is numbering their
      concatenation. */
  lemma NumberedAppend(cat: MenuCategory, xs: seq<Module>, ys: seq<Module>)
    ensures var next := cat.(items := cat.items + Numbered(cat, xs));
      cat.items + Numbered(cat, xs) + Numbered(next, ys) == cat.items + Numbered(cat, xs + ys)
  {
    var next := cat.(items := cat.items + Numbered(cat, xs));
    assert Numbered(cat, xs) + Numbered(next, ys) == Numbered(cat, xs + ys);
  }

  /** In every category of the built menu the items are numbered exactly
      1 .. n in module order; each shows its module's name and carries the
      category's colour and name. */
  lemma BuildNumbers(lists: seq<(string, seq<Module>)>, c: nat)
    requires c < 7
    ensures var cat := BuildMenuStructure(lists).categories[c];
      var modules := ModulesFor(DefaultNames[c], lists);
      && |cat.items| == |modules|
      && forall k | 0 <= k < |cat.items| ::
           && cat.items[k].number == k + 1
           && cat.items[k].title == modules[k].name
           && cat.items[k].callback == modules[k]
           && cat.items[k].color == cat.color
           && cat.items[k].category == DefaultNames[c]
  {
    PopulateItems(CreateDefaultCategories(), lists, c);
  }

  /** A module list filed under a name that is not a default category is
      dropped: the menu is the same without it. */
  lemma {:induction false} PopulateIgnores(cats: seq<MenuCategory>, lists: seq<(string, seq<Module>)>, name: string, modules: seq<Module>)
    requires forall i | 0 <= i < |cats| :: cats[i].name != name
    ensures Populate(cats, lists + [(name, modules)]) == Populate(cats, lists)
    decreases |lists|
  {
    if |lists| == 0 {
      assert AddToNamed(cats, name, modules) == cats;
    } else {
      assert (lists + [(name, modules)])[1..] == lists[1..] + [(name, modules)];
      PopulateIgnores(AddToNamed(cats, lists[0].0, lists[0].1), lists[1..], name, modules);
    }
  }

  /** `build_menu_structure` ignores module lists of unknown categories. */
  lemma BuildIgnoresUnknown(lists: seq<(string, seq<Module>)>, name: string, modules: seq<Module>)
    requires name !in DefaultNames
    ensures BuildMenuStructure(lists + [(name, modules)]) == BuildMenuStructure(lists)
  {
    var cats := CreateDefaultCategories();
    forall i | 0 <= i < |cats|
      ensures cats[i].name != name
    {
      assert cats[i].name == DefaultNames[i];
    }
    PopulateIgnores(cats, lists, name, modules);
  }

  // ---------------------------------------------------------------------------
  // show_main_menu and show_category_menu

  /** One displayed option: its number (as text), icon, title and colour. */
  datatype MenuOption = MenuOption(number: string, icon: string, title: string, color: string)

  /** What a menu screen shows, and the number of its last option (exit or
      back), which the screen returns. */
  datatype Screen = Screen(options: seq<MenuOption>, last: nat)

  function CategoryOption(c: MenuCategory, number: nat): MenuOption {
    MenuOption(Decimal.Show(number), c.icon, c.title, c.color)
  }

  function ItemOption(item: MenuItem, number: nat): MenuOption {
    MenuOption(Decimal.Show(number), item.icon, item.title, item.color)
  }

  function ExitOption(number: nat): MenuOption {
    MenuOption(Decimal.Show(number), "\U{1F6AA}", "Exit", "red")
  }

  /** `show_main_menu` as written: categories 1 .. C, then the counter
      `separator_index`, which starts at C + 1, is incremented before each main
      item is numbered, so main items show C + 2 .. C + M + 1; exit is
      `len(options) + 1` = C + M + 1. */
  function ShowMainMenuAsWritten(m: MenuManager): (s: Screen)
    ensures |s.options| == |m.categories| + |m.mainItems| + 1
    ensures s.last == |m.categories| + |m.mainItems| + 1
  {
    var c := |m.categories|;
    Screen(
      seq(c, i requires 0 <= i < c => CategoryOption(m.categories[i], i + 1))
      + seq(|m.mainItems|, j requires 0 <= j < |m.mainItems| => ItemOption(m.mainItems[j], c + j + 2))
      + [ExitOption(c + |m.mainItems| + 1)],
      c + |m.mainItems| + 1)
  }

  /** `show_main_menu` numbered as `run_main_menu` reads choices: categories
      1 .. C, main items C + 1 .. C + M, exit C + M + 1. */
  function ShowMainMenu(m: MenuManager): (s: Screen)
    ensures |s.options| == |m.categories| + |m.mainItems| + 1
    ensures s.last == |m.categories| + |m.mainItems| + 1
    ensures forall k | 0 <= k < |s.options| :: s.options[k].number == Decimal.Show(k + 1)
  {
    var c := |m.categories|;
    Screen(
      seq(c, i requires 0 <= i < c => CategoryOption(m.categories[i], i + 1))
      + seq(|m.mainItems|, j requires 0 <= j < |m.mainItems| => ItemOption(m.mainItems[j], c + j + 1))
      + [ExitOption(c + |m.mainItems| + 1)],
      c + |m.mainItems| + 1)
  }

  /** `show_category_menu`: each item under its own number, then "Back to
      Main Menu" under `len(items) + 1`. */
  function ShowCategoryMenu(cat: MenuCategory): (s: Screen)
    ensures |s.options| == |cat.items| + 1 && s.last == |cat.items| + 1
    ensures s.options[|cat.items|] == MenuOption(Decimal.Show(|cat.items| + 1), "◀", "Back to Main Menu", "yellow")
  {
    Screen(
      seq(|cat.items|, k requires 0 <= k < |cat.items| =>
        MenuOption(Decimal.ShowInt(cat.items[k].number), cat.items[k].icon, cat.items[k].title, cat.items[k].color))
      + [MenuOption(Decimal.Show(|cat.items| + 1), "◀", "Back to Main Menu", "yellow")],
      |cat.items| + 1)
  }

  // ---------------------------------------------------------------------------
  // get_user_choice

  /** The outcome of one prompt: the text `Display.prompt` returned (already
      stripped, see `Base.PromptWithDefault`), or an interrupt (Ctrl-C or
      end of input); at the main menu an interrupt is followed by the answer
      to "Exit PyTools?". */
  datatype Event = Typed(text: string) | Interrupted(confirmExit: bool)

  /** What `get_user_choice` gives: a number, or nothing together with the
      errors it showed, or the interrupt it re-raises. */
  datatype Choice = Picked(n: int) | NoChoice(errors: seq<string>) | Interrupt

  function RangeError(maxOption: int): string {
    "Invalid choice. Please enter a number between 1 and " + Decimal.ShowInt(maxOption)
  }

  const NotANumber: string := "Invalid input. Please enter a number."

  /** `get_user_choice`: empty input is no choice and no error; text `int()`
      rejects, or a number outside 1 .. max, is no choice and one error. */
  function GetUserChoice(e: Event, maxOption: int): (c: Choice)
    ensures c.Picked? <==>
      e.Typed? && Decimal.ParseInt(e.text).Some? && 1 <= Decimal.ParseInt(e.text).value <= maxOption
    ensures c.Picked? ==> c.n == Decimal.ParseInt(e.text).value
    ensures c.Interrupt? <==> e.Interrupted?
    ensures c.NoChoice? ==> (|c.errors| == 0 <==> e == Typed(""))
    ensures c.NoChoice? ==> |c.errors| <= 1
  {
    match e
    case Interrupted(_) => Interrupt
    case Typed(text) =>
      if text == "" then NoChoice([])
      else match Decimal.ParseInt(text)
        case None => NoChoice([NotANumber])
        case Some(n) => if 1 <= n <= maxOption then Picked(n) else NoChoice([RangeError(maxOption)])
  }

  /** Typing a number shown on a screen picks exactly that number. */
  lemma TypingShownNumber(n: nat, maxOption: int)
    requires 1 <= n <= maxOption
    ensures GetUserChoice(Typed(Decimal.Show(n)), maxOption) == Picked(n)
  {
    Decimal.ParseDigits(Decimal.Show(n));
  }

  // ---------------------------------------------------------------------------
  // run_main_menu, run_category_menu: one step per prompt

  /** Where the loops are: the main menu, inside a category, or stopped. */
  datatype Place = AtMain | InCategory(index: nat) | Stopped

  /** What one step does besides moving: run an item, or nothing. */
  datatype Step = Step(next: Place, ran: Option<MenuItem>)

  /** One pass of `run_main_menu`'s loop. The exit number is checked first;
      1 .. C enters that category; a larger choice runs main item
      `choice - C - 1` when that index exists; an interrupt stops only when
      the exit is confirmed. */
  function MainStep(m: MenuManager, e: Event): (s: Step)
    ensures s.next == Stopped <==>
      (e.Interrupted? && e.confirmExit) || GetUserChoice(e, ShowMainMenu(m).last) == Picked(ShowMainMenu(m).last)
    ensures s.ran.Some? ==> s.ran.value in m.mainItems && s.next == AtMain
    ensures s.next.InCategory? ==> s.next.index < |m.categories| && s.ran.None?
  {
    var exit := ShowMainMenu(m).last;
    var c := |m.categories|;
    match GetUserChoice(e, exit)
    case Interrupt => if e.confirmExit then Step(Stopped, None) else Step(AtMain, None)
    case NoChoice(_) => Step(AtMain, None)
    case Picked(k) =>
      if k == exit then Step(Stopped, None)
      else if 1 <= k <= c then Step(InCategory(k - 1), None)
      else if 0 <= k - c - 1 < |m.mainItems| then Step(AtMain, Some(m.mainItems[k - c - 1]))
      else Step(AtMain, None)
  }

  /** The first item of `items` whose number is `n`. */
  function ItemNumbered(items: seq<MenuItem>, n: int): (r: Option<nat>)
    ensures r.Some? ==> r.value < |items| && items[r.value].number == n
    ensures r.Some? ==> forall k | 0 <= k < r.value :: items[k].number != n
    ensures r.None? ==> forall k | 0 <= k < |items| :: items[k].number != n
  {
    if |items| == 0 then None
    else if items[0].number == n then Some(0)
    else match ItemNumbered(items[1..], n)
      case None => None
      case Some(k) => Some(k + 1)
  }

  /** One pass of `run_category_menu`'s loop: the back number returns to the
      main menu, any other choice runs the first item with that number, and
      an interrupt also returns to the main menu. */
  function CategoryStep(cat: MenuCategory, index: nat, e: Event): (s: Step)
    ensures s.next == AtMain <==>
      e.Interrupted? || GetUserChoice(e, |cat.items| + 1) == Picked(|cat.items| + 1)
    ensures s.next != AtMain ==> s.next == InCategory(index)
    ensures s.ran.Some? ==> s.ran.value in cat.items && s.next == InCategory(index)
  {
    var back := ShowCategoryMenu(cat).last;
    match GetUserChoice(e, back)
    case Interrupt => Step(AtMain, None)
    case NoChoice(_) => Step(InCategory(index), None)
    case Picked(k) =>
      if k == back then Step(AtMain, None)
      else match ItemNumbered(cat.items, k)
        case None => Step(InCategory(index), None)
        case Some(j) => Step(InCategory(index), Some(cat.items[j]))
  }

  /** One prompt of the whole menu system, wherever it is. */
  function MenuStep(m: MenuManager, place: Place, e: Event): (s: Step)
    ensures place == Stopped ==> s == Step(Stopped, None)
  {
    match place
    case Stopped => Step(Stopped, None)
    case AtMain => MainStep(m, e)
    case InCategory(c) =>
      if c < |m.categories| then CategoryStep(m.categories[c], c, e) else Step(AtMain, None)
  }

  /** The menu system over a run of prompt outcomes: where it ends and the
      items it ran, in order. */
  function Run(m: MenuManager, place: Place, events: seq<Event>): (r: (Place, seq<MenuItem>))
    ensures |r.1| <= |events|
    decreases |events|
  {
    if |events| == 0 then (place, [])
    else
      var s := MenuStep(m, place, events[0]);
      var rest := Run(m, s.next, events[1..]);
      (rest.0, (if s.ran.Some? then [s.ran.value] else []) + rest.1)
  }

  /** Once stopped, the menu reads nothing more and runs nothing. */
  lemma {:induction false} RunStopped(m: MenuManager, events: seq<Event>)
    ensures Run(m, Stopped, events) == (Stopped, [])
  {
    if |events| > 0 {
      RunStopped(m, events[1..]);
    }
  }

  /** Every item the menu runs belongs to a category of the menu or to its
      main items. */
  lemma {:induction false} RunRunsMenuItems(m: MenuManager, place: Place, events: seq<Event>)
    ensures forall item | item in Run(m, place, events).1 ::
      item in m.mainItems || exists c | 0 <= c < |m.categories| :: item in m.categories[c].items
    decreases |events|
  {
    if |events| > 0 {
      var s := MenuStep(m, place, events[0]);
      RunRunsMenuItems(m, s.next, events[1..]);
      if s.ran.Some? && place.InCategory? {
        assert s.ran.value in m.categories[place.index].items;
      }
    }
  }

  /** Typing the number the main screen shows for an option does what that
      option says: categories open, main items run, and exit stops. */
  lemma MainChoiceMatchesScreen(m: MenuManager, k: nat)
    requires 1 <= k <= |m.categories| + |m.mainItems| + 1
    ensures var s := MainStep(m, Typed(ShowMainMenu(m).options[k - 1].number));
      var c := |m.categories|;
      && (k <= c ==> s == Step(InCategory(k - 1), None))
      && (c < k <= c + |m.mainItems| ==> s == Step(AtMain, Some(m.mainItems[k - c - 1])))
      && (k == c + |m.mainItems| + 1 ==> s == Step(Stopped, None))
  {
    TypingShownNumber(k, ShowMainMenu(m).last);
  }

  /** The number each option of the as-written main screen shows. */
  lemma AsWrittenNumbers(m: MenuManager, k: nat)
    requires k < |m.categories| + |m.mainItems| + 1
    ensures var c := |m.categories|;
      ShowMainMenuAsWritten(m).options[k].number == Decimal.Show(
        if k < c then k + 1 else if k < c + |m.mainItems| then k + 2 else c + |m.mainItems| + 1)
  {
  }

  /** As written, once a main item exists its shown number is the exit
      number, and no option shows the number that runs the first main item. */
  lemma MainNumberingClash(m: MenuManager)
    requires |m.mainItems| >= 1
    ensures var shown := ShowMainMenuAsWritten(m);
      var c, last := |m.categories|, |m.categories| + |m.mainItems|;
      && shown.options[last - 1].number == Decimal.Show(shown.last)
      && shown.options[last - 1].title == m.mainItems[|m.mainItems| - 1].title
      && forall k | 0 <= k < |shown.options| :: shown.options[k].number != Decimal.Show(c + 1)
  {
    var shown := ShowMainMenuAsWritten(m);
    var c := |m.categories|;
    AsWrittenNumbers(m, c + |m.mainItems| - 1);
    forall k | 0 <= k < |shown.options|
      ensures shown.options[k].number != Decimal.Show(c + 1)
    {
      AsWrittenNumbers(m, k);
    }
  }

  /** What the main loop does with the number shown on the last main item:
      it is the exit number, so the loop stops. */
  lemma ShownLastItemExits(m: MenuManager)
    requires |m.mainItems| >= 1
    ensures MainStep(m, Typed(Decimal.Show(ShowMainMenuAsWritten(m).last))) == Step(Stopped, None)
  {
    TypingShownNumber(ShowMainMenu(m).last, ShowMainMenu(m).last);
  }

  /** The first main item runs only under C + 1, a number the as-written
      screen does not show. */
  lemma FirstItemRunsUnderHiddenNumber(m: MenuManager)
    requires |m.mainItems| >= 1
    ensures MainStep(m, Typed(Decimal.Show(|m.categories| + 1))) == Step(AtMain, Some(m.mainItems[0]))
  {
    TypingShownNumber(|m.categories| + 1, ShowMainMenu(m).last);
  }

  /** Typing the number the category screen shows for an item runs that
      item when item numbers are 1 .. n, as `build_menu_structure` makes
      them; the back number returns to the main menu. */
  lemma CategoryChoiceMatchesScreen(cat: MenuCategory, index: nat, k: nat)
    requires forall j | 0 <= j < |cat.items| :: cat.items[j].number == j + 1
    requires 1 <= k <= |cat.items| + 1
    ensures var s := CategoryStep(cat, index, Typed(ShowCategoryMenu(cat).options[k - 1].number));
      && (k <= |cat.items| ==> s == Step(InCategory(index), Some(cat.items[k - 1])))
      && (k == |cat.items| + 1 ==> s == Step(AtMain, None))
  {
    TypingShownNumber(k, |cat.items| + 1);
    if k <= |cat.items| {
      assert ShowCategoryMenu(cat).options[k - 1].number == Decimal.Show(k);
      var r := ItemNumbered(cat.items, k);
      assert cat.items[k - 1].number == k;
    }
  }

  // ---------------------------------------------------------------------------
  // execute_item

  /** What an item's callback did. `ReturnedOther` is any other value. */
  datatype Outcome =
    | ReturnedNone | ReturnedBool(b: bool) | ReturnedText(s: string) | ReturnedOther
    | RaisedInterrupt | Raised(message: string)

  /** A message `execute_item` shows. */
  datatype Notice = Success(text: string) | Warning(text: string) | Info(text: string) | Error(text: string)

  /** `execute_item`: the message shown for the callback's outcome (none for
      `None` or another value), and whether it paused, which it always does. */
  function ExecuteItem(outcome: Outcome): (r: (Option<Notice>, bool))
    ensures r.1
    ensures outcome.ReturnedBool? ==> r.0.Some? && (r.0.value.Success? <==> outcome.b)
    ensures outcome.ReturnedText? ==> r.0 == Some(Info(outcome.s))
    ensures r.0.None? <==> outcome == ReturnedNone || outcome == ReturnedOther
    ensures outcome.Raised? ==> r.0 == Some(Error("Error: " + outcome.message))
    ensures outcome == ReturnedBool(true) ==> r.0 == Some(Success("Operation completed successfully!"))
    ensures outcome == ReturnedBool(false) ==> r.0 == Some(Warning("Operation completed with warnings."))
    ensures outcome == RaisedInterrupt ==> r.0 == Some(Warning("Operation cancelled by user."))
  {
    var notice := match outcome
      case ReturnedNone => None
      case ReturnedBool(b) =>
        if b then Some(Success("Operation completed successfully!"))
        else Some(Warning("Operation completed with warnings."))
      case ReturnedText(s) => Some(Info(s))
      case ReturnedOther => None
      case RaisedInterrupt => Some(Warning("Operation cancelled by user."))
      case Raised(message) => Some(Error("Error: " + message));
    (notice, true)
  }

  /** A shown notice tells the outcome apart: two outcomes that show the
      same notice are the same outcome. */
  lemma NoticeDeterminesOutcome(o1: Outcome, o2: Outcome)
    requires ExecuteItem(o1).0.Some? && ExecuteItem(o1).0 == ExecuteItem(o2).0
    ensures o1 == o2
  {
    var n := ExecuteItem(o1).0.value;
    if o1.Raised? {
      assert o2.Raised?;
      assert "Error: " + o1.message == "Error: " + o2.message;
      assert o1.message == ("Error: " + o1.message)[7..];
      assert o2.message == ("Error: " + o2.message)[7..];
    }
  }
}

=== FILE: security.dfy ===
/**
 * modules/security.py: the password strength analysis, the password
 * generator with its input clamps, and the XOR file cipher.
 *
 * Randomness is an oracle: `rand(k)` is the number behind the `k`-th draw,
 * and `secrets.choice(xs)` takes `xs[rand(k) % |xs|]`. The SHA-256 key
 * derivation is an oracle too (`digest`), and files are a map from path to
 * bytes.
 */
module Security {
  import opened Wrappers
  import Decimal
  import Text
  import Base

  // ---------------------------------------------------------------------------
  // character classes

  /** `string.ascii_uppercase`, `string.ascii_lowercase`, `string.digits`. */
  const Uppercase: string := CharRange('A', 26)
  const Lowercase: string := CharRange('a', 26)
  const Digits: string := CharRange('0', 10)
  /** `string.punctuation`. */
  const Punctuation: string := "!\"#$%&'()*+,-./:;<=>?@[\\]^_`{|}~"
  /** The class `[!@#$%^&*(),.?":{}|<>]` the analysis counts as special. */
  const SpecialChars: string := "!@#$%^&*(),.?\":{}|<>"

  /** The `n` consecutive characters from `first`. */
  function CharRange(first: char, n: nat): (r: string)
    requires first as int + n <= 0xD800
    ensures |r| == n
    ensures forall i | 0 <= i < n :: r[i] as int == first as int + i
  {
    seq(n, i requires 0 <= i < n => (first as int + i) as char)
  }

  predicate HasUpper(p: string) { exists k | 0 <= k < |p| :: Text.IsUpper(p[k]) }
  predicate HasLower(p: string) { exists k | 0 <= k < |p| :: Text.IsLower(p[k]) }
  predicate HasDigit(p: string) { exists k | 0 <= k < |p| :: Text.IsAsciiDigit(p[k]) }
  predicate HasSpecial(p: string) { exists k | 0 <= k < |p| :: p[k] in SpecialChars }

  // ---------------------------------------------------------------------------
  // _analyze_password

  /** The bands, weakest first. */
  datatype Strength = VeryWeak | Weak | Medium | Strong | VeryStrong

  /** The analysis `_analyze_password` returns. */
  datatype Analysis = Analysis(
    strength: Strength, score: nat, color: string, length: nat,
    hasUpper: bool, hasLower: bool, hasDigit: bool, hasSpecial: bool,
    crackTime: string, recommendations: seq<string>)

  /** The additive score: 20, 15 and 15 for reaching 8, 12 and 16
      characters; 15 each for upper and lower case, 10 each for digits and
      special characters. */
  function Score(p: string): (score: nat)
    ensures score <= 100
    ensures score == 100 <==> |p| >= 16 && HasUpper(p) && HasLower(p) && HasDigit(p) && HasSpecial(p)
    ensures |p| < 8 ==> score <= 50
  {
    (if |p| >= 8 then 20 else 0) + (if |p| >= 12 then 15 else 0) + (if |p| >= 16 then 15 else 0)
    + (if HasUpper(p) then 15 else 0) + (if HasLower(p) then 15 else 0)
    + (if HasDigit(p) then 10 else 0) + (if HasSpecial(p) then 10 else 0)
  }

  /** The band of a score: at least 90, 70, 50 and 30 for Very Strong,
      Strong, Medium and Weak. */
  function Band(score: int): (s: Strength)
    ensures s == VeryStrong <==> score >= 90
    ensures s == Strong <==> 70 <= score < 90
    ensures s == Medium <==> 50 <= score < 70
    ensures s == Weak <==> 30 <= score < 50
    ensures s == VeryWeak <==> score < 30
  {
    if score >= 90 then VeryStrong
    else if score >= 70 then Strong
    else if score >= 50 then Medium
    else if score >= 30 then Weak
    else VeryWeak
  }

  /** The rank of a band, weakest 0. */
  function Rank(s: Strength): nat {
    match s
    case VeryWeak => 0
    case Weak => 1
    case Medium => 2
    case Strong => 3
    case VeryStrong => 4
  }

  /** A higher score never gets a weaker band, and the lower bound of each
      band is reached. */
  lemma BandMonotone(a: int, b: int)
    requires a <= b
    ensures Rank(Band(a)) <= Rank(Band(b))
    ensures Band(30) == Weak && Band(50) == Medium && Band(70) == Strong && Band(29) == VeryWeak
  {
  }

  function StrengthName(s: Strength): string {
    match s
    case VeryWeak => "Very Weak"
    case Weak => "Weak"
    case Medium => "Medium"
    case Strong => "Strong"
    case VeryStrong => "Very Strong"
  }

  function BandColor(s: Strength): string {
    match s
    case VeryWeak => "red"
    case Weak => "orange"
    case Medium => "yellow"
    case Strong => "green"
    case VeryStrong => "bright_green"
  }

  function CrackTime(s: Strength): string {
    match s
    case VeryWeak => "Minutes to hours"
    case Weak => "Hours to days"
    case Medium => "Days to months"
    case Strong => "Years to decades"
    case VeryStrong => "Centuries+"
  }

  /** The five pieces of advice, in the order the analysis checks them. */
  const Advice: seq<string> := [
    "Use at least 12 characters",
    "Add uppercase letters (A-Z)",
    "Add lowercase letters (a-z)",
    "Add numbers (0-9)",
    "Add special characters (!@#$%^&*)"]

  /** Which of the five criteria `p` fails, aligned with `Advice`. */
  function Failures(p: string): seq<bool> {
    [|p| < 12, !HasUpper(p), !HasLower(p), !HasDigit(p), !HasSpecial(p)]
  }

  /** The number of `true` entries. */
  function CountTrue(bs: seq<bool>): nat {
    if bs == [] then 0 else (if bs[0] then 1 else 0) + CountTrue(bs[1..])
  }

  /** The position of `x` in `xs`, or `|xs|` when it is absent. */
  function IndexOf<T(==)>(xs: seq<T>, x: T): nat {
    if xs == [] then 0 else if xs[0] == x then 0 else 1 + IndexOf(xs[1..], x)
  }

  predicate Distinct<T(==)>(xs: seq<T>) {
    forall i, j | 0 <= i < j < |xs| :: xs[i] != xs[j]
  }

  /** The entries of `xs` whose flag in `bs` is set, in their order. */
  function Select<T>(xs: seq<T>, bs: seq<bool>): seq<T>
    requires |xs| == |bs|
  {
    if xs == [] then [] else (if bs[0] then [xs[0]] else []) + Select(xs[1..], bs[1..])
  }

  lemma {:induction false} SelectCount<T>(xs: seq<T>, bs: seq<bool>)
    requires |xs| == |bs|
    ensures |Select(xs, bs)| == CountTrue(bs)
  {
    if xs != [] {
      SelectCount(xs[1..], bs[1..]);
    }
  }

  /** `s` lists entries of `xs` in the order `xs` has them. */
  predicate InOrder<T(==)>(xs: seq<T>, s: seq<T>) {
    forall i, j | 0 <= i < j < |s| :: IndexOf(xs, s[i]) < IndexOf(xs, s[j])
  }

  lemma {:induction false} SelectFrom<T>(xs: seq<T>, bs: seq<bool>)
    requires |xs| == |bs|
    ensures forall y | y in Select(xs, bs) :: y in xs
  {
    if xs != [] {
      SelectFrom(xs[1..], bs[1..]);
      forall y | y in Select(xs[1..], bs[1..]) ensures y in xs {
        var k :| 0 <= k < |xs[1..]| && xs[1..][k] == y;
        assert xs[k + 1] == y;
      }
    }
  }

  /** An entry of a duplicate-free `xs` is selected exactly when its flag
      is set. */
  lemma {:induction false} SelectMember<T>(xs: seq<T>, bs: seq<bool>)
    requires |xs| == |bs| && Distinct(xs)
    ensures forall i | 0 <= i < |xs| :: xs[i] in Select(xs, bs) <==> bs[i]
  {
    if xs != [] {
      var rest := Select(xs[1..], bs[1..]);
      SelectMember(xs[1..], bs[1..]);
      SelectFrom(xs[1..], bs[1..]);
      var h := if bs[0] then [xs[0]] else [];
      assert Select(xs, bs) == h + rest;
      forall i | 0 <= i < |xs|
        ensures xs[i] in Select(xs, bs) <==> bs[i]
      {
        if i > 0 {
          assert xs[i] == xs[1..][i - 1];
          assert xs[i] != xs[0];
        }
      }
    }
  }

  /** Selecting keeps the order of a duplicate-free `xs`. */
  lemma {:induction false} SelectOrder<T>(xs: seq<T>, bs: seq<bool>)
    requires |xs| == |bs| && Distinct(xs)
    ensures InOrder(xs, Select(xs, bs))
  {
    if xs != [] {
      var rest := Select(xs[1..], bs[1..]);
      SelectOrder(xs[1..], bs[1..]);
      SelectFrom(xs[1..], bs[1..]);
      var s := Select(xs, bs);
      var h := if bs[0] then [xs[0]] else [];
      assert s == h + rest;
      forall y | y in rest
        ensures IndexOf(xs, y) == 1 + IndexOf(xs[1..], y)
      {
        var k :| 0 <= k < |xs[1..]| && xs[1..][k] == y;
        assert xs[k + 1] == y;
      }
      forall i, j | 0 <= i < j < |s|
        ensures IndexOf(xs, s[i]) < IndexOf(xs, s[j])
      {
        assert s[j] == rest[j - |h|] && s[j] in rest;
        if i >= |h| {
          assert s[i] == rest[i - |h|] && s[i] in rest;
          assert 0 <= i - |h| < j - |h| < |rest|;
        } else {
          assert s[i] == xs[0];
        }
      }
    }
  }

  /** The recommendations, one per failed criterion, in this fixed order. */
  function Recommendations(p: string): (recs: seq<string>)
    ensures |recs| == CountTrue(Failures(p))
    ensures forall r | r in recs :: r in Advice
    ensures forall i | 0 <= i < |Advice| :: Advice[i] in recs <==> Failures(p)[i]
    ensures InOrder(Advice, recs)
    ensures recs == [] <==> |p| >= 12 && HasUpper(p) && HasLower(p) && HasDigit(p) && HasSpecial(p)
  {
    SelectCount(Advice, Failures(p));
    AdviceDistinct();
    SelectFrom(Advice, Failures(p));
    SelectMember(Advice, Failures(p));
    SelectOrder(Advice, Failures(p));
    NoFailures(p);
    Select(Advice, Failures(p))
  }

  lemma NoFailures(p: string)
    ensures CountTrue(Failures(p)) == 0 <==>
      |p| >= 12 && HasUpper(p) && HasLower(p) && HasDigit(p) && HasSpecial(p)
  {
    var f := Failures(p);
    assert CountTrue(f[4..]) == if f[4] then 1 else 0;
    assert CountTrue(f[3..]) == (if f[3] then 1 else 0) + CountTrue(f[4..]);
    assert CountTrue(f[2..]) == (if f[2] then 1 else 0) + CountTrue(f[3..]);
    assert CountTrue(f[1..]) == (if f[1] then 1 else 0) + CountTrue(f[2..]);
  }

  lemma AdviceDistinct()
    ensures Distinct(Advice)
  {
    assert Advice[0][0] == 'U' && Advice[1][4] == 'u' && Advice[2][4] == 'l';
    assert Advice[3][4] == 'n' && Advice[4][4] == 's';
    assert |Advice[0]| == 26 && |Advice[3]| == 17 && |Advice[4]| == 33;
  }

  /** `_analyze_password`. */
  function AnalyzePassword(p: string): (a: Analysis)
    ensures a.score == Score(p) && a.score <= 100 && a.length == |p|
    ensures a.strength == Band(a.score)
    ensures a.color == BandColor(a.strength) && a.crackTime == CrackTime(a.strength)
    ensures a.hasUpper == HasUpper(p) && a.hasLower == HasLower(p)
    ensures a.hasDigit == HasDigit(p) && a.hasSpecial == HasSpecial(p)
    ensures a.recommendations == Recommendations(p)
    ensures a.recommendations == [] ==> a.score >= 85
  {
    var score := Score(p);
    var band := Band(score);
    Analysis(band, score, BandColor(band), |p|, HasUpper(p), HasLower(p), HasDigit(p), HasSpecial(p),
             CrackTime(band), Recommendations(p))
  }

  /** Appending a character never lowers the score: the length grows and
      each class flag can only turn on. */
  lemma AppendNeverLowers(p: string, c: char)
    ensures Score(p + [c]) >= Score(p)
    ensures Rank(Band(Score(p + [c]))) >= Rank(Band(Score(p)))
  {
    var q := p + [c];
    if HasUpper(p) { var k :| 0 <= k < |p| && Text.IsUpper(p[k]); assert q[k] == p[k]; }
    if HasLower(p) { var k :| 0 <= k < |p| && Text.IsLower(p[k]); assert q[k] == p[k]; }
    if HasDigit(p) { var k :| 0 <= k < |p| && Text.IsAsciiDigit(p[k]); assert q[k] == p[k]; }
    if HasSpecial(p) { var k :| 0 <= k < |p| && p[k] in SpecialChars; assert q[k] == p[k]; }
    BandMonotone(Score(p), Score(q));
  }

  /** What `PasswordStrengthModule.execute` reports for the line typed at the
      password prompt: `None` when the prompt gives "" (nothing is
      analysed), otherwise the analysis of the stripped password. */
  function CheckStrength(line: string): (r: Option<Analysis>)
    ensures r.None? <==> Text.Strip(line) == ""
    ensures r.Some? ==> r.value == AnalyzePassword(Text.Strip(line)) && r.value.length > 0
  {
    var password := Base.PromptWithDefault(line, "");
    if password == "" then None else Some(AnalyzePassword(password))
  }

  // ---------------------------------------------------------------------------
  // the generator's input clamps

  /** The password length the generator uses for the answer: 16 when
      `int()` rejects it, otherwise clamped to 8 .. 128. */
  function ClampLength(answer: string): (n: int)
    ensures 8 <= n <= 128
    ensures Decimal.ParseInt(answer).None? ==> n == 16
    ensures Decimal.ParseInt(answer).Some? && 8 <= Decimal.ParseInt(answer).value <= 128 ==>
      n == Decimal.ParseInt(answer).value
    ensures Decimal.ParseInt(answer).Some? && Decimal.ParseInt(answer).value < 8 ==> n == 8
    ensures Decimal.ParseInt(answer).Some? && Decimal.ParseInt(answer).value > 128 ==> n == 128
  {
    match Decimal.ParseInt(answer)
    case None => 16
    case Some(n) => if n < 8 then 8 else if n > 128 then 128 else n
  }

  /** The number of passwords: 5 when `int()` rejects the text, otherwise
      `max(1, min(n, 20))`. */
  function ClampCount(answer: string): (n: int)
    ensures 1 <= n <= 20
    ensures Decimal.ParseInt(answer).None? ==> n == 5
    ensures Decimal.ParseInt(answer).Some? && 1 <= Decimal.ParseInt(answer).value <= 20 ==>
      n == Decimal.ParseInt(answer).value
    ensures Decimal.ParseInt(answer).Some? && Decimal.ParseInt(answer).value < 1 ==> n == 1
    ensures Decimal.ParseInt(answer).Some? && Decimal.ParseInt(answer).value > 20 ==> n == 20
  {
    match Decimal.ParseInt(answer)
    case None => 5
    case Some(n) => if n < 1 then 1 else if n > 20 then 20 else n
  }

  /** Clamping is idempotent: feeding a clamped value back in keeps it. */
  lemma ClampsIdempotent(answer: string)
    ensures ClampLength(Decimal.ShowInt(ClampLength(answer))) == ClampLength(answer)
    ensures ClampCount(Decimal.ShowInt(ClampCount(answer))) == ClampCount(answer)
  {
    Decimal.ParseShowInt(ClampLength(answer));
    Decimal.ParseShowInt(ClampCount(answer));
  }

  // ---------------------------------------------------------------------------
  // _generate_password

  /** `secrets.choice(xs)` on draw `k`. */
  function Choice(xs: string, rand: nat -> nat, k: nat): (c: char)
    requires |xs| > 0
    ensures c in xs
  {
    xs[rand(k) % |xs|]
  }

  /** The alphabet the rest of the password is drawn from. */
  function Alphabet(useSpecial: bool): string {
    Lowercase + Uppercase + Digits + (if useSpecial then Punctuation else "")
  }

  /** The guaranteed characters: one upper, one lower, one digit, and one
      punctuation character when special characters are on. */
  function Seeds(useSpecial: bool, rand: nat -> nat): (s: string)
    ensures |s| == (if useSpecial then 4 else 3)
  {
    [Choice(Uppercase, rand, 0), Choice(Lowercase, rand, 1), Choice(Digits, rand, 2)]
    + (if useSpecial then [Choice(Punctuation, rand, 3)] else [])
  }

  /** The fill loop: append draws from the alphabet until `length` is
      reached. */
  function Fill(password: string, length: int, alphabet: string, rand: nat -> nat): (r: string)
    requires |alphabet| > 0
    ensures |r| == (if |password| >= length then |password| else length)
    ensures r[..|password|] == password
    ensures forall k | |password| <= k < |r| :: r[k] in alphabet
    decreases length - |password|
  {
    if |password| >= length then password
    else
      var next := password + [Choice(alphabet, rand, |password| + 1)];
      var r := Fill(next, length, alphabet, rand);
      assert r[..|password|] == next[..|password|];
      r
  }

  /** `SystemRandom().shuffle`: for `i` from the last index down to 1, swap
      position `i` with position `randbelow(i + 1)`, here drawn as
      `rand(base + i) % (i + 1)`. */
  function Shuffle(xs: string, rand: nat -> nat, base: nat): (r: string)
    ensures |r| == |xs|
    ensures multiset(r) == multiset(xs)
  {
    if |xs| == 0 then xs else ShuffleDown(xs, |xs| - 1, rand, base)
  }

  /** The shuffle's loop from index `i` down. */
  function ShuffleDown(xs: string, i: nat, rand: nat -> nat, base: nat): (r: string)
    requires i < |xs|
    ensures |r| == |xs|
    ensures multiset(r) == multiset(xs)
    decreases i
  {
    if i == 0 then xs
    else
      var j := rand(base + i) % (i + 1);
      var swapped := xs[i := xs[j]][j := xs[i]];
      ShuffleDown(swapped, i - 1, rand, base)
  }

  /** `_generate_password`: seeds, fill, shuffle. */
  function GeneratePassword(length: int, useSpecial: bool, rand: nat -> nat): (p: string)
    ensures |p| == (if length >= (if useSpecial then 4 else 3) then length else (if useSpecial then 4 else 3))
  {
    var filled := Fill(Seeds(useSpecial, rand), length, Alphabet(useSpecial), rand);
    Shuffle(filled, rand, |filled| + 1)
  }

  /** The seeds come from the alphabet and hold one character of each
      required class at fixed positions. */
  lemma SeedsFacts(useSpecial: bool, rand: nat -> nat)
    ensures var s := Seeds(useSpecial, rand);
      && Text.IsUpper(s[0]) && Text.IsLower(s[1]) && Text.IsAsciiDigit(s[2])
      && (useSpecial ==> s[3] in Punctuation)
      && forall k | 0 <= k < |s| :: s[k] in Alphabet(useSpecial)
  {
    var s := Seeds(useSpecial, rand);
    var a := Alphabet(useSpecial);
    assert a == Lowercase + Uppercase + Digits + (if useSpecial then Punctuation else "");
    var i0, i1, i2 := rand(0) % 26, rand(1) % 26, rand(2) % 10;
    assert s[0] == Uppercase[i0] == a[26 + i0];
    assert s[1] == Lowercase[i1] == a[i1];
    assert s[2] == Digits[i2] == a[52 + i2];
    if useSpecial {
      var i3 := rand(3) % |Punctuation|;
      assert s[3] == Punctuation[i3] == a[62 + i3];
    }
  }

  /** The filled password keeps the seeds in front and draws the rest from
      the alphabet. */
  lemma FilledFacts(length: int, useSpecial: bool, rand: nat -> nat)
    ensures var s := Seeds(useSpecial, rand);
      var f := Fill(s, length, Alphabet(useSpecial), rand);
      && |f| >= |s| && f[0] == s[0] && f[1] == s[1] && f[2] == s[2]
      && (useSpecial ==> f[3] == s[3])
      && forall k | 0 <= k < |f| :: f[k] in Alphabet(useSpecial)
  {
    var s := Seeds(useSpecial, rand);
    var a := Alphabet(useSpecial);
    var f := Fill(s, length, a, rand);
    SeedsFacts(useSpecial, rand);
    assert f[..|s|] == s;
    forall k | 0 <= k < |f|
      ensures f[k] in a
    {
      if k < |s| {
        assert f[k] == f[..|s|][k];
      }
    }
    assert f[0] == f[..|s|][0] && f[1] == f[..|s|][1] && f[2] == f[..|s|][2];
    if useSpecial {
      assert f[3] == f[..|s|][3];
    }
  }

  /** The generator's guarantees: the length is `max(length, 3)`, or
      `max(length, 4)` with special characters; there is at least one upper
      case letter, lower case letter and digit, and a punctuation character
      when asked; every character is from the alphabet. */
  lemma GeneratedPassword(length: int, useSpecial: bool, rand: nat -> nat)
    ensures var p := GeneratePassword(length, useSpecial, rand);
      && |p| == (if length >= (if useSpecial then 4 else 3) then length else (if useSpecial then 4 else 3))
      && HasUpper(p) && HasLower(p) && HasDigit(p)
      && (useSpecial ==> exists k | 0 <= k < |p| :: p[k] in Punctuation)
      && forall k | 0 <= k < |p| :: p[k] in Alphabet(useSpecial)
  {
    var seeds := Seeds(useSpecial, rand);
    var alphabet := Alphabet(useSpecial);
    var filled := Fill(seeds, length, alphabet, rand);
    var p := GeneratePassword(length, useSpecial, rand);
    assert p == Shuffle(filled, rand, |filled| + 1);
    FilledFacts(length, useSpecial, rand);
    SeedsFacts(useSpecial, rand);
    forall k | 0 <= k < |p|
      ensures p[k] in alphabet
    {
      assert p[k] in multiset(filled);
    }
    Holds(p, filled, 0, Text.IsUpper);
    Holds(p, filled, 1, Text.IsLower);
    Holds(p, filled, 2, Text.IsAsciiDigit);
    if useSpecial {
      Holds(p, filled, 3, InPunctuation);
    }
  }

  predicate InPunctuation(c: char) { c in Punctuation }

  /** A character with property `P` at position `i` of `xs` is somewhere in
      any rearrangement of `xs`. */
  lemma Holds(ys: string, xs: string, i: nat, P: char -> bool)
    requires multiset(ys) == multiset(xs) && i < |xs| && P(xs[i])
    ensures exists k | 0 <= k < |ys| :: P(ys[k])
  {
    assert xs[i] in multiset(ys);
    var k :| 0 <= k < |ys| && ys[k] == xs[i];
  }

  /** `PasswordGeneratorModule.execute`: `count` passwords of the clamped
      length, password `n` drawing from `rand(n)`. */
  function GeneratePasswords(lengthText: string, useSpecial: bool, countText: string, rand: nat -> nat -> nat): (ps: seq<string>)
    ensures |ps| == ClampCount(countText)
    ensures forall n | 0 <= n < |ps| :: ps[n] == GeneratePassword(ClampLength(lengthText), useSpecial, rand(n))
    ensures forall n | 0 <= n < |ps| :: |ps[n]| == ClampLength(lengthText)
  {
    var length, count := ClampLength(lengthText), ClampCount(countText);
    assert forall r: nat -> nat :: |GeneratePassword(length, useSpecial, r)| == length;
    seq(count, n requires 0 <= n < count => GeneratePassword(length, useSpecial, rand(n)))
  }

  // ---------------------------------------------------------------------------
  // the XOR cipher

  /** A SHA-256 digest: 32 bytes. */
  type Digest = k: seq<bv8> | |k| == 32 witness seq(32, _ => 0)

  /** `_encrypt_file`'s loop: byte `i` is XORed with key byte `i mod |key|`. */
  function Xor(data: seq<bv8>, key: seq<bv8>): (out: seq<bv8>)
    requires |key| > 0
    ensures |out| == |data|
    ensures forall i | 0 <= i < |data| :: out[i] == data[i] ^ key[i % |key|]
  {
    seq(|data|, i requires 0 <= i < |data| => data[i] ^ key[i % |key|])
  }

  /** Applying the cipher twice with the same key gives the input back. */
  lemma XorInvolution(data: seq<bv8>, key: seq<bv8>)
    requires |key| > 0
    ensures Xor(Xor(data, key), key) == data
  {
    var once := Xor(data, key);
    forall i | 0 <= i < |data|
      ensures Xor(once, key)[i] == data[i]
    {
      assert once[i] == data[i] ^ key[i % |key|];
    }
  }

  /** Decryption is the same operation as encryption. */
  function Decrypt(data: seq<bv8>, key: seq<bv8>): (out: seq<bv8>)
    requires |key| > 0
    ensures Xor(out, key) == data
  {
    XorInvolution(data, key);
    Xor(data, key)
  }

  /** The outcome of `FileEncryptionModule.execute`. */
  datatype CipherOutcome = Refused(message: string) | Written(path: string, files: map<string, seq<bv8>>)

  /** `FileEncryptionModule.execute`: check the choice, that the input
      exists and that a password was given, then write the XORed bytes to
      the path the output prompt gives ("<input>.encrypted" for an empty
      line). A line of blanks gives "", which `open` rejects; the handler
      reports the failure and nothing is written. Both choices run the same
      transformation. */
  function EncryptFile(choice: string, input: string, password: string, outputLine: string,
                       files: map<string, seq<bv8>>, digest: string -> Digest): (o: CipherOutcome)
    ensures o.Written? <==>
      && choice in ["1", "2"] && input in files && password != ""
      && (outputLine == "" || Text.Strip(outputLine) != "")
    ensures o.Written? ==>
      && o.path == (if outputLine == "" then input + ".encrypted" else Text.Strip(outputLine))
      && o.files.Keys == files.Keys + {o.path}
      && o.files[o.path] == Xor(files[input], digest(password))
      && forall path | path in files && path != o.path :: o.files[path] == files[path]
  {
    if choice !in ["1", "2"] then Refused("Invalid choice")
    else if input !in files then Refused("File not found")
    else if password == "" then Refused("No password provided")
    else
      var output := Base.PromptWithDefault(outputLine, input + ".encrypted");
      if output == "" then Refused("Operation failed")
      else Written(output, files[output := Xor(files[input], digest(password))])
  }

  /** Encrypting a file and then decrypting the result with the same
      password restores the original bytes, whenever neither output line is
      a line of blanks. */
  lemma EncryptThenDecrypt(input: string, password: string, middle: string, output: string,
                           files: map<string, seq<bv8>>, digest: string -> Digest)
    requires input in files && password != ""
    requires middle == "" || Text.Strip(middle) != ""
    requires output == "" || Text.Strip(output) != ""
    ensures var e := EncryptFile("1", input, password, middle, files, digest);
      && e.Written?
      && var d := EncryptFile("2", e.path, password, output, e.files, digest);
         d.Written? && d.files[d.path] == files[input]
  {
    XorInvolution(files[input], digest(password));
  }
}

=== FILE: text.dfy ===
/**
 * The handful of Python `str` methods the toolkit relies on, over ASCII text:
 * `split(sep)`, `sep.join(parts)`, `strip()`, `replace(a, b)` on single
 * characters, `title()` and `os.path.basename`.
 */
module Text {

  /** `str.isspace()` on one ASCII character: tab .. carriage return, the four
      separator controls 0x1C .. 0x1F, and the space. */
  predicate IsSpace(c: char) {
    9 <= c as int <= 13 || 28 <= c as int <= 32
  }

  predicate IsUpper(c: char) { 'A' <= c <= 'Z' }
  predicate IsLower(c: char) { 'a' <= c <= 'z' }
  predicate IsLetter(c: char) { IsUpper(c) || IsLower(c) }
  predicate IsAsciiDigit(c: char) { '0' <= c <= '9' }

  predicate AllSpace(s: string) {
    forall k | 0 <= k < |s| :: IsSpace(s[k])
  }

  /** How many times `c` occurs in `s`. */
  function Count(s: string, c: char): nat {
    if |s| == 0 then 0 else (if s[0] == c then 1 else 0) + Count(s[1..], c)
  }

  lemma {:induction false} CountZero(s: string, c: char)
    ensures Count(s, c) == 0 <==> c !in s
  {
    if |s| > 0 {
      CountZero(s[1..], c);
      assert s == [s[0]] + s[1..];
    }
  }

  /** Counting distributes over concatenation. */
  lemma {:induction false} CountAppend(a: string, b: string, c: char)
    ensures Count(a + b, c) == Count(a, c) + Count(b, c)
  {
    if |a| == 0 {
      assert a + b == b;
    } else {
      CountAppend(a[1..], b, c);
      assert (a + b)[0] == a[0];
      assert (a + b)[1..] == a[1..] + b;
    }
  }

  /** In a run of the character `d`, `c` occurs `|s|` times when it is `d`
      and never otherwise. */
  lemma {:induction false} CountUniform(s: string, c: char, d: char)
    requires forall i | 0 <= i < |s| :: s[i] == d
    ensures Count(s, c) == (if c == d then |s| else 0)
  {
    if |s| > 0 {
      CountUniform(s[1..], c, d);
    }
  }

  // ---------------------------------------------------------------------------
  // split / join

  /** `sep.join(parts)`. */
  function Join(parts: seq<string>, sep: char): string
    requires |parts| >= 1
  {
    if |parts| == 1 then parts[0] else parts[0] + [sep] + Join(parts[1..], sep)
  }

  /** `s.split(sep)` for a one-character separator: the pieces between
      separators, in order; there is always at least one piece. */
  function Split(s: string, sep: char): (parts: seq<string>)
    ensures |parts| == Count(s, sep) + 1
    ensures forall i | 0 <= i < |parts| :: sep !in parts[i]
  {
    if |s| == 0 then [""]
    else
      var rest := Split(s[1..], sep);
      if s[0] == sep then [""] + rest
      else [[s[0]] + rest[0]] + rest[1..]
  }

  /** `join` undoes `split`. */
  lemma {:induction false} JoinSplit(s: string, sep: char)
    ensures Join(Split(s, sep), sep) == s
  {
    if |s| > 0 {
      JoinSplit(s[1..], sep);
      assert s == [s[0]] + s[1..];
      if s[0] != sep {
        JoinPrepend(s[0], Split(s[1..], sep), sep);
      }
    }
  }

  lemma JoinPrepend(c: char, parts: seq<string>, sep: char)
    requires |parts| >= 1
    ensures Join([[c] + parts[0]] + parts[1..], sep) == [c] + Join(parts, sep)
  {
    var ps := [[c] + parts[0]] + parts[1..];
    assert ps[1..] == parts[1..];
  }

  /** Splitting a text with no separator gives that text alone. */
  lemma SplitNoSep(s: string, sep: char)
    requires sep !in s
    ensures Split(s, sep) == [s]
  {
    CountZero(s, sep);
    JoinSplit(s, sep);
    var parts := Split(s, sep);
    assert |parts| == 1;
  }

  /** `split` undoes `join` whenever no piece holds the separator. */
  lemma {:induction false} SplitJoin(parts: seq<string>, sep: char)
    requires |parts| >= 1
    requires forall i | 0 <= i < |parts| :: sep !in parts[i]
    ensures Split(Join(parts, sep), sep) == parts
  {
    if |parts| == 1 {
      SplitNoSep(parts[0], sep);
    } else {
      SplitJoin(parts[1..], sep);
      SplitPiece(parts[0], Join(parts[1..], sep), sep);
      assert [parts[0]] + parts[1..] == parts;
    }
  }

  /** Joining is injective on pieces free of the separator. */
  lemma JoinInjective(xs: seq<string>, ys: seq<string>, sep: char)
    requires |xs| >= 1 && |ys| >= 1
    requires forall i | 0 <= i < |xs| :: sep !in xs[i]
    requires forall i | 0 <= i < |ys| :: sep !in ys[i]
    ensures Join(xs, sep) == Join(ys, sep) <==> xs == ys
  {
    SplitJoin(xs, sep);
    SplitJoin(ys, sep);
  }

  /** A separator-free head followed by a separator splits off as one piece. */
  lemma {:induction false} SplitPiece(head: string, tail: string, sep: char)
    requires sep !in head
    ensures Split(head + [sep] + tail, sep) == [head] + Split(tail, sep)
  {
    if |head| > 0 {
      var s := head + [sep] + tail;
      assert s[1..] == head[1..] + [sep] + tail;
      SplitPiece(head[1..], tail, sep);
      assert [head[0]] + head[1..] == head;
    } else {
      assert (head + [sep] + tail)[1..] == tail;
    }
  }

  /** A character other than the separator occurs in a join only if it occurs
      in one of the pieces. */
  lemma {:induction false} JoinAvoids(parts: seq<string>, sep: char, c: char)
    requires |parts| >= 1 && c != sep
    requires forall i | 0 <= i < |parts| :: c !in parts[i]
    ensures c !in Join(parts, sep)
  {
    if |parts| > 1 {
      JoinAvoids(parts[1..], sep, c);
    }
  }

  /** The last piece of a split. */
  function Last(parts: seq<string>): string
    requires |parts| >= 1
  {
    parts[|parts| - 1]
  }

  /** `os.path.basename(path)` for POSIX paths: the text after the last "/". */
  function Basename(path: string): (name: string)
    ensures '/' !in name
    ensures |name| <= |path| && path[|path| - |name|..] == name
    ensures |name| == |path| || path[|path| - |name| - 1] == '/'
  {
    var parts := Split(path, '/');
    JoinSplit(path, '/');
    JoinLastSuffix(parts, '/');
    Last(parts)
  }

  /** The base name of `dir/name` is `name`, whatever `dir` holds. */
  lemma BasenameOf(dir: string, name: string)
    requires '/' !in name
    ensures Basename(dir + "/" + name) == name
  {
    var path := dir + "/" + name;
    var b := Basename(path);
    assert path[|path| - |name| - 1] == '/';
    assert path[|path| - |name|..] == name;
    if |b| != |name| {
      assert false;
    }
  }

  /** The last piece of a join is a suffix of it. */
  lemma {:induction false} JoinLastSuffix(parts: seq<string>, sep: char)
    requires |parts| >= 1
    ensures var j := Join(parts, sep); |Last(parts)| <= |j| && j[|j| - |Last(parts)|..] == Last(parts)
    ensures var j := Join(parts, sep); |Last(parts)| == |j| || j[|j| - |Last(parts)| - 1] == sep
  {
    if |parts| > 1 {
      JoinLastSuffix(parts[1..], sep);
      assert Last(parts[1..]) == Last(parts);
      var j, r := Join(parts, sep), Join(parts[1..], sep);
      assert j == (parts[0] + [sep]) + r;
      if |Last(parts)| == |r| {
        assert j[|j| - |Last(parts)| - 1] == (parts[0] + [sep])[|parts[0]|];
      } else {
        assert j[|j| - |Last(parts)| - 1] == r[|r| - |Last(parts)| - 1];
      }
    }
  }

  // ---------------------------------------------------------------------------
  // strip

  /** Index of the first non-space character (or `|s|`). */
  function StripStart(s: string): (i: nat)
    ensures i <= |s|
    ensures AllSpace(s[..i])
    ensures i < |s| ==> !IsSpace(s[i])
  {
    if |s| > 0 && IsSpace(s[0]) then
      var i := 1 + StripStart(s[1..]);
      assert s[..i] == [s[0]] + s[1..][..i - 1];
      i
    else 0
  }

  /** One past the last non-space character at or after `lo`, or `lo`. */
  function StripEnd(s: string, lo: nat): (j: nat)
    requires lo <= |s|
    ensures lo <= j <= |s|
    ensures AllSpace(s[j..])
    ensures j > lo ==> !IsSpace(s[j - 1])
    decreases |s| - lo
  {
    if |s| > lo && IsSpace(s[|s| - 1]) then
      var j := StripEnd(s[..|s| - 1], lo);
      assert s[j..] == s[..|s| - 1][j..] + [s[|s| - 1]];
      j
    else |s|
  }

  /** `s.strip()`: `s` without its leading and trailing whitespace. */
  function Strip(s: string): (r: string)
    ensures |r| <= |s|
    ensures r == "" || (!IsSpace(r[0]) && !IsSpace(r[|r| - 1]))
  {
    s[StripStart(s)..StripEnd(s, StripStart(s))]
  }

  /** What `strip` removes is whitespace on both sides of the result. */
  lemma StripParts(s: string)
    ensures exists i | 0 <= i <= |s| - |Strip(s)| ::
      s == s[..i] + Strip(s) + s[i + |Strip(s)|..] && AllSpace(s[..i]) && AllSpace(s[i + |Strip(s)|..])
  {
    var i, j := StripStart(s), StripEnd(s, StripStart(s));
    assert s == s[..i] + s[i..j] + s[j..];
  }

  /** Text whose ends are not whitespace is left alone by `strip`. */
  lemma StripNoop(s: string)
    requires s == "" || (!IsSpace(s[0]) && !IsSpace(s[|s| - 1]))
    ensures Strip(s) == s
  {
  }

  /** `strip` is idempotent, and it yields "" exactly on all-whitespace text. */
  lemma StripIdempotent(s: string)
    ensures Strip(Strip(s)) == Strip(s)
    ensures Strip(s) == "" <==> AllSpace(s)
  {
    StripNoop(Strip(s));
    if Strip(s) == "" {
      var i := StripStart(s);
      var j := StripEnd(s, i);
      assert j == i;
      assert s == s[..i] + s[i..];
    }
  }

  // ---------------------------------------------------------------------------
  // character maps

  /** `s.replace(a, b)` for single characters. */
  function ReplaceChar(s: string, a: char, b: char): (r: string)
    ensures |r| == |s|
    ensures forall k | 0 <= k < |s| :: r[k] == if s[k] == a then b else s[k]
  {
    seq(|s|, k requires 0 <= k < |s| => if s[k] == a then b else s[k])
  }

  function ToUpper(c: char): char {
    if IsLower(c) then (c as int - 32) as char else c
  }

  function ToLower(c: char): char {
    if IsUpper(c) then (c as int + 32) as char else c
  }

  /** Character `k` of `s.title()` on ASCII text: a letter is upper-cased when
      it starts a word (no letter right before it) and lower-cased otherwise. */
  function TitleChar(s: string, k: nat): char
    requires k < |s|
  {
    if k == 0 || !IsLetter(s[k - 1]) then ToUpper(s[k]) else ToLower(s[k])
  }

  /** `s.title()`. */
  function Title(s: string): (r: string)
    ensures |r| == |s|
    ensures forall k | 0 <= k < |s| :: r[k] == TitleChar(s, k)
  {
    seq(|s|, k requires 0 <= k < |s| => TitleChar(s, k))
  }
}

=== FILE: utils.dfy ===
/**
 * core/utils.py: the dotted-key configuration over nested dictionaries and
 * the cache that keeps a memory layer over files on disk.
 *
 * The YAML and JSON files are left out; the disk of the cache is a second
 * map from key to the value its file holds.
 */
module Utils {
  import opened Wrappers
  import Text

  /** The values a configuration or cache entry can hold. */
  datatype Value =
    | VNone
    | VBool(b: bool)
    | VInt(i: int)
    | VStr(s: string)
    | VDict(entries: map<string, Value>)

  type Dict = map<string, Value>

  // ---------------------------------------------------------------------------
  // Config.get

  /** The plain walk: follow each key through dictionaries. */
  function Walk(v: Value, path: seq<string>): Option<Value>
    decreases |path|
  {
    if path == [] then Some(v)
    else if v.VDict? && path[0] in v.entries then Walk(v.entries[path[0]], path[1..])
    else None
  }

  /** The loop of `Config.get` from node `v`: a key that is missing or maps
      to `None`, or a node that is not a dictionary, gives the default. */
  function GetPath(v: Value, path: seq<string>, default: Value): Value
    decreases |path|
  {
    if path == [] then v
    else if !v.VDict? then default
    else if path[0] !in v.entries || v.entries[path[0]] == VNone then default
    else GetPath(v.entries[path[0]], path[1..], default)
  }

  /** `Config.get(key, default)`. */
  function Get(config: Dict, key: string, default: Value): (r: Value)
    ensures var w := Walk(VDict(config), Text.Split(key, '.'));
      r == (if w.Some? && w.value != VNone then w.value else default)
  {
    GetMeaning(VDict(config), Text.Split(key, '.'), default);
    GetPath(VDict(config), Text.Split(key, '.'), default)
  }

  /** The loop's early `None` check changes nothing: `get` is the plain walk,
      with a missing path or a `None` at its end giving the default. */
  lemma {:induction false} GetMeaning(v: Value, path: seq<string>, default: Value)
    requires path != [] && v.VDict?
    ensures var w := Walk(v, path);
      GetPath(v, path, default) == (if w.Some? && w.value != VNone then w.value else default)
    decreases |path|
  {
    if path[0] in v.entries {
      var child := v.entries[path[0]];
      if path[1..] != [] && child.VDict? {
        GetMeaning(child, path[1..], default);
      }
    }
  }

  // ---------------------------------------------------------------------------
  // Config.set

  /** The loop of `Config.set` on the path: each intermediate key that is
      missing gets an empty dictionary; `None` when an intermediate value is
      not a dictionary (Python raises `TypeError` there). */
  function SetPath(d: Dict, path: seq<string>, value: Value): (r: Option<Dict>)
    requires |path| >= 1
    ensures r.Some? ==> r.value.Keys == d.Keys + {path[0]}
    ensures r.Some? ==> forall k | k in d && k != path[0] :: r.value[k] == d[k]
    decreases |path|
  {
    var k := path[0];
    if |path| == 1 then Some(d[k := value])
    else
      var child := if k in d then d[k] else VDict(map[]);
      if !child.VDict? then None
      else match SetPath(child.entries, path[1..], value)
        case None => None
        case Some(inner) => Some(d[k := VDict(inner)])
  }

  /** Where `set` succeeds: every proper prefix of the path is missing or a
      dictionary. */
  predicate Settable(d: Dict, path: seq<string>)
    requires |path| >= 1
    decreases |path|
  {
    |path| == 1 ||
      (path[0] !in d ||
        (d[path[0]].VDict? && Settable(d[path[0]].entries, path[1..])))
  }

  /** `Config.set(key, value)`; the file write after it is left out. */
  function Set(config: Dict, key: string, value: Value): (r: Option<Dict>)
    ensures r.Some? <==> Settable(config, Text.Split(key, '.'))
  {
    SettableMeaning(config, Text.Split(key, '.'), value);
    SetPath(config, Text.Split(key, '.'), value)
  }

  lemma {:induction false} SettableMeaning(d: Dict, path: seq<string>, value: Value)
    requires |path| >= 1
    ensures SetPath(d, path, value).Some? <==> Settable(d, path)
    decreases |path|
  {
    if |path| > 1 {
      var k := path[0];
      var child := if k in d then d[k] else VDict(map[]);
      if child.VDict? {
        SettableMeaning(child.entries, path[1..], value);
        if k !in d {
          EmptySettable(path[1..]);
        }
      }
    }
  }

  /** A path through new empty dictionaries can always be set. */
  lemma {:induction false} EmptySettable(path: seq<string>)
    requires |path| >= 1
    ensures Settable(map[], path)
  {
  }

  /** After a successful set, the walk along the path finds the value. */
  lemma {:induction false} SetPathThenWalk(d: Dict, path: seq<string>, value: Value)
    requires |path| >= 1 && SetPath(d, path, value).Some?
    ensures Walk(VDict(SetPath(d, path, value).value), path) == Some(value)
    decreases |path|
  {
    if |path| > 1 {
      var k := path[0];
      var child := if k in d then d[k] else VDict(map[]);
      SetPathThenWalk(child.entries, path[1..], value);
    }
  }

  /** `set(k, v)` followed by `get(k)` gives `v` back for every `v` other
      than `None`. */
  lemma SetThenGet(config: Dict, key: string, value: Value, default: Value)
    requires Set(config, key, value).Some? && value != VNone
    ensures Get(Set(config, key, value).value, key, default) == value
  {
    SetPathThenWalk(config, Text.Split(key, '.'), value);
  }

  /** Two paths that part at some position: neither lies below the other. */
  predicate Diverge(p: seq<string>, q: seq<string>) {
    exists i | 0 <= i < |p| && i < |q| :: p[i] != q[i] && p[..i] == q[..i]
  }

  /** `set` leaves every path that parts from the key's path unchanged. */
  lemma {:induction false} SetPathFrame(d: Dict, path: seq<string>, value: Value, other: seq<string>)
    requires |path| >= 1 && SetPath(d, path, value).Some? && Diverge(path, other)
    ensures Walk(VDict(SetPath(d, path, value).value), other) == Walk(VDict(d), other)
    decreases |path|
  {
    var r := SetPath(d, path, value).value;
    var i :| 0 <= i < |path| && i < |other| && path[i] != other[i] && path[..i] == other[..i];
    if i > 0 {
      assert other[0] == other[..i][0] == path[0];
      var k := path[0];
      var child := if k in d then d[k] else VDict(map[]);
      assert path[1..][..i - 1] == path[..i][1..] == other[..i][1..] == other[1..][..i - 1];
      assert Diverge(path[1..], other[1..]);
      SetPathFrame(child.entries, path[1..], value, other[1..]);
      if k !in d {
        WalkEmpty(other[1..]);
      }
    }
  }

  /** Walking an empty dictionary finds nothing. */
  lemma WalkEmpty(other: seq<string>)
    requires other != []
    ensures Walk(VDict(map[]), other) == None
  {
  }

  /** `set` on one dotted key keeps the value of every key whose path parts
      from it. */
  lemma SetFrame(config: Dict, key: string, value: Value, other: string, default: Value)
    requires Set(config, key, value).Some? && Diverge(Text.Split(key, '.'), Text.Split(other, '.'))
    ensures Get(Set(config, key, value).value, other, default) == Get(config, other, default)
  {
    SetPathFrame(config, Text.Split(key, '.'), value, Text.Split(other, '.'));
  }

  // ---------------------------------------------------------------------------
  // Config.reset / _get_default_config

  function Downloads(): Dict {
    map["video_path" := VStr("VideosDownloads"), "audio_path" := VStr("AudiosDownloads"),
        "general_path" := VStr("Downloads"), "max_retries" := VInt(3), "timeout" := VInt(30)]
  }

  function Network(): Dict {
    map["timeout" := VInt(10), "ping_count" := VInt(4), "traceroute_max_hops" := VInt(30)]
  }

  function SecuritySettings(): Dict {
    map["min_password_length" := VInt(12), "show_password" := VBool(false)]
  }

  function SystemSettings(): Dict {
    map["clear_screen" := VBool(true), "confirm_dangerous" := VBool(true)]
  }

  /** `_get_default_config`. */
  function Defaults(): Dict {
    map["version" := VStr("2.0.0"), "theme" := VStr("cyberpunk"), "language" := VStr("en"),
        "auto_update" := VBool(true), "log_level" := VStr("INFO"), "max_log_size" := VInt(10485760),
        "max_log_backups" := VInt(5), "show_animations" := VBool(true), "terminal_width" := VStr("auto"),
        "downloads" := VDict(Downloads()), "network" := VDict(Network()),
        "security" := VDict(SecuritySettings()), "system" := VDict(SystemSettings())]
  }

  /** `Config.reset`: the configuration becomes the defaults, whatever it
      held before. */
  function Reset(config: Dict): (r: Dict)
    ensures "downloads" in r && r["downloads"].VDict?
    ensures Walk(VDict(r), ["downloads", "max_retries"]) == Some(VInt(3))
    ensures Walk(VDict(r), ["security", "min_password_length"]) == Some(VInt(12))
  {
    Defaults()
  }

  /** The defaults along four paths. */
  lemma DefaultPaths()
    ensures Walk(VDict(Defaults()), ["downloads", "max_retries"]) == Some(VInt(3))
    ensures Walk(VDict(Defaults()), ["downloads", "video_path"]) == Some(VStr("VideosDownloads"))
    ensures Walk(VDict(Defaults()), ["network", "ping_count"]) == Some(VInt(4))
    ensures Walk(VDict(Defaults()), ["theme"]) == Some(VStr("cyberpunk"))
  {
    assert Defaults()["downloads"] == VDict(Downloads());
    assert Defaults()["network"] == VDict(Network());
  }

  /** A dotted key splits into its parts when no part holds a dot. */
  lemma SplitsInto(key: string, parts: seq<string>)
    requires |parts| >= 1 && Text.Join(parts, '.') == key
    requires forall i | 0 <= i < |parts| :: '.' !in parts[i]
    ensures Text.Split(key, '.') == parts
  {
    Text.SplitJoin(parts, '.');
  }

  /** The dotted keys the reset lemmas read, one lemma each. */
  lemma MaxRetriesKey()
    ensures Text.Split("downloads.max_retries", '.') == ["downloads", "max_retries"]
  {
    SplitsInto("downloads.max_retries", ["downloads", "max_retries"]);
  }

  lemma VideoPathKey()
    ensures Text.Split("downloads.video_path", '.') == ["downloads", "video_path"]
  {
    SplitsInto("downloads.video_path", ["downloads", "video_path"]);
  }

  lemma PingCountKey()
    ensures Text.Split("network.ping_count", '.') == ["network", "ping_count"]
  {
    SplitsInto("network.ping_count", ["network", "ping_count"]);
  }

  lemma ThemeKey()
    ensures Text.Split("theme", '.') == ["theme"]
  {
    SplitsInto("theme", ["theme"]);
  }

  /** After `reset`, dotted lookups read the defaults. */
  lemma ResetDefaults(config: Dict, default: Value)
    ensures Get(Reset(config), "downloads.max_retries", default) == VInt(3)
    ensures Get(Reset(config), "downloads.video_path", default) == VStr("VideosDownloads")
    ensures Get(Reset(config), "network.ping_count", default) == VInt(4)
    ensures Get(Reset(config), "theme", default) == VStr("cyberpunk")
  {
    MaxRetriesKey();
    VideoPathKey();
    PingCountKey();
    ThemeKey();
    DefaultPaths();
  }

  // ---------------------------------------------------------------------------
  // Cache

  /** The cache: the memory layer and the files on disk, by key. */
  datatype Cache = Cache(memory: Dict, disk: Dict)

  /** `Cache.set(key, value, persist)`: memory always, the file only when
      asked. */
  function CacheSet(c: Cache, key: string, value: Value, persist: bool): (r: Cache)
    ensures r.memory.Keys == c.memory.Keys + {key} && r.memory[key] == value
    ensures forall k | k in c.memory && k != key :: r.memory[k] == c.memory[k]
    ensures persist ==> r.disk.Keys == c.disk.Keys + {key} && r.disk[key] == value
    ensures persist ==> forall k | k in c.disk && k != key :: r.disk[k] == c.disk[k]
    ensures !persist ==> r.disk == c.disk
  {
    Cache(c.memory[key := value], if persist then c.disk[key := value] else c.disk)
  }

  /** `Cache.get(key, default)`: memory first; a file hit is copied into
      memory; otherwise the default. */
  function CacheGet(c: Cache, key: string, default: Value): (r: (Value, Cache))
    ensures key in c.memory ==> r == (c.memory[key], c)
    ensures key !in c.memory && key in c.disk ==>
      r.0 == c.disk[key] && r.1.disk == c.disk && r.1.memory == c.memory[key := c.disk[key]]
    ensures key !in c.memory && key !in c.disk ==> r == (default, c)
  {
    if key in c.memory then (c.memory[key], c)
    else if key in c.disk then (c.disk[key], Cache(c.memory[key := c.disk[key]], c.disk))
    else (default, c)
  }

  /** What a lookup finds, as a single view: memory over disk. */
  function View(c: Cache): Dict {
    map k | k in c.memory.Keys + c.disk.Keys :: if k in c.memory then c.memory[k] else c.disk[k]
  }

  /** `get` reads the view and does not change it: promoting a file hit
      into memory is invisible to later lookups. */
  lemma CacheGetReadsView(c: Cache, key: string, default: Value)
    ensures CacheGet(c, key, default).0 == (if key in View(c) then View(c)[key] else default)
    ensures View(CacheGet(c, key, default).1) == View(c)
  {
  }

  /** `set(k, v)` followed by `get(k)` gives `v`, whether or not it was
      persisted. */
  lemma CacheSetThenGet(c: Cache, key: string, value: Value, persist: bool, default: Value)
    ensures CacheGet(CacheSet(c, key, value, persist), key, default).0 == value
  {
  }

  /** `Cache.clear(key)`: a non-empty key is dropped from memory and its file
      removed; no key, or the empty key, which Python treats as false,
      empties memory and removes every file. */
  function CacheClear(c: Cache, key: Option<string>): (r: Cache)
    ensures key.Some? && key.value != "" ==>
      r.memory == c.memory - {key.value} && r.disk == c.disk - {key.value}
    ensures key.None? || key.value == "" ==> r.memory == map[] && r.disk == map[]
  {
    match key
    case Some(k) => if k != "" then Cache(c.memory - {k}, c.disk - {k}) else Cache(map[], map[])
    case None => Cache(map[], map[])
  }

  /** After clearing a key, `get` on it gives the default, and every other
      key reads as before. */
  lemma CacheClearForgets(c: Cache, key: string, other: string, default: Value)
    requires key != ""
    ensures CacheGet(CacheClear(c, Some(key)), key, default).0 == default
    ensures other != key ==>
      CacheGet(CacheClear(c, Some(key)), other, default).0 == CacheGet(c, other, default).0
  {
  }
}

=== FILE: wrappers.dfy ===
/** Failure-compatible helper datatypes shared by every module of the model. */
module Wrappers {

  /** Python's `Optional[T]`: a value, or `None`. */
  datatype Option<+T> = None | Some(value: T) {

    /** The wrapped value, or `default` when there is none. */
    function GetOr(default: T): T {
      match this
      case Some(v) => v
      case None => default
    }
  }
}
